=== FILE: README.md ===
# Credits and try-on jobs, modelled in Dafny

This project models the credit accounting and job orchestration of a virtual
try-on web application. Users hold a `credits` balance in the public metadata
of their identity-provider (Clerk) account. Generating an image costs credits:
1 credit, or 3 in "Plus" mode, which renders a front, a side and a full-body
view. A video costs 5 credits. PayPal orders, Payhip webhooks and Paddle
webhooks add credits. Generation jobs run on Replicate. The browser client
starts a job and then polls its status.

Every HTTP handler is a pure function. It takes the request, the user
directory (`Ledger.Directory`) and oracles for everything external, and it
returns a `Ledger.Step`: the reply plus the directory after the request. The
oracles cover Clerk token checks, PayPal order lookup, Replicate, the HMAC and
base64 primitives, `JSON.parse` and `Number(..)`/`String(..)`. A flag
`writeOk` says whether the final metadata write succeeds.

JavaScript values are modelled explicitly by `Js.Value` and `Js.Number`.
That covers `undefined`, `null`, truthiness, NaN and the infinities, `+` on
strings, `Math.round`, and `includes`. Metadata is stored as JSON, so a
balance written as NaN or an infinity is stored as `null` (`Ledger.Written`);
a handler that reads it back sees `null`, not the number it wrote. The handlers' defaults are kept as
written:
- a missing balance is 3 on the Express server;
- a non-numeric balance is 3 on the video function;
- a non-numeric balance is 0 on the PayPal and Payhip paths;
- the Paddle path uses `|| 0`.

Modules, in dependency order:
- `Basics`: `Option` and `Result`.
- `Js`: JavaScript values and arithmetic.
- `Text`: `trim`, `split`/`join`, `replace`, ASCII `toLowerCase`.
- `Http`: reply bodies and bearer tokens.
- `Ledger`: users, lookups and the metadata update.
- `Credits`: the amount-to-credits conversion.
- `Retry`: Replicate's rate-limit retry.
- `Jobs`: composite job ids and status polling.
- `Types`: garment categories.
- `Prompts`: the server's prompts and data URIs.
- `Generate`: the Express generate endpoint.
- `AddPoints`: PayPal, Express and Netlify.
- `Signature`: Payhip signature checking.
- `Payhip`: the Payhip webhook.
- `Paddle`: the Paddle webhook.
- `Video`: video generation.
- `TryOn`: the Netlify generate function.
- `Client`: the browser's API service.
- `Gemini`: the Gemini-backed service.

The two amount-to-credits conversions differ:
- The Express server gives 10 credits for a $13 payment.
- The Netlify function gives `round(13 * rate)`, which is 26 at the default rate.

`Credits.ThirteenDollarPackage` states both.

The browser client expects the start request to return a prediction `id`.
The Netlify generate function instead answers with the finished views and no
id, so against it the client always fails with "No prediction ID returned
from server." before polling. `Client.ViewsWithoutIdAreRefused` states this.

## Model

| member | source | states |
|---|---|---|
| Ledger.FindUser | server/index.ts:162-166 | `users.getUser(id)`: the index found holds the id and no earlier user has it; none found means no user has it |
| Ledger.FindByEmail | netlify/functions/webhooks/payhip.js:121-125 | the first user listing the address; none found means no user lists it |
| Ledger.CreditsReadBack | netlify/functions/video-generate.js:41-57 | a finite balance is read back as written whatever default the reader falls back to; NaN or an infinity is stored as null and reads as the reader's default; no other account's balance moves |
| Ledger.UpdateMetadata | server/index.ts:173-188 | only the target user changes; the given top-level keys replace theirs and every other key is kept |
| Ledger.SameAccountsSameLookups | server/index.ts:173-188 | metadata writes never change which user an id or an e-mail resolves to |
| Ledger.UpdateKeepsAccounts | server/index.ts:173-188 | a metadata update keeps every account's id and e-mails in place |
| Http.BearerToken | netlify/functions/user/add-points.js:79-86 | no header or a non-`Bearer ` header gives no token; a token never contains a blank |
| Http.BearerTokenRoundTrip | netlify/functions/video-generate.js:32-36 | the `Bearer ${token}` header the client sends yields its token back |
| Credits.NetlifyCredits | netlify/functions/user/add-points.js:54-61 | a non-finite or non-positive amount, or a non-positive rate, gives 0; otherwise the amount times the rate rounded to the nearest integer (NaN/Infinity rates propagate) |
| Credits.ServerCredits | server/index.ts:115-128 | an amount within a cent of $13 gives 10 credits; otherwise the same rule as the Netlify function |
| Credits.NetlifyCreditsTruthy | server/index.ts:157-160 | with a positive rate, the `!creditsToAdd` rejection is avoided exactly when the amount is positive and worth at least half a credit |
| Credits.HalfCreditRounding | server/index.ts:127 | a positive product rounds to a non-zero count exactly from 0.5 up |
| Credits.ThirteenDollarPackage | server/index.ts:119-121 | at the default rate $13 is 10 credits on the server and 26 on Netlify |
| Retry.FirstMatchIsLeftmost | server/index.ts:50 | the match `FirstMatch` reports is the leftmost `"retry_after":<blanks><digits>` occurrence, and it reports none only when there is no occurrence |
| Retry.WaitTimeFollowsPattern | server/index.ts:46-56 | when `"retry_after":<digits>` occurs in the message the wait is its leftmost occurrence's seconds times 1000; the error's own `retry_after` times 1000, or else 2000 ms, is used only when the pattern occurs nowhere in it |
| Retry.RunFrom | server/index.ts:37-64 | every call before the last threw a rate-limit error and was retried; the last call either succeeded, threw a non-rate-limit error, or was the final attempt |
| Retry.CreateWithRetry | server/index.ts:37-64 | at most 3 calls; one wait per retried rate-limit error; the outcome is the last call's result |
| Retry.FirstSuccessIsFinal | server/index.ts:40 | a first successful call is returned without retries |
| Retry.OtherErrorsAreNotRetried | server/index.ts:61 | a first error that is not a rate limit is rethrown after one call |
| Retry.SuccessAfterTwoRateLimits | server/index.ts:45-59 | two rate limits and then a success gives the success after 3 calls and 2 waits |
| Retry.ThirdRateLimitIsRethrown | server/index.ts:45 | a rate limit on the last attempt is rethrown |
| Retry.RetryAfterFromMessage | server/index.ts:50-52 | `"retry_after": 7` in the message waits 7000 ms |
| Jobs.ComposedIdRoundTrip | server/index.ts:341 | splitting the bar-joined prediction ids gives them back, and a composed id of several ids contains the bar separator |
| Jobs.SplitIdRoundTrip | server/index.ts:393-394 | joining the parts of a split id gives the id back |
| Jobs.NormalizeOutputIdempotent | netlify/functions/generate.js:59-68 | normalising the output a second time changes nothing, so the URL reported is a fixed point of the extraction |
| Jobs.NormalizationsAgree | server/index.ts:404-409 | the two URL extractions agree on every URL-shaped output and differ only on the fallback |
| Jobs.ShapesNormalizeAlike | server/index.ts:404-409 | a URL given as a string, a one-element array or `{url}` is extracted alike |
| Jobs.FirstStopped | server/index.ts:399 | the first failed or canceled sub-job; none means no sub-job stopped |
| Jobs.Aggregate | server/index.ts:398-426 | all succeeded gives the three view URLs (500 when fewer than 3); else the first stopped sub-job's error; else "processing" |
| Jobs.AggregateKindIgnoresOrder | server/index.ts:398-426 | permuting the sub-jobs does not change whether the aggregate succeeded, failed or is still processing |
| Jobs.SuccessIgnoresOrder | server/index.ts:398 | all-succeeded is preserved by permutation |
| Jobs.StopIgnoresOrder | server/index.ts:399 | a stopped sub-job is found in any order of the sub-jobs |
| Client.SingleStatusReadByClient | server/index.ts:430-458 | the client reads the single-job reply as meant: a succeeded job's one URL fills all three views; a failed or canceled job is thrown as "Generation failed: " with its error (or "Unknown error"); any other state makes it poll again |
| Jobs.FetchAll | server/index.ts:395 | all fetched in order, or the error of one fetch that failed |
| Client.PlusStatusReadByClient | server/index.ts:393-428 | the client reads a Plus-mode reply view by view, an empty side or full view falling back to the front one; a stopped sub-job is thrown as a generation failure; a running job, or the 500 for fewer than three ids, makes it poll again |
| Client.FailedPollsAreRetried | server/index.ts:385-462 | a missing id and every failed upstream lookup of the status endpoint are answered with an error status, which the client treats as "poll again" |
| Jobs.AggregateExamples | server/index.ts:398-426 | three successes give views; a success and a failure give a failure; a pending sub-job with no failure gives "processing" |
| Types.WireName | types.ts:15-23 | each garment category has a non-empty wire name |
| Types.WireNamesDistinct | types.ts:15-23 | distinct categories have distinct wire names |
| Prompts.HintsCoverCategories | server/index.ts:255-266 | a key has a non-empty hint exactly when it is the wire name of a garment category other than "other" |
| Prompts.DescriptionKeptIffNoCategory | server/index.ts:253-267 | a client description comes back unchanged exactly when the type sent with it is not one of the hinted categories |
| Prompts.DescriptionNamesCategory | server/index.ts:253-267 | every listed category except "other" adds its hint; "other" or no category keeps the description; no description gives the default |
| Prompts.TryOnPrompt | server/index.ts:304-308 | the prompt starts with the lead, the description and the garment sentence; makeover mode appends the makeover sentence to the plain prompt |
| Prompts.ViewPrompts | server/index.ts:324-328 | three prompts: the fixed front prompt, then side and full-body prompts carrying the description |
| Prompts.ViewPromptsDistinct | server/index.ts:324-328 | the three Plus-mode prompts differ pairwise |
| Prompts.DataUri | server/index.ts:293-302 | a data URI is kept; anything else gets the PNG base64 prefix, so the result is always a data URI |
| Prompts.DataUriIdempotent | server/index.ts:293-302 | wrapping twice is wrapping once |
| Prompts.DataUriRoundTrip | server/index.ts:293-302 | stripping the prefix from a wrapped payload gives the payload back |
| Prompts.EnsureDataUri | netlify/functions/generate.js:28-33 | non-strings pass through; http and data URIs are kept; other strings get the PNG prefix |
| Prompts.EnsureDataUriIdempotent | netlify/functions/generate.js:28-36 | applying the wrapper twice is applying it once |
| Generate.PlusModeValues | server/index.ts:228-233 | exactly `true` and `"true"` select Plus mode |
| Generate.BusyMessage | server/index.ts:379-382 | the error reply always carries a non-empty message |
| Generate.CheckRequest | server/index.ts:199-251 | the request proceeds iff it is signed in, the user exists, both images are present and the balance (3 when never set) covers the cost; each refusal has its own reply, in the handler's order: 401 "Unauthorized", 503 for a failed user lookup, 403 asking for payment at a balance of 0 or less, 503 without a body, 400 for a missing image, 403 naming the cost when the balance is below it |
| Generate.Prepare | server/index.ts:286-302 | a failed or empty model-version lookup gives 503 with its message; a person image that is not text makes `startsWith` throw, a 503; a prepared request has a version and two data-URI images, a person image that already was a data URI being sent as it is |
| Generate.Requests | server/index.ts:304-362 | one request, or three in Plus mode, all with the same version and images; the prompts are the try-on prompt or the three view prompts |
| Generate.FirstFailure | server/index.ts:331-339 | the first failed submission; none means all succeeded |
| Generate.Settle | server/index.ts:341-377 | 202 only if every submission succeeded, and then the id (composed in Plus mode) is returned and the balance less the cost is stored (as null when that is not a finite number); otherwise 503 and no change |
| Generate.Submit | server/index.ts:199-383 | nothing is submitted or debited unless every check passed; an accepted request stores the balance less the cost (as null when that is not a finite number) and had every submission succeed; a failed submission gives 503 with no debit |
| Generate.PlusJobIdRoundTrip | server/index.ts:341 | the id of an accepted Plus request splits into its three prediction ids, and polling it aggregates exactly those predictions |
| Generate.DebitKeepsBalanceNonNegative | server/index.ts:345-355 | debiting an affordable finite balance leaves it non-negative and lower by the cost |
| Generate.NonNumericBalancePasses | server/index.ts:215-251 | a NaN balance passes both credit checks, and the NaN debit is stored as null |
| Generate.NonNumericBalancePassesOnce | server/index.ts:209-251 | after a request accepted on a NaN balance the stored balance is null, and the user's next request is refused with 403 asking for payment |
| Generate.FreshAccountExamples | server/index.ts:209-251 | a new account has 3 credits and may run Plus mode; 2.5 credits cannot |
| AddPoints.FailureMessage | server/index.ts:195 | the error reply always carries a non-empty message |
| AddPoints.ValidateOrder | server/index.ts:137-160 | an order is approved iff it has a string id, PayPal returns it, it is completed with a captured amount, any client amount matches and it is worth credits; a missing id gives 400 "Missing orderID", each failed order check its own 400, and a 500 happens exactly when the PayPal lookup fails, carrying its message |
| AddPoints.StringsOf | server/index.ts:164-166 | keeps exactly the string entries of the recorded order list |
| AddPoints.StringsOfCounts | server/index.ts:164-166 | every string entry is kept as often as it occurs and every other entry is dropped |
| AddPoints.StringsOfAppend | server/index.ts:164-166 | filtering keeps the order: the strings of two lists joined are the strings of the first followed by those of the second |
| AddPoints.RecordedOrders | server/index.ts:164-166 | the recorded PayPal order ids are strings |
| AddPoints.CreditUser | server/index.ts:173-188 | the user's balance grows by the credits (a sum that is not finite is stored as null and reads back as 0), the order id is appended exactly once, and no other user changes |
| AddPoints.Apply | server/index.ts:162-197 | new credits are granted exactly for a known user, an order not yet recorded and a working update; every 200 leaves the order recorded for the user and, when the reported balance is finite, reports the balance stored afterwards; any other reply is a 500 that changes nothing |
| AddPoints.AllStringsKept | server/index.ts:164-166 | a list of strings is kept whole |
| AddPoints.CreditOrder | server/index.ts:130-197 | the directory changes only when new credits are granted; a 200 implies an approved order |
| AddPoints.ServerAddPoints | server/index.ts:130-197 | no signed-in user gives 401; credits are added only for a signed-in caller and an approved PayPal order, and then by exactly the order's worth (a sum that is not finite reads back as 0); otherwise no account changes |
| AddPoints.NewCreditAddsOrderWorth | server/index.ts:162-188 | a fresh credit comes from an approved order not yet recorded for a known user; it adds exactly the order's worth to that balance (a sum that is not finite reads back as 0) and appends the order id |
| AddPoints.NetlifyAddPoints | netlify/functions/user/add-points.js:63-141 | OPTIONS is a preflight; other verbs give 405; a missing bearer token gives 401; credits are granted only to the verified token's user |
| AddPoints.CreditOrderIdempotent | server/index.ts:168-171 | replaying a credited order from the same account grants nothing and reports `alreadyProcessed` with the balance stored by the first credit |
| AddPoints.SameOrderCreditsTwoAccounts | server/index.ts:162-188 | as written, an order credited to one account is credited again when a second account submits it, because each account keeps its own list of recorded orders |
| AddPoints.ApplyOnce | server/index.ts:162-197 | an order recorded on any account grants nothing and changes nothing; otherwise the reply is that of the handler as written |
| AddPoints.OrderCreditedOnceAcrossAccounts | server/index.ts:162-188 | with the directory-wide check, once an order is credited to one account, every other account that submits it gets no credit and the directory does not change |
| AddPoints.ThirteenDollarOrder | server/index.ts:115-128 | a completed $13.00 order is 10 credits on the server and 26 on Netlify |
| Signature.AfterLastPadding | netlify/functions/webhooks/payhip.js:17-20 | the text after the last `=` has no `=`; a text without `=` is kept |
| Signature.NormalizeSignature | netlify/functions/webhooks/payhip.js:14-22 | an empty signature is refused; the result never contains `=`; a trimmed signature without `=` is kept |
| Signature.AfterWordAndPadding | netlify/functions/webhooks/payhip.js:17-20 | `name=value` normalises to `value` |
| Signature.PaddedSignatureIsLost | netlify/functions/webhooks/payhip.js:14-22 | a base64 signature ending in padding normalises to "" and is never accepted |
| Signature.PaddingLength | netlify/functions/webhooks/payhip.js:14-22 | the length of the run of `=` at the end of a text |
| Signature.FixedAgreesOnUnpadded | netlify/functions/webhooks/payhip.js:14-22 | on a text not ending in `=` the correction changes nothing |
| Signature.FixedAgreesWithoutPadding | netlify/functions/webhooks/payhip.js:14-22 | the two normalisations agree on every signature without trailing padding |
| Signature.FixedKeepsPaddedBase64 | netlify/functions/webhooks/payhip.js:14-22 | a padded base64 signature, alone or after `name=`, is kept whole by the correction |
| Signature.PaddingOf | netlify/functions/webhooks/payhip.js:14-22 | the padding run of `a + pad` is exactly `pad` |
| Signature.HexValue | netlify/functions/webhooks/payhip.js:28-30 | a hex digit's value is below 16 |
| Signature.HexEncodeOfDecode | netlify/functions/webhooks/payhip.js:28-30 | lower-case hex text with an even number of digits survives decoding and encoding again unchanged |
| Signature.HexDigit | netlify/functions/webhooks/payhip.js:28-30 | the digit encodes the value |
| Signature.HexRoundTrip | netlify/functions/webhooks/payhip.js:28-30 | decoding an encoded digest gives it back |
| Signature.SignatureBytes | netlify/functions/webhooks/payhip.js:24-37 | a 64-digit hex signature is decoded as hex, anything else as base64; it gives no bytes exactly when the signature is empty or normalises to nothing |
| Signature.IsValidSignature | netlify/functions/webhooks/payhip.js:39-46 | valid iff the signature and secret are non-empty and the decoded signature equals the body's HMAC-SHA256 |
| Signature.HexSignatureNormalizes | netlify/functions/webhooks/payhip.js:14-22 | `name=<hex>` normalises to the hex digest under both normalisations |
| Signature.HexSignatureAccepted | netlify/functions/webhooks/payhip.js:24-46 | the correct hex HMAC after a `name=` prefix is accepted under both normalisations |
| Signature.Base64SignatureOutcome | netlify/functions/webhooks/payhip.js:14-46 | the correct padded base64 HMAC is refused as written and accepted by the correction |
| Payhip.HeaderValue | netlify/functions/webhooks/payhip.js:6-12 | the first non-empty header among the names; none means every one is missing or empty |
| Payhip.DropSeparators | netlify/functions/webhooks/payhip.js:52-55 | a suffix of the text that does not start with a separator |
| Payhip.CollapseSeparators | netlify/functions/webhooks/payhip.js:52-55 | the result has no blank, `.` or `-`, and lower-case input stays lower-case |
| Payhip.CollapseKeepsPlainText | netlify/functions/webhooks/payhip.js:52-55 | text with no separator is unchanged |
| Payhip.LowerKeepsLowerText | netlify/functions/webhooks/payhip.js:52-55 | lower-casing lower-case text changes nothing |
| Payhip.NormalizeEventType | netlify/functions/webhooks/payhip.js:52-55 | a falsy event type gives nothing; what comes out has no upper-case letter and no blank, `.` or `-`, the form the allowed events are written in |
| Payhip.NormalizeEventTypeIdempotent | netlify/functions/webhooks/payhip.js:52-55 | normalising a normalised event type changes nothing |
| Payhip.DropRun | netlify/functions/webhooks/payhip.js:52-55 | a run of separators before a word is dropped |
| Payhip.CollapseJoinsWords | netlify/functions/webhooks/payhip.js:52-55 | two words around a separator run become `word_word` (so `Payment.Completed` becomes `payment_completed`) |
| Payhip.EmailOf | netlify/functions/webhooks/payhip.js:57-71 | an address found is lower-case with no blank at either end; a first truthy candidate that is not a string gives nothing |
| Payhip.EmailIsTrimmed | netlify/functions/webhooks/payhip.js:57-71 | a padded `buyer_email` yields the bare address |
| Payhip.CreditBuyer | netlify/functions/webhooks/payhip.js:135-150 | the buyer gains 10 credits (a sum that is not finite is stored as null), the transaction id is appended when there is one, and nobody else changes |
| Payhip.TargetOf | netlify/functions/webhooks/payhip.js:110-133 | a delivery credits someone iff its event is a payment event, it names an e-mail of a known user, and its transaction id is not already recorded |
| Payhip.Deliver | netlify/functions/webhooks/payhip.js:89-151 | for a given signature normalisation (the handler as written uses `NormalizeSignature`): non-POST gives 405; a missing or invalid signature 400 "Webhook Error"; an unparsable body 400 "Invalid JSON"; a failed user search for a payment event with an e-mail 500; an ignored delivery 200 "OK"; only an authentic delivery that targets a user changes the directory, and then by exactly the credit |
| Payhip.PaddedBase64Delivery | netlify/functions/webhooks/payhip.js:95-101 | a correct base64 HMAC ending in `=` is refused with 400 "Webhook Error" by the handler as written, and gets past the signature check with the corrected normalisation |
| Payhip.RedeliveryWithIdIsIgnored | netlify/functions/webhooks/payhip.js:127-133 | under any signature normalisation, the one the handler uses included, a redelivered payment with a transaction id is acknowledged without further credit |
| Payhip.RedeliveryWithoutIdCreditsAgain | netlify/functions/webhooks/payhip.js:127-150 | under any signature normalisation, a redelivered payment without a transaction id credits the buyer a second time |
| Paddle.ToppedUpNumbers | netlify/functions/webhook.js:44-48 | a truthy numeric balance gains 50; a missing, zero or NaN balance becomes 50 |
| Paddle.Recipient | netlify/functions/webhook.js:31-35 | a recipient exists iff `customData` and its `userId` are truthy |
| Paddle.Deliver | netlify/functions/webhook.js:8-62 | non-POST gives 405; a missing signature or secret gives 400; a failed `unmarshal` gives 500 "Server Error"; an event other than `transaction.completed` gives 200 "OK"; a completed event without data is a 500 and one without `customData.userId` a 200; an unknown user or a failed write gives 500; only a completed transaction for a known user, with a successful write, changes the directory, and only by the top-up |
| Paddle.TopUp | netlify/functions/webhook.js:43-50 | only the paying user's balance changes, to the topped-up value (stored as null when that is not a finite number) |
| Paddle.CompletedTransactionCredits | netlify/functions/webhook.js:30-56 | a completed transaction for a known user is acknowledged and tops them up |
| Paddle.ToppedUpFinite | netlify/functions/webhook.js:44-48 | a non-zero finite balance gains exactly 50 |
| Paddle.PaidDelivery | netlify/functions/webhook.js:30-56 | one paid delivery adds 50 credits and keeps every account |
| Paddle.RedeliveryCreditsTwice | netlify/functions/webhook.js:30-56 | with no idempotence check, a delivery repeated twice adds 100 credits |
| Video.Request | netlify/functions/video-generate.js:8-83 | OPTIONS is a preflight; other verbs give 405; a body that does not parse gives 500 with the parser's message; a missing or unverified token, an unknown user or a failed write gives 401 "Unauthorized: Please login first."; a balance (default 3) below 5 gives 403; the job starts (200) iff none of these happens, and then exactly 5 credits are debited (a result that is not finite is stored as null); otherwise nothing changes |
| Video.ChargeKeepsBalanceNonNegative | netlify/functions/video-generate.js:46-58 | an accepted video leaves a finite balance lowered by 5 and non-negative |
| Video.NewUserIsRefused | netlify/functions/video-generate.js:41-50 | a user with no stored balance (3 by default) is refused with 403 |
| TryOn.ErrorText | netlify/functions/generate.js:81-86 | the 500 message is never empty, and a non-empty error message is kept |
| TryOn.NetlifyPrompt | netlify/functions/generate.js:47 | the prompt carries the description right after the lead |
| TryOn.InputOf | netlify/functions/generate.js:35-48 | both images are passed through the data-URI wrapper, in order; the prompt names the client's description, or "A cool outfit" when there is none |
| TryOn.Generate | netlify/functions/generate.js:3-88 | non-POST gives 405; 400 iff an image is missing; 200 iff the model run succeeds, and then the one URL fills all three views; a 500 always explains itself |
| TryOn.PromptsAgree | netlify/functions/generate.js:47 | the Netlify prompt is the server's plain prompt without its identity sentence |
| TryOn.NetlifyPromptInjective | netlify/functions/generate.js:37-47 | different descriptions give different prompts |
| TryOn.InputIsStable | netlify/functions/generate.js:28-36 | the images sent to the model are already wrapped |
| TryOn.RawBase64IsWrapped | netlify/functions/generate.js:28-36 | a raw base64 person image is sent as a PNG data URI carrying the same payload |
| Client.ChooseImage | src/services/apiService.ts:42-43 | a file goes through the resizer; otherwise the base64 text, else the URL |
| Client.StartError | src/services/apiService.ts:60-70 | a non-JSON failure gives a non-empty message; a JSON failure carries the server's error |
| Client.StartJob | src/services/apiService.ts:46-77 | a job starts iff the reply is OK, parses and carries a truthy id; an OK reply without an id fails with "No prediction ID" |
| Client.ViewsOf | src/services/apiService.ts:96-102 | the front view is taken as it is; a missing side or full view falls back to the front |
| Client.PollStep | src/services/apiService.ts:92-106 | the client keeps polling iff the reply is not OK or is not yet settled; success gives the views; failed or canceled throws "Generation failed" |
| Client.PollFrom | src/services/apiService.ts:80-111 | at most 40 status requests; every request before the last said "keep waiting"; the last one finished the job, or the 40th one timed out |
| Client.PollLoop | src/services/apiService.ts:80-111 | the loop makes 1 to 40 requests and ends exactly as the recursive definition says |
| Client.Rethrown | src/services/apiService.ts:113-116 | an empty error message is replaced by the Arabic connection error; other outcomes are kept |
| Client.PerformTryOn | src/services/apiService.ts:39-117 | at most 40 status requests, and some only after both images were chosen and the job started; a thrown message is never empty |
| Client.ImmediateSuccess | src/services/apiService.ts:84-102 | a success on the first poll returns after one request |
| Client.AllWaitingTimesOut | src/services/apiService.ts:84-111 | if every poll says "keep waiting", the client times out after exactly 40 requests |
| Client.ViewsWithoutIdAreRefused | src/services/apiService.ts:72-77 | the Netlify generate reply, which has views but no id, makes the client fail before it polls |
| Gemini.GarmentName | services/geminiService.ts:64-75 | "other" is "clothing item"; every other category is its wire name with `_` read as a blank |
| Gemini.ReplaceUnderscores | services/geminiService.ts:64-75 | no `_` is left, each one having become a blank; a name without `_` is unchanged |
| Gemini.GarmentNamesDistinct | services/geminiService.ts:64-75 | distinct categories get distinct names |
| Gemini.BasePrompt | services/geminiService.ts:76-83 | the base prompt starts with its lead followed by the garment name |
| Gemini.ViewSentence | services/geminiService.ts:85-94 | each listed view adds its own sentence; the default branch adds none |
| Gemini.CreatePrompt | services/geminiService.ts:63-95 | every prompt extends the base prompt, and only the default branch returns it unchanged |
| Gemini.ViewPromptsDistinct | services/geminiService.ts:85-94 | different views give different prompts |
| Gemini.AfterComma | services/geminiService.ts:12 | the payload after the first comma exists iff the text has a comma |
| Gemini.GetImageData | services/geminiService.ts:9-61 | base64 input is split at the comma and keeps its MIME type; with no base64 and no URL it fails with "No source found" |
| Gemini.DataUrlRoundTrip | services/geminiService.ts:9-15 | a comma-free data URL is rebuilt unchanged from its payload |
| Gemini.ViewResult | services/geminiService.ts:107-134 | an OK reply gives its text; a failure without an error message gives "Failed to generate <view> view" |
| Gemini.PerformTryOn | services/geminiService.ts:97-138 | a result comes back exactly when both images load and all three views succeed, and it holds each view's own text; a person-image, cloth-image or front-view error is reported |
| Gemini.SuccessfulViewsInOrder | services/geminiService.ts:97-138 | three successful replies give their texts as the front, side and full-body views, in that order |
| Gemini.FencedJson | services/geminiService.ts:174-178 | a JSON fence around a fence-free answer is stripped |
| Gemini.StripFencesIdempotent | services/geminiService.ts:177 | stripping fences twice is stripping once |
| Gemini.AnalyzeStyle | services/geminiService.ts:140-192 | a reply whose cleaned text parses gives the parsed analysis; any failure gives the fallback (85, 88, "B+" and three tips in the page's language) |
| Gemini.FencedAnswerIsParsed | services/geminiService.ts:168-178 | a fenced JSON answer is parsed as its content |

## Left out

- External services are oracles passed as parameters. That covers Clerk, PayPal, Replicate, Paddle's `unmarshal` and the Gemini backend. The model assumes they behave deterministically within one request.
- Cryptography and codecs are oracles too: HMAC-SHA256, base64 decoding, `JSON.parse` and `Number(..)`/`String(..)` on text.
- Environment variables are parameters: the credit rate, the webhook secrets (including the Payhip fallback to `PAYHIP_API_KEY`) and the Replicate token.
- Timers and sleeping are not modelled. The retry records the waits it would make; the client counts its polls.
- Requests race with each other, and a concurrent request can overwrite another's update. The model does not cover this: each request is one atomic step on the directory.
- Clerk merges metadata deeply. The model treats an update as replacing top-level keys, which is the only way the handlers use it.
- Floating point is modelled by exact reals. `Math.round`, comparisons and NaN/Infinity follow JavaScript; binary rounding does not.
- `toLowerCase` is modelled for ASCII letters only.
- An e-mail lookup matches the exact address. Clerk's own matching rules are not modelled.
- In `typeHints`, prototype property names such as `constructor` are treated as unknown categories.
- An error whose message the model does not spell out is the reply body `Crash`. That covers TypeErrors (reading a property of `undefined`, calling `startsWith` on a non-string) and rejections of the identity provider's user lookup.
- The client's image resizing (FileReader, canvas and JPEG compression) is an oracle, and so is the Gemini service's URL download branch of `getImageData` (lines 20-60).
- The mock `analyzeStyle` of `src/services/apiService.ts` (lines 119-129) is left out: it returns a constant.
- The UI components are left out, and so is the express app setup and logging.
- Ledger.Written: Clerk may drop a key whose value is `null` rather than store it. The model stores `null`; on the Express server a dropped key would read as the default 3 instead of being refused.
- AddPoints.CreditOrderIdempotent: the replay is stated for the same account only. Across accounts the handler as written credits the order again (see Findings).
- AddPoints.Apply: the reported balance equals the stored one only when it is finite, because a non-finite balance is stored as `null`.
- Payhip.RedeliveryWithoutIdCreditsAgain: stated for a finite stored balance, the only kind a JSON metadata store holds after a write.
- Generate.Settle: `Promise.all` rejects with whichever submission fails first in time. The model reports the first failing submission in view order.
- Jobs.FetchAll: `Promise.all` rejects with whichever lookup fails first in time. The model reports the first failing lookup in id order.
- Gemini.PerformTryOn: `Promise.all` runs the three views concurrently and rejects with whichever fails first. The contract fixes the person-image, cloth-image and front-view errors, and which results succeed; the model reports the first failing view in view order.
- Paddle.Recipient: the user id is passed through `String(..)`. An object-valued `userId` would be looked up under its string form.
- Generate.Prepare: the contract does not say which model version id is chosen, nor what base64 text a downloaded image becomes. It states each failure reply and that a prepared request carries two data URIs.
- Client.StartError: the exact text of the non-JSON error is not fixed by the contract, only that it is non-empty.

## Findings

| source | as written | input that shows it | evidently intended | confidence | as-written member | corrected member |
|---|---|---|---|---|---|---|
| netlify/functions/webhooks/payhip.js:14-22 | `normalizeSignature` keeps only the text after the last `=`, so a base64 signature ending in `=` padding normalises to "" and is rejected | a correct base64 HMAC-SHA256 of the body, which is 44 characters ending in `=` | drop only a `name=` prefix and keep the padding of the digest | not executed | Signature.PaddedSignatureIsLost, Signature.Base64SignatureOutcome, Payhip.PaddedBase64Delivery | Signature.NormalizeSignatureFixed, Signature.FixedKeepsPaddedBase64 |
| server/index.ts:164-171 | the already-processed check reads `paypalOrders` from the caller's own private metadata | account A is credited for PayPal order X; account B then posts `orderID` X | an order is credited once across all accounts | not executed | AddPoints.SameOrderCreditsTwoAccounts | AddPoints.ApplyOnce, AddPoints.OrderCreditedOnceAcrossAccounts |

=== FILE: addpoints.dfy ===
/**
 Crediting a captured PayPal order: `POST /api/user/add-points` of the Express
 server and the Netlify `user/add-points` function. Both check the order with
 PayPal (the `fetchOrder` oracle), convert the captured amount into credits,
 and credit the caller once per order id, recording the id in the private
 metadata list `paypalOrders`.
 */
module AddPoints {
  import opened Basics
  import opened Js
  import opened Http
  import opened Ledger
  import opened Credits

  /** Which handler: the Express server has the $13 package, the Netlify function has not. */
  datatype Variant = Express | Netlify

  function CreditsFor(v: Variant, amount: Number, rate: Number): Number {
    match v
    case Express => ServerCredits(amount, rate)
    case Netlify => NetlifyCredits(amount, rate)
  }

  /** `purchase_units[0].payments.captures[0].amount.value || purchase_units[0].amount.value` */
  function CaptureAmount(order: Value): Value {
    var unit := At(Get(order, "purchase_units"), 0);
    FirstTruthy([Get(Get(At(Get(Get(unit, "payments"), "captures"), 0), "amount"), "value"),
                 Get(Get(unit, "amount"), "value")])
  }

  /** The order is completed and names a captured amount. */
  predicate Completed(order: Value) {
    Get(order, "status") == Str("COMPLETED") && Truthy(CaptureAmount(order))
  }

  /** `!(amount && Number(amount) !== Number(captureAmount))`: no client amount, or one
      that is numerically the captured amount. */
  predicate AmountAgrees(amount: Value, capture: Value, host: Builtins) {
    !Truthy(amount) || StrictEqual(ToNumber(amount, host), ToNumber(capture, host))
  }

  /** `getCreditsFromAmount(String(captureAmount))` */
  function OrderCredits(v: Variant, order: Value, rate: Number, host: Builtins): Number {
    CreditsFor(v, host.parse(ToText(CaptureAmount(order), host)), rate)
  }

  const FailedToUpdate := "Failed to update points"

  /** `error.message || "Failed to update points"` */
  function FailureMessage(m: string): (r: string)
    ensures r != ""
  {
    if m != "" then m else FailedToUpdate
  }

  /** The outcome of the checks on the request and the order. */
  datatype Check = Reject(reply: Reply) | Approve(orderId: string, credits: Number)

  /** Every check made before the ledger is read: the order id, the order's state, the
      client's amount and the credits it is worth. */
  function ValidateOrder(v: Variant, body: Value, fetchOrder: string -> Result<Value>, rate: Number, host: Builtins): (c: Check)
    ensures c.Approve? <==>
              && Get(body, "orderID").Str? && Get(body, "orderID").s != ""
              && fetchOrder(Get(body, "orderID").s).Ok?
              && var order := fetchOrder(Get(body, "orderID").s).value;
                 && Completed(order)
                 && AmountAgrees(Get(body, "amount"), CaptureAmount(order), host)
                 && OrderCredits(v, order, rate, host).Truthy()
    ensures c.Approve? ==> Get(body, "orderID") == Str(c.orderId)
                           && c.credits == OrderCredits(v, fetchOrder(c.orderId).value, rate, host)
    ensures c.Reject? ==> c.reply.status == 400 || (c.reply.status == 500 && c.reply.body.Error?)
    // A missing, empty or non-string order id is refused before PayPal is asked.
    ensures !(Get(body, "orderID").Str? && Get(body, "orderID").s != "") ==>
              c == Reject(Reply(400, Error("Missing orderID")))
    // A 500 means exactly that the PayPal lookup failed, and it carries the failure's text.
    ensures (c.Reject? && c.reply.status == 500) <==>
              Get(body, "orderID").Str? && Get(body, "orderID").s != "" && fetchOrder(Get(body, "orderID").s).Err?
    ensures c.Reject? && c.reply.status == 500 ==>
              c.reply.body == Error(FailureMessage(fetchOrder(Get(body, "orderID").s).message))
    // The order's own checks, in order.
    ensures Get(body, "orderID").Str? && Get(body, "orderID").s != "" && fetchOrder(Get(body, "orderID").s).Ok? ==>
              var order := fetchOrder(Get(body, "orderID").s).value;
              && (!Completed(order) ==> c == Reject(Reply(400, Error("Payment not completed"))))
              && (Completed(order) && !AmountAgrees(Get(body, "amount"), CaptureAmount(order), host) ==>
                    c == Reject(Reply(400, Error("Amount mismatch"))))
              && (Completed(order) && AmountAgrees(Get(body, "amount"), CaptureAmount(order), host)
                  && !OrderCredits(v, order, rate, host).Truthy() ==>
                    c == Reject(Reply(400, Error("Invalid amount for credits"))))
  {
    var orderId := Get(body, "orderID");
    if !Truthy(orderId) || !orderId.Str? then Reject(Reply(400, Error("Missing orderID")))
    else match fetchOrder(orderId.s)
      case Err(m) => Reject(Reply(500, Error(FailureMessage(m))))
      case Ok(order) =>
        var capture := CaptureAmount(order);
        if Get(order, "status") != Str("COMPLETED") || !Truthy(capture) then
          Reject(Reply(400, Error("Payment not completed")))
        else if Truthy(Get(body, "amount")) && !StrictEqual(ToNumber(Get(body, "amount"), host), ToNumber(capture, host)) then
          Reject(Reply(400, Error("Amount mismatch")))
        else
          var credits := OrderCredits(v, order, rate, host);
          if !credits.Truthy() then Reject(Reply(400, Error("Invalid amount for credits")))
          else Approve(orderId.s, credits)
  }

  /** `xs.filter(id => typeof id === "string")` */
  function StringsOf(xs: seq<Value>): (ys: seq<Value>)
    ensures |ys| <= |xs|
    ensures forall k :: 0 <= k < |ys| ==> ys[k].Str?
    ensures forall x :: x in ys <==> x in xs && x.Str?
  {
    if |xs| == 0 then []
    else if xs[0].Str? then [xs[0]] + StringsOf(xs[1..])
    else StringsOf(xs[1..])
  }

  /** Every string is kept as often as it occurs, everything else is dropped. */
  lemma {:induction false} StringsOfCounts(xs: seq<Value>)
    ensures forall x :: multiset(StringsOf(xs))[x] == if x.Str? then multiset(xs)[x] else 0
  {
    if |xs| > 0 {
      StringsOfCounts(xs[1..]);
      assert xs == [xs[0]] + xs[1..];
    }
  }

  /** Filtering keeps the order: the strings of a concatenation are the strings of the
      first part followed by those of the second. */
  lemma {:induction false} StringsOfAppend(a: seq<Value>, b: seq<Value>)
    ensures StringsOf(a + b) == StringsOf(a) + StringsOf(b)
  {
    if |a| == 0 {
      assert a + b == b;
    } else {
      var ab := a + b;
      assert ab[0] == a[0] && ab[1..] == a[1..] + b;
      StringsOfAppend(a[1..], b);
      if a[0].Str? {
        calc {
          StringsOf(ab);
          [a[0]] + StringsOf(a[1..] + b);
          [a[0]] + (StringsOf(a[1..]) + StringsOf(b));
          ([a[0]] + StringsOf(a[1..])) + StringsOf(b);
        }
      }
    }
  }

  /** The user's already-credited order ids: the strings of `paypalOrders` when it is an array. */
  function RecordedOrders(u: User): (ids: seq<Value>)
    ensures forall k :: 0 <= k < |ids| ==> ids[k].Str?
  {
    var stored := if PaypalOrdersKey in u.privateMeta then u.privateMeta[PaypalOrdersKey] else Undefined;
    if stored.Arr? then StringsOf(stored.items) else []
  }

  /** The metadata update for a new order: the balance as a number plus the credits,
      and the order id appended to the recorded ones. */
  function CreditUser(d: Directory, i: nat, orderId: string, credits: Number): (d': Directory)
    requires i < |d| && !Includes(RecordedOrders(d[i]), Str(orderId))
    ensures SameAccounts(d, d')
    ensures forall k :: 0 <= k < |d| && k != i ==> d'[k] == d[k]
    // A sum that is not finite is stored as null, which reads back as 0.
    ensures var sum := Add(PaidBalance(d[i]), credits);
            PaidBalance(d'[i]) == (if sum.Finite? then sum else Finite(0.0))
    ensures RecordedOrders(d'[i]) == RecordedOrders(d[i]) + [Str(orderId)]
    ensures multiset(RecordedOrders(d'[i]))[Str(orderId)] == 1
  {
    var existing := RecordedOrders(d[i]);
    var pub := map[CreditsKey := Written(Num(Add(PaidBalance(d[i]), credits)))];
    var priv := map[PaypalOrdersKey := Arr(existing + [Str(orderId)])];
    UpdateKeepsAccounts(d, i, pub, priv);
    AllStringsKept(existing + [Str(orderId)]);
    IncludesPrimitive(existing, Str(orderId));
    assert multiset(existing)[Str(orderId)] == 0;
    UpdateMetadata(d, i, pub, priv)
  }

  /** Crediting the approved order to the user `userId`. */
  function Apply(d: Directory, userId: string, orderId: string, credits: Number, writeOk: bool): (s: Step)
    ensures FindUser(d, userId).None? ==> s == Step(Reply(500, Crash), d)
    ensures FindUser(d, userId).Some? ==>
              var i := FindUser(d, userId).value;
              && (Includes(RecordedOrders(d[i]), Str(orderId)) ==>
                    s == Step(Reply(200, Credited(Finite(0.0), PaidBalance(d[i]), true)), d))
              && (!Includes(RecordedOrders(d[i]), Str(orderId)) && !writeOk ==> s == Step(Reply(500, Crash), d))
              && (!Includes(RecordedOrders(d[i]), Str(orderId)) && writeOk ==>
                    s == Step(Reply(200, Credited(credits, Add(PaidBalance(d[i]), credits), false)),
                              CreditUser(d, i, orderId, credits)))
    // A fresh credit happens exactly for a known user, a new order and a working update.
    ensures NewCredit(s.reply) <==>
              FindUser(d, userId).Some? && !Includes(RecordedOrders(d[FindUser(d, userId).value]), Str(orderId)) && writeOk
    // Every 200 leaves the order recorded for the user, and a finite balance it reports is
    // the one stored afterwards (JSON sends any other number as null, in the reply and the write).
    ensures s.reply.status == 200 ==>
              && FindUser(d, userId).Some?
              && |s.dir| == |d|
              && Includes(RecordedOrders(s.dir[FindUser(d, userId).value]), Str(orderId))
              && s.reply.body.Credited?
              && (s.reply.body.credits.Finite? ==> s.reply.body.credits == PaidBalance(s.dir[FindUser(d, userId).value]))
    ensures s.reply.status != 200 ==> s.reply == Reply(500, Crash)
    ensures !NewCredit(s.reply) ==> s.dir == d
  {
    match FindUser(d, userId)
    case None => Step(Reply(500, Crash), d)
    case Some(i) =>
      var current := PaidBalance(d[i]);
      if Includes(RecordedOrders(d[i]), Str(orderId)) then Step(Reply(200, Credited(Finite(0.0), current, true)), d)
      else if !writeOk then Step(Reply(500, Crash), d)
      else
        IncludesLast(RecordedOrders(d[i]), Str(orderId));
        Step(Reply(200, Credited(credits, Add(current, credits), false)), CreditUser(d, i, orderId, credits))
  }

  /** A list that ends with a string includes it. */
  lemma IncludesLast(xs: seq<Value>, x: Value)
    requires x.Str?
    ensures Includes(xs + [x], x)
  {
    assert SameValueZero((xs + [x])[|xs|], x);
  }

  /** Filtering a list of strings keeps it as it is. */
  lemma {:induction false} AllStringsKept(xs: seq<Value>)
    requires forall k :: 0 <= k < |xs| ==> xs[k].Str?
    ensures StringsOf(xs) == xs
  {
    if |xs| > 0 {
      AllStringsKept(xs[1..]);
      assert xs == [xs[0]] + xs[1..];
    }
  }

  /** A reply that reports a fresh credit. */
  predicate NewCredit(r: Reply) {
    r.status == 200 && r.body.Credited? && !r.body.alreadyProcessed
  }

  /** The checks and the crediting, shared by both handlers once the caller is known. */
  function CreditOrder(v: Variant, d: Directory, userId: string, body: Value, fetchOrder: string -> Result<Value>,
                       rate: Number, writeOk: bool, host: Builtins): (s: Step)
    ensures !NewCredit(s.reply) ==> s.dir == d
    ensures s.reply.status == 200 ==> ValidateOrder(v, body, fetchOrder, rate, host).Approve?
  {
    match ValidateOrder(v, body, fetchOrder, rate, host)
    case Reject(reply) => Step(reply, d)
    case Approve(orderId, credits) => Apply(d, userId, orderId, credits, writeOk)
  }

  /** A fresh credit comes from an approved order not yet recorded for a known user;
      it adds exactly the order's worth to that user's balance and records the order.
      A sum that is not finite (an infinite rate) is written as null and reads back as 0. */
  lemma NewCreditAddsOrderWorth(v: Variant, d: Directory, userId: string, body: Value,
                                fetchOrder: string -> Result<Value>, rate: Number, writeOk: bool, host: Builtins)
    ensures var s := CreditOrder(v, d, userId, body, fetchOrder, rate, writeOk, host);
            NewCredit(s.reply) ==>
              var c := ValidateOrder(v, body, fetchOrder, rate, host);
              && c.Approve? && FindUser(d, userId).Some?
              && var i := FindUser(d, userId).value;
                 && !Includes(RecordedOrders(d[i]), Str(c.orderId))
                 && s.reply.body.creditsAdded == c.credits
                 && RecordedOrders(s.dir[i]) == RecordedOrders(d[i]) + [Str(c.orderId)]
                 && var sum := Add(PaidBalance(d[i]), c.credits);
                    PaidBalance(s.dir[i]) == (if sum.Finite? then sum else Finite(0.0))
  {
    var c := ValidateOrder(v, body, fetchOrder, rate, host);
    if c.Approve? {
      var s := Apply(d, userId, c.orderId, c.credits, writeOk);
      if NewCredit(s.reply) {
        var i := FindUser(d, userId).value;
        assert s.dir == CreditUser(d, i, c.orderId, c.credits);
      }
    }
  }

  /** `POST /api/user/add-points` of the Express server; `userId` is the authenticated
      caller, "" when there is none. */
  function ServerAddPoints(d: Directory, userId: string, body: Value, fetchOrder: string -> Result<Value>,
                           rate: Number, writeOk: bool, host: Builtins): (s: Step)
    ensures userId == "" ==> s == Step(Reply(401, Error("Unauthorized")), d)
    ensures userId != "" ==> s == CreditOrder(Express, d, userId, body, fetchOrder, rate, writeOk, host)
    // Credits are added only for an authenticated caller and an approved PayPal order,
    // and then by exactly the order's worth; otherwise no account changes.
    ensures NewCredit(s.reply) ==>
              var c := ValidateOrder(Express, body, fetchOrder, rate, host);
              && userId != "" && c.Approve? && FindUser(d, userId).Some?
              && var sum := Add(PaidBalance(d[FindUser(d, userId).value]), c.credits);
                 PaidBalance(s.dir[FindUser(d, userId).value]) == (if sum.Finite? then sum else Finite(0.0))
    ensures !NewCredit(s.reply) ==> s.dir == d
  {
    if userId == "" then Step(Reply(401, Error("Unauthorized")), d)
    else
      NewCreditAddsOrderWorth(Express, d, userId, body, fetchOrder, rate, writeOk, host);
      CreditOrder(Express, d, userId, body, fetchOrder, rate, writeOk, host)
  }

  /** The Netlify `user/add-points` function: CORS preflight, method check, bearer
      token verification (`verify` gives the token's subject) and body parsing come first. */
  function NetlifyAddPoints(verb: string, authorization: Option<string>, verify: string -> Result<string>,
                            body: Result<Value>, d: Directory, fetchOrder: string -> Result<Value>,
                            rate: Number, writeOk: bool, host: Builtins): (s: Step)
    ensures verb == "OPTIONS" ==> s == Step(Preflight, d)
    ensures verb != "OPTIONS" && verb != "POST" ==> s == Step(Reply(405, Text("Method Not Allowed")), d)
    ensures verb == "POST" && BearerToken(authorization).None? ==> s == Step(Reply(401, Error("Unauthorized")), d)
    ensures !NewCredit(s.reply) ==> s.dir == d
    ensures s.reply.status == 200 && s.reply.body.Credited? ==>
              && verb == "POST" && BearerToken(authorization).Some?
              && verify(BearerToken(authorization).value).Ok? && body.Ok?
              && s == CreditOrder(Netlify, d, verify(BearerToken(authorization).value).value, body.value,
                                  fetchOrder, rate, writeOk, host)
  {
    if verb == "OPTIONS" then Step(Preflight, d)
    else if verb != "POST" then Step(Reply(405, Text("Method Not Allowed")), d)
    else match BearerToken(authorization)
      case None => Step(Reply(401, Error("Unauthorized")), d)
      case Some(token) =>
        match verify(token)
        case Err(m) => Step(Reply(500, Error(FailureMessage(m))), d)
        case Ok(userId) =>
          match body
          case Err(m) => Step(Reply(500, Error(FailureMessage(m))), d)
          case Ok(b) => CreditOrder(Netlify, d, userId, b, fetchOrder, rate, writeOk, host)
  }

  /** Capturing the same order again from the same account credits nothing: the second
      request reports the order as already processed, with the balance the first one
      stored, and leaves the directory as it is. */
  lemma {:induction false} CreditOrderIdempotent(v: Variant, d: Directory, userId: string, body: Value,
                                                 fetchOrder: string -> Result<Value>, rate: Number,
                                                 writeOk: bool, writeOk2: bool, host: Builtins)
    requires var s := CreditOrder(v, d, userId, body, fetchOrder, rate, writeOk, host);
             NewCredit(s.reply)
    ensures var s := CreditOrder(v, d, userId, body, fetchOrder, rate, writeOk, host);
            && FindUser(d, userId).Some?
            && var stored := PaidBalance(s.dir[FindUser(d, userId).value]);
               && CreditOrder(v, s.dir, userId, body, fetchOrder, rate, writeOk2, host)
                    == Step(Reply(200, Credited(Finite(0.0), stored, true)), s.dir)
               && (s.reply.body.credits.Finite? ==> stored == s.reply.body.credits)
  {
    var s := CreditOrder(v, d, userId, body, fetchOrder, rate, writeOk, host);
    var c := ValidateOrder(v, body, fetchOrder, rate, host);
    assert c.Approve?;
    var i := FindUser(d, userId).value;
    var recorded := RecordedOrders(d[i]) + [Str(c.orderId)];
    SameAccountsSameLookups(d, s.dir, userId, "");
    assert SameValueZero(recorded[|recorded| - 1], Str(c.orderId));
    assert Includes(RecordedOrders(s.dir[i]), Str(c.orderId));
  }

  /** The record of credited orders is kept per account: an approved order already
      credited to one account is credited again to any other account that submits it. */
  lemma SameOrderCreditsTwoAccounts(v: Variant, d: Directory, payer: string, other: string, body: Value,
                                    fetchOrder: string -> Result<Value>, rate: Number, host: Builtins)
    requires payer != other
    requires ValidateOrder(v, body, fetchOrder, rate, host).Approve?
    requires FindUser(d, payer).Some? && FindUser(d, other).Some?
    requires var orderId := ValidateOrder(v, body, fetchOrder, rate, host).orderId;
             && !Includes(RecordedOrders(d[FindUser(d, payer).value]), Str(orderId))
             && !Includes(RecordedOrders(d[FindUser(d, other).value]), Str(orderId))
    ensures var s := CreditOrder(v, d, payer, body, fetchOrder, rate, true, host);
            && NewCredit(s.reply)
            && NewCredit(CreditOrder(v, s.dir, other, body, fetchOrder, rate, true, host).reply)
  {
    var c := ValidateOrder(v, body, fetchOrder, rate, host);
    var s := CreditOrder(v, d, payer, body, fetchOrder, rate, true, host);
    var i, j := FindUser(d, payer).value, FindUser(d, other).value;
    assert s.dir == CreditUser(d, i, c.orderId, c.credits);
    SameAccountsSameLookups(d, s.dir, other, "");
    assert s.dir[j] == d[j];
  }

  /** An order recorded for some account of the directory. */
  predicate RecordedAnywhere(d: Directory, orderId: string) {
    exists k :: 0 <= k < |d| && Includes(RecordedOrders(d[k]), Str(orderId))
  }

  /** The crediting with the record of orders consulted across every account, so that a
      captured order is credited once, whoever submits it. */
  function ApplyOnce(d: Directory, userId: string, orderId: string, credits: Number, writeOk: bool): (s: Step)
    ensures RecordedAnywhere(d, orderId) ==> !NewCredit(s.reply) && s.dir == d
    ensures !RecordedAnywhere(d, orderId) ==> s == Apply(d, userId, orderId, credits, writeOk)
  {
    if RecordedAnywhere(d, orderId) then
      match FindUser(d, userId)
      case None => Step(Reply(500, Crash), d)
      case Some(i) => Step(Reply(200, Credited(Finite(0.0), PaidBalance(d[i]), true)), d)
    else Apply(d, userId, orderId, credits, writeOk)
  }

  /** With the directory-wide record, once an order is credited no account, the payer's
      or another's, is credited for it again, and nothing changes. */
  lemma OrderCreditedOnceAcrossAccounts(d: Directory, payer: string, other: string, orderId: string,
                                        credits: Number, credits2: Number, writeOk: bool, writeOk2: bool)
    requires NewCredit(ApplyOnce(d, payer, orderId, credits, writeOk).reply)
    ensures var s := ApplyOnce(d, payer, orderId, credits, writeOk);
            var s2 := ApplyOnce(s.dir, other, orderId, credits2, writeOk2);
            !NewCredit(s2.reply) && s2.dir == s.dir
  {
    var s := ApplyOnce(d, payer, orderId, credits, writeOk);
    var i := FindUser(d, payer).value;
    assert Includes(RecordedOrders(s.dir[i]), Str(orderId));
    assert RecordedAnywhere(s.dir, orderId);
  }

  /** A captured $13 order is worth 10 credits on the Express server and 26 on Netlify
      at the default rate, and the credit is added to a balance that was never set. */
  lemma ThirteenDollarOrder(d: Directory, host: Builtins)
    requires host.parse("13.00") == Finite(13.0)
    ensures var order := Obj(map["status" := Str("COMPLETED"),
                                 "purchase_units" := Arr([Obj(map["amount" := Obj(map["value" := Str("13.00")])])])]);
            && OrderCredits(Express, order, DefaultRate, host) == Finite(10.0)
            && OrderCredits(Netlify, order, DefaultRate, host) == Finite(26.0)
  {
    var amount := Obj(map["value" := Str("13.00")]);
    var unit := Obj(map["amount" := amount]);
    var order := Obj(map["status" := Str("COMPLETED"), "purchase_units" := Arr([unit])]);
    assert At(Get(order, "purchase_units"), 0) == unit;
    assert Get(unit, "payments") == Undefined;
    assert Get(Get(unit, "amount"), "value") == Str("13.00");
    assert CaptureAmount(order) == Str("13.00");
    ThirteenDollarPackage();
  }
}

=== FILE: basics.dfy ===
/**
 The two failure-carrying wrappers every other module uses: an optional value,
 and the outcome of a call into a service that may throw with a message.
 */
module Basics {

  datatype Option<+T> = None | Some(value: T)

  /** A call that either returns a value or throws an error with a message. */
  datatype Result<+T> = Ok(value: T) | Err(message: string)
}

=== FILE: client.dfy ===
/**
 The browser side of a try-on (`performVirtualTryOn`): pick the two images,
 start a job with `POST /api/generate`, then poll `GET /api/generate?id=..`
 up to 40 times until the job succeeds, fails or is cancelled. Every error
 ends in one thrown `Error`.

 `fetch` is the pair of oracles `start` (given the JSON request body) and
 `poll` (given the id and the attempt number); the 3-second pauses between
 polls are not modelled.
 */
module Client {
  import opened Basics
  import opened Js
  import opened Text
  import Http
  import Jobs

  /** An image as the page holds it: an uploaded file, a base64 text or a sample URL. */
  datatype ImageInput = ImageInput(file: Value, base64: Value, url: Value)

  /** A `fetch` result: a network failure rejects, any HTTP status resolves. `json`
      tells whether the content type names JSON, `body` is what `.json()` gives. */
  datatype Response =
    | NetworkError(message: string)
    | Response(ok: bool, status: int, json: bool, body: Result<Value>)

  /** What is thrown: an `Error` with a message, or a `TypeError` from reading a
      property of `null` or `undefined`, whose text is not modelled. */
  datatype Thrown = Message(text: string) | TypeError

  datatype Outcome = Done(front: Value, side: Value, full: Value) | Threw(error: Thrown)

  const MaxPolls: nat := 40
  const NoPredictionId := "No prediction ID returned from server."
  const TimedOut := "Timeout waiting for generation."
  const GenerationFailed := "Generation failed: "
  /** The Arabic fallback for an error without a message ("an error occurred while
      contacting the server"). */
  const ConnectionFailed := "حدث خطأ أثناء الاتصال بالخادم"

  /** `file ? await resizeImage(file) : (base64 || url)`; `resize` is the canvas
      re-encoding of a file, which a string file skips. */
  function ChooseImage(img: ImageInput, resize: Value -> Result<string>): (r: Result<Value>)
    ensures !Truthy(img.file) ==> r == Ok(FirstTruthy([img.base64, img.url]))
    ensures img.file.Str? && img.file.s != "" ==> r == Ok(img.file)
    ensures r.Err? ==> Truthy(img.file) && !img.file.Str? && resize(img.file).Err?
  {
    if !Truthy(img.file) then Ok(FirstTruthy([img.base64, img.url]))
    else if img.file.Str? then Ok(img.file)
    else match resize(img.file)
      case Ok(uri) => Ok(Str(uri))
      case Err(m) => Err(m)
  }

  /** The error thrown for a start response that is not `ok`: the server's `error`
      field when it sent JSON, else a message naming the status. */
  function StartError(status: int, json: bool, body: Result<Value>, host: Builtins): (t: Thrown)
    ensures !json ==> t.Message? && |t.text| > 0
    ensures json && body.Ok? && Get(body.value, "error").Str? && Get(body.value, "error").s != "" ==>
              t == Message(Get(body.value, "error").s)
  {
    var code := ToText(Num(Finite(status as real)), host);
    if !json then Message("Server Error (" + code + "): Unexpected response (HTML). Check Netlify logs.")
    else match body
      case Err(m) => Message(m)
      case Ok(data) =>
        if data.Undefined? || data.Null? then TypeError
        else Message(ToText(FirstTruthy([Get(data, "error"), Str("Server Error: " + code)]), host))
  }

  datatype Started = Started(id: Value) | Refused(error: Thrown)

  /** The prediction id of a start response, or what is thrown instead. */
  function StartJob(resp: Response, host: Builtins): (r: Started)
    ensures r.Started? <==>
              && resp.Response? && resp.ok && resp.body.Ok?
              && !resp.body.value.Undefined? && !resp.body.value.Null?
              && Truthy(Get(resp.body.value, "id"))
    ensures r.Started? ==> r.id == Get(resp.body.value, "id")
    ensures (resp.Response? && resp.ok && resp.body.Ok? && resp.body.value.Obj?
             && !Truthy(Get(resp.body.value, "id"))) ==> r == Refused(Message(NoPredictionId))
  {
    match resp
    case NetworkError(m) => Refused(Message(m))
    case Response(ok, status, json, body) =>
      if !ok then Refused(StartError(status, json, body, host))
      else match body
        case Err(m) => Refused(Message(m))
        case Ok(data) =>
          if data.Undefined? || data.Null? then Refused(TypeError)
          else if !Truthy(Get(data, "id")) then Refused(Message(NoPredictionId))
          else Started(Get(data, "id"))
  }

  /** What one poll response leads to: another attempt, or the end of the loop. */
  datatype Next = Wait | Finish(outcome: Outcome)

  /** The views of a succeeded job: side and full default to the front view. */
  function ViewsOf(output: Value): (o: Outcome)
    requires !output.Undefined? && !output.Null?
    ensures o.Done? && o.front == Get(output, "front")
    ensures Truthy(Get(output, "side")) ==> o.side == Get(output, "side")
    ensures !Truthy(Get(output, "side")) ==> o.side == o.front
    ensures Truthy(Get(output, "full")) ==> o.full == Get(output, "full")
    ensures !Truthy(Get(output, "full")) ==> o.full == o.front
  {
    var front := Get(output, "front");
    Done(front, FirstTruthy([Get(output, "side"), front]), FirstTruthy([Get(output, "full"), front]))
  }

  /** The three job states that end the loop. */
  predicate Settled(status: Value) {
    status == Str("succeeded") || status == Str("failed") || status == Str("canceled")
  }

  /** One iteration of the polling loop: a response that is not `ok` and a job still
      running lead to another attempt. */
  function PollStep(resp: Response, host: Builtins): (n: Next)
    ensures n == Wait <==>
              resp.Response? &&
              (!resp.ok || (resp.body.Ok? && !resp.body.value.Undefined? && !resp.body.value.Null?
                            && !Settled(Get(resp.body.value, "status"))))
    ensures (resp.Response? && resp.ok && resp.body.Ok? && Get(resp.body.value, "status") == Str("succeeded")
             && Get(resp.body.value, "output").Obj?) ==> n == Finish(ViewsOf(Get(resp.body.value, "output")))
    ensures (resp.Response? && resp.ok && resp.body.Ok?
             && Get(resp.body.value, "status") in {Str("failed"), Str("canceled")}) ==>
              n.Finish? && n.outcome.Threw? && n.outcome.error.Message?
              && StartsWith(n.outcome.error.text, GenerationFailed)
  {
    match resp
    case NetworkError(m) => Finish(Threw(Message(m)))
    case Response(ok, _, _, body) =>
      if !ok then Wait
      else match body
        case Err(m) => Finish(Threw(Message(m)))
        case Ok(data) =>
          if data.Undefined? || data.Null? then Finish(Threw(TypeError))
          else
            var status := Get(data, "status");
            if status == Str("succeeded") then
              var output := Get(data, "output");
              if output.Undefined? || output.Null? then Finish(Threw(TypeError)) else Finish(ViewsOf(output))
            else if status == Str("failed") || status == Str("canceled") then
              Finish(Threw(Message(GenerationFailed + ToText(FirstTruthy([Get(data, "error"), Str("Unknown error")]), host))))
            else Wait
  }

  /** How the loop ended and how many status requests it sent. */
  datatype Polled = Polled(outcome: Outcome, requests: nat)

  /** The polling loop from attempt `k + 1` on: the reference definition. */
  function PollFrom(id: string, poll: (string, nat) -> Response, k: nat, host: Builtins): (r: Polled)
    requires k <= MaxPolls
    ensures k <= r.requests <= MaxPolls
    ensures forall j :: k < j < r.requests ==> PollStep(poll(id, j), host) == Wait
    ensures r.requests == k ==> k == MaxPolls && r.outcome == Threw(Message(TimedOut))
    ensures r.requests > k ==>
              || PollStep(poll(id, r.requests), host) == Finish(r.outcome)
              || (r.requests == MaxPolls && PollStep(poll(id, MaxPolls), host) == Wait
                  && r.outcome == Threw(Message(TimedOut)))
    decreases MaxPolls - k
  {
    if k == MaxPolls then Polled(Threw(Message(TimedOut)), k)
    else match PollStep(poll(id, k + 1), host)
      case Finish(outcome) => Polled(outcome, k + 1)
      case Wait =>
        if k + 1 == MaxPolls then Polled(Threw(Message(TimedOut)), MaxPolls)
        else PollFrom(id, poll, k + 1, host)
  }

  /** The `while (attempts < maxAttempts)` loop. */
  method PollLoop(id: string, poll: (string, nat) -> Response, host: Builtins) returns (r: Polled)
    ensures r == PollFrom(id, poll, 0, host)
    ensures 1 <= r.requests <= MaxPolls
  {
    var attempts := 0;
    while attempts < MaxPolls
      invariant 0 <= attempts <= MaxPolls
      invariant PollFrom(id, poll, 0, host) == PollFrom(id, poll, attempts, host)
    {
      attempts := attempts + 1;
      var next := PollStep(poll(id, attempts), host);
      if next.Finish? {
        return Polled(next.outcome, attempts);
      }
      if attempts == MaxPolls {
        return Polled(Threw(Message(TimedOut)), attempts);
      }
    }
    return Polled(Threw(Message(TimedOut)), attempts);
  }

  /** The outer `catch`: `new Error(error.message || fallback)`. */
  function Rethrown(o: Outcome): (r: Outcome)
    ensures o.Done? ==> r == o
    ensures r.Threw? && r.error.Message? ==> r.error.text != ""
    ensures o.Threw? && o.error.Message? && o.error.text != "" ==> r == o
  {
    if o.Threw? && o.error == Message("") then Threw(Message(ConnectionFailed)) else o
  }

  /** The JSON body of the start request. */
  function StartBody(person: Value, cloth: Value, garment: Value, description: Value): Value {
    Obj(map["personImage" := person, "clothImage" := cloth, "type" := garment,
            "garmentDescription" := description])
  }

  /** A whole try-on as the page sees it, with the number of status requests sent. */
  function PerformTryOn(person: ImageInput, cloth: ImageInput, garment: Value, description: Value,
                        resize: Value -> Result<string>, start: Value -> Response,
                        poll: (string, nat) -> Response, host: Builtins): (r: Polled)
    ensures r.requests <= MaxPolls
    ensures r.outcome.Threw? && r.outcome.error.Message? ==> r.outcome.error.text != ""
    ensures r.requests > 0 <==>
              && ChooseImage(person, resize).Ok? && ChooseImage(cloth, resize).Ok?
              && StartJob(start(StartBody(ChooseImage(person, resize).value, ChooseImage(cloth, resize).value,
                                          garment, description)), host).Started?
  {
    match ChooseImage(person, resize)
    case Err(m) => Polled(Rethrown(Threw(Message(m))), 0)
    case Ok(p) =>
      match ChooseImage(cloth, resize)
      case Err(m) => Polled(Rethrown(Threw(Message(m))), 0)
      case Ok(c) =>
        match StartJob(start(StartBody(p, c, garment, description)), host)
        case Refused(e) => Polled(Rethrown(Threw(e)), 0)
        case Started(id) =>
          var polled := PollFrom(ToText(id, host), poll, 0, host);
          Polled(Rethrown(polled.outcome), polled.requests)
  }

  /** A job that has already succeeded at the first poll costs one status request. */
  lemma ImmediateSuccess(id: string, poll: (string, nat) -> Response, host: Builtins, output: map<string, Value>)
    requires poll(id, 1) == Response(true, 200, true, Ok(Obj(map["status" := Str("succeeded"), "output" := Obj(output)])))
    ensures PollFrom(id, poll, 0, host) == Polled(ViewsOf(Obj(output)), 1)
  {
    var data := Obj(map["status" := Str("succeeded"), "output" := Obj(output)]);
    assert Get(data, "status") == Str("succeeded") && Get(data, "output") == Obj(output);
  }

  /** When every remaining poll finds the job running, the loop gives up after the
      40th request. */
  lemma {:induction false} AllWaitingTimesOut(id: string, poll: (string, nat) -> Response, k: nat, host: Builtins)
    requires k <= MaxPolls
    requires forall j :: k < j <= MaxPolls ==> PollStep(poll(id, j), host) == Wait
    ensures PollFrom(id, poll, k, host) == Polled(Threw(Message(TimedOut)), MaxPolls)
    decreases MaxPolls - k
  {
    if k < MaxPolls - 1 {
      AllWaitingTimesOut(id, poll, k + 1, host);
    }
  }

  /** A start reply that carries the views themselves but no job id (the shape the
      single-run Netlify function answers with) ends the try-on before any poll. */
  lemma ViewsWithoutIdAreRefused(person: ImageInput, cloth: ImageInput, garment: Value, description: Value,
                                 resize: Value -> Result<string>, start: Value -> Response,
                                 poll: (string, nat) -> Response, host: Builtins, url: Value)
    requires ChooseImage(person, resize).Ok? && ChooseImage(cloth, resize).Ok?
    requires forall body :: start(body) == Response(true, 200, true,
               Ok(Obj(map["front" := url, "side" := url, "full" := url,
                          "analysis" := Str("Generated successfully via Netlify"),
                          "remaining" := Num(Finite(99.0))])))
    ensures PerformTryOn(person, cloth, garment, description, resize, start, poll, host)
              == Polled(Threw(Message(NoPredictionId)), 0)
  {
    var p := ChooseImage(person, resize).value;
    var c := ChooseImage(cloth, resize).value;
    var reply := Obj(map["front" := url, "side" := url, "full" := url,
                         "analysis" := Str("Generated successfully via Netlify"),
                         "remaining" := Num(Finite(99.0))]);
    assert start(StartBody(p, c, garment, description)) == Response(true, 200, true, Ok(reply));
    assert Get(reply, "id") == Undefined;
  }

  /** A reply of the status endpoint as `fetch` resolves it: `ok` for a 2xx status,
      with the endpoint's JSON as the body. */
  function Received(r: Http.Reply): Response {
    Response(200 <= r.status < 300, r.status, true, Ok(Jobs.StatusJson(r.body)))
  }

  /** The client reads a single job's status reply as the server meant it: a succeeded
      job's one URL fills all three views, a failed or canceled job is reported with
      its error, and any other state means another poll. */
  lemma SingleStatusReadByClient(p: Jobs.Fetched, host: Builtins)
    ensures var n := PollStep(Received(Jobs.SingleStatus(p, host)), host);
            && (Jobs.Succeeded(p) ==>
                  var u := Jobs.NormalizeOutput(p.output, host);
                  n == Finish(Done(u, u, u)))
            && (Jobs.Stopped(p) ==>
                  n == Finish(Threw(Message(GenerationFailed + ToText(FirstTruthy([p.error, Str("Unknown error")]), host)))))
            && (!Jobs.Succeeded(p) && !Jobs.Stopped(p) ==> n == Wait)
  {
    var reply := Jobs.SingleStatus(p, host);
    var data := Jobs.StatusJson(reply.body);
    if Jobs.Succeeded(p) {
      var u := Jobs.NormalizeOutput(p.output, host);
      var output := Get(data, "output");
      assert Get(data, "status") == Str("succeeded");
      assert Get(output, "front") == u && Get(output, "side") == u && Get(output, "full") == u;
    } else if Jobs.Stopped(p) {
      assert Get(data, "status") == Str("failed") && Get(data, "error") == p.error;
    } else {
      assert Get(data, "status") == Str(p.status);
    }
  }

  /** The client reads a Plus-mode status reply view by view: all three views when every
      sub-job succeeded (an empty side or full view falls back to the front one), the
      first stopped sub-job's error, and another poll while sub-jobs run. A Plus job
      with fewer than three ids makes the server fail with a 500, which the client
      takes for "not ready" and polls again. */
  lemma PlusStatusReadByClient(ps: seq<Jobs.Fetched>, host: Builtins)
    ensures var n := PollStep(Received(Jobs.Aggregate(ps, host)), host);
            && (Jobs.AllSucceeded(ps) && |ps| >= 3 ==>
                  var f := Jobs.GetUrl(ps[0].output, host);
                  n == Finish(Done(f, FirstTruthy([Jobs.GetUrl(ps[1].output, host), f]),
                                      FirstTruthy([Jobs.GetUrl(ps[2].output, host), f]))))
            && (Jobs.AllSucceeded(ps) && |ps| < 3 ==> n == Wait)
            && (!Jobs.AllSucceeded(ps) && Jobs.FirstStopped(ps).Some? ==>
                  n.Finish? && n.outcome.Threw? && n.outcome.error.Message?
                  && StartsWith(n.outcome.error.text, GenerationFailed))
            && (!Jobs.AllSucceeded(ps) && Jobs.FirstStopped(ps).None? ==> n == Wait)
  {
    if Jobs.AllSucceeded(ps) {
      if |ps| >= 3 { PlusViewsRead(ps, host); } else { PlusTooFewRead(ps, host); }
    } else if Jobs.FirstStopped(ps).Some? {
      PlusStoppedRead(ps, host);
    } else {
      PlusRunningRead(ps, host);
    }
  }

  lemma PlusTooFewRead(ps: seq<Jobs.Fetched>, host: Builtins)
    requires Jobs.AllSucceeded(ps) && |ps| < 3
    ensures PollStep(Received(Jobs.Aggregate(ps, host)), host) == Wait
  {
    assert Received(Jobs.Aggregate(ps, host)).ok == false;
  }

  lemma PlusStoppedRead(ps: seq<Jobs.Fetched>, host: Builtins)
    requires !Jobs.AllSucceeded(ps) && Jobs.FirstStopped(ps).Some?
    ensures var n := PollStep(Received(Jobs.Aggregate(ps, host)), host);
            n.Finish? && n.outcome.Threw? && n.outcome.error.Message?
            && StartsWith(n.outcome.error.text, GenerationFailed)
  {
    var j := Jobs.FirstStopped(ps).value;
    var e := FirstTruthy([ps[j].error, Str(Jobs.SubJobFailed)]);
    assert Jobs.Aggregate(ps, host) == Http.Reply(200, Http.JobFailed(e));
    var data := Obj(map["status" := Str("failed"), "error" := e]);
    assert Jobs.StatusJson(Http.JobFailed(e)) == data;
    assert Get(data, "status") == Str("failed");
  }

  lemma PlusRunningRead(ps: seq<Jobs.Fetched>, host: Builtins)
    requires !Jobs.AllSucceeded(ps) && Jobs.FirstStopped(ps).None?
    ensures PollStep(Received(Jobs.Aggregate(ps, host)), host) == Wait
  {
    assert Jobs.Aggregate(ps, host) == Http.Reply(200, Http.JobState("processing"));
    var data := Obj(map["status" := Str("processing")]);
    assert Jobs.StatusJson(Http.JobState("processing")) == data;
    assert Get(data, "status") == Str("processing");
  }

  lemma PlusViewsRead(ps: seq<Jobs.Fetched>, host: Builtins)
    requires Jobs.AllSucceeded(ps) && |ps| >= 3
    ensures var f := Jobs.GetUrl(ps[0].output, host);
            PollStep(Received(Jobs.Aggregate(ps, host)), host)
              == Finish(Done(f, FirstTruthy([Jobs.GetUrl(ps[1].output, host), f]),
                                FirstTruthy([Jobs.GetUrl(ps[2].output, host), f])))
  {
    var f, sd, fl := Jobs.GetUrl(ps[0].output, host), Jobs.GetUrl(ps[1].output, host), Jobs.GetUrl(ps[2].output, host);
    assert Jobs.Aggregate(ps, host) == Http.Reply(200, Http.Views(f, sd, fl, Jobs.PlusAnalysis));
    var output := Obj(map["front" := f, "side" := sd, "full" := fl,
                          "analysis" := Str(Jobs.PlusAnalysis), "remaining" := Num(Finite(99.0))]);
    var data := Obj(map["status" := Str("succeeded"), "output" := output]);
    assert Jobs.StatusJson(Http.Views(f, sd, fl, Jobs.PlusAnalysis)) == data;
    assert Get(data, "status") == Str("succeeded") && Get(data, "output") == output;
    assert Get(output, "front") == f && Get(output, "side") == sd && Get(output, "full") == fl;
  }

  /** Every way the status endpoint itself fails (no id, or an upstream lookup that
      rejects) is answered with an error status, so the client polls again. */
  lemma FailedPollsAreRetried(id: Option<string>, get: string -> Result<Jobs.Fetched>, host: Builtins)
    ensures id.None? || id == Some("") ==> PollStep(Received(Jobs.Poll(id, get, host)), host) == Wait
    ensures id.Some? && id.value != "" && Jobs.IdSeparator !in id.value && get(id.value).Err? ==>
              PollStep(Received(Jobs.Poll(id, get, host)), host) == Wait
    ensures id.Some? && Jobs.IdSeparator in id.value && Jobs.FetchAll(Jobs.SplitId(id.value), get).Err? ==>
              PollStep(Received(Jobs.Poll(id, get, host)), host) == Wait
  {
  }
}

=== FILE: credits.dfy ===
/**
 Conversion of a captured payment amount into credits: `round(amount * rate)`
 with a default rate of 2 credits per US dollar; the Express server adds a
 fixed 10-credit package for a $13 payment.
 */
module Credits {
  import opened Basics
  import opened Js

  /** Credits per dollar when no rate is configured: `Number("2")`. */
  const DefaultRate: Number := Finite(2.0)

  /** `Number(process.env.PAYPAL_CREDITS_PER_USD || "2")`: an unset or empty setting
      falls back to the default rate, anything else goes through `Number(..)`. */
  function RateFromSetting(setting: Option<string>, host: Builtins): Number {
    match setting
    case None => DefaultRate
    case Some(s) => if s == "" then DefaultRate else host.parse(s)
  }

  /** `Math.abs(amount - 13.0) < 0.01`; false for NaN and the infinities. */
  predicate NearThirteen(amount: Number) {
    amount.Finite? && -0.01 < amount.value - 13.0 < 0.01
  }

  /** `!Number.isFinite(amount) || amount <= 0 || rate <= 0` (a NaN rate passes). */
  predicate Refused(amount: Number, rate: Number) {
    !amount.IsFinite() || AtMost(amount, Finite(0.0)) || AtMost(rate, Finite(0.0))
  }

  /** `getCreditsFromAmount` of the Netlify add-points function. */
  function NetlifyCredits(amount: Number, rate: Number): (r: Number)
    ensures Refused(amount, rate) ==> r == Finite(0.0)
    ensures !Refused(amount, rate) && rate.Finite? ==>
              && r.Finite? && r.value == r.value.Floor as real
              && amount.value * rate.value - 0.5 < r.value <= amount.value * rate.value + 0.5
    ensures !Refused(amount, rate) && rate.NaN? ==> r.NaN?
    ensures !Refused(amount, rate) && rate.PosInf? ==> r.PosInf?
  {
    if Refused(amount, rate) then Finite(0.0)
    else Round(Mul(amount, rate))
  }

  /** `getCreditsFromAmount` of the Express server: the $13 package first, then the
      same rule as the Netlify function. */
  function ServerCredits(amount: Number, rate: Number): (r: Number)
    ensures NearThirteen(amount) ==> r == Finite(10.0)
    ensures !NearThirteen(amount) ==> r == NetlifyCredits(amount, rate)
  {
    if NearThirteen(amount) then Finite(10.0)
    else if Refused(amount, rate) then Finite(0.0)
    else Round(Mul(amount, rate))
  }

  /** With a positive finite rate, the handlers' `!creditsToAdd` test passes exactly
      when the amount is positive and worth at least half a credit. */
  lemma NetlifyCreditsTruthy(amount: Number, rate: Number)
    requires rate.Finite? && rate.value > 0.0
    ensures NetlifyCredits(amount, rate).Truthy() <==>
              amount.Finite? && amount.value > 0.0 && amount.value * rate.value >= 0.5
  {
    if amount.Finite? && amount.value > 0.0 {
      assert !Refused(amount, rate);
      var x := amount.value * rate.value;
      assert x > 0.0 by { PositiveProduct(amount.value, rate.value); }
      HalfCreditRounding(x);
    }
  }

  lemma PositiveProduct(a: real, b: real)
    requires a > 0.0 && b > 0.0
    ensures a * b > 0.0
  {
  }

  /** A positive amount of credits rounds to a non-zero count exactly from one half up. */
  lemma HalfCreditRounding(x: real)
    requires x > 0.0
    ensures RoundHalfUp(x) != 0 <==> x >= 0.5
  {
  }

  /** At the default rate a $13 payment is 10 credits on the server and 26 on Netlify. */
  lemma ThirteenDollarPackage()
    ensures ServerCredits(Finite(13.0), DefaultRate) == Finite(10.0)
    ensures NetlifyCredits(Finite(13.0), DefaultRate) == Finite(26.0)
  {
    assert RoundHalfUp(26.0) == 26;
  }
}

=== FILE: gemini.dfy ===
/**
 The older client service that talks to the local Express API directly: the
 per-view prompts of `createPrompt`, the inline-image payload of
 `getImageData`, the three-view try-on, and `analyzeStyle` with its fence
 stripping and fixed fallback.

 The `/api/generate` call is the `generate` oracle, `JSON.parse` the `parse`
 oracle; fetching an image from a URL is the `download` oracle.
 */
module Gemini {
  import opened Basics
  import opened Js
  import opened Text
  import opened Types
  import opened Client

  /** `typeMap[garmentType]` */
  function GarmentName(g: GarmentType): (name: string)
    ensures name != ""
    ensures g == Other ==> name == "clothing item"
    ensures g != Other ==> name == ReplaceUnderscores(WireName(g))
  {
    match g
    case Shirt => "shirt"
    case LongDress => "long dress"
    case ShortDress => "short dress"
    case LongSkirt => "long skirt"
    case ShortSkirt => "short skirt"
    case Pants => "pants"
    case Jacket => "jacket"
    case Other => "clothing item"
  }

  /** The wire name read as words: every `_` becomes a blank. */
  function ReplaceUnderscores(s: string): (t: string)
    ensures |t| == |s|
    ensures forall k :: 0 <= k < |s| ==> t[k] == (if s[k] == '_' then ' ' else s[k])
    // No underscore is left, and a name without one is already in words.
    ensures '_' !in t
    ensures '_' !in s ==> t == s
  {
    seq(|s|, k requires 0 <= k < |s| => if s[k] == '_' then ' ' else s[k])
  }

  /** No two categories share a name in the prompts. */
  lemma GarmentNamesDistinct(g: GarmentType, h: GarmentType)
    ensures GarmentName(g) == GarmentName(h) ==> g == h
  {
  }

  const BaseLead := "Perform a hyper-realistic virtual try-on. Take the "
  const BaseFit := " from the second image and place it on the person in the first image. CRITICAL INSTRUCTION: If the person's pose in the input photo is awkward, poorly framed, or has missing/cut-off limbs (like hands or arms), you MUST intelligently correct the posture and complete the missing body parts to look natural and professional. Ensure the "
  const BaseDrape := " drapes and fits perfectly as a real "
  const BaseLength := " would on their body. Specifically, ensure the length of the "
  const BaseClose := " is respected based on its category. The person's facial features and hair must remain consistent with the original. Ensure the fabric drapes naturally on the corrected body physique."

  /** The part of `basePrompt` after the first mention of the garment, which names it
      three more times. */
  function BaseTail(name: string): string {
    BaseFit + name + BaseDrape + name + BaseLength + name + BaseClose
  }

  /** `basePrompt`, which names the garment four times. */
  function BasePrompt(name: string): (p: string)
    ensures StartsWith(p, BaseLead + name)
    ensures p[|BaseLead|..|BaseLead| + |name|] == name
  {
    BaseLead + name + BaseTail(name)
  }

  /** The `viewType` argument; `Unlisted` stands for any other value, which takes the
      `default` branch. */
  datatype View = Front | Side | FullBody | Unlisted

  /** The label a view is reported under in error messages. */
  function ViewLabel(v: View): string {
    match v
    case Front => "front"
    case Side => "side"
    case FullBody => "full-body"
    case Unlisted => ""
  }

  const ViewOpening := " Generate a "

  /** The first letter of a view's request ("clear", "professional", "wide-angle"),
      which sets the three views apart. */
  function ViewMark(v: View): char {
    match v
    case Front => 'c'
    case Side => 'p'
    case FullBody => 'w'
    case Unlisted => ' '
  }

  /** The rest of a view's sentence after its first letter. */
  function ViewTail(v: View, name: string): string {
    match v
    case Front =>
      "lear, well-composed front-facing fashion portrait focusing on the upper body and how the "
      + name + " fits. Ensure hands and arms are visible and posed naturally."
    case Side =>
      "rofessional side profile or three-quarter view. Adjust the body's rotation to perfectly showcase the "
      + name + "'s silhouette and fit from the side."
    case FullBody =>
      "ide-angle full-body fashion shot. If the original photo was a close-up, intelligently expand the view to "
      + "show the person standing in a confident fashion pose showing the full length of the " + name + "."
    case Unlisted => ""
  }

  /** The sentence a view adds after the base prompt; none for an unlisted view. */
  function ViewSentence(v: View, name: string): (s: string)
    ensures v == Unlisted <==> s == ""
    ensures v != Unlisted ==> |s| > |ViewOpening| && s[..|ViewOpening|] == ViewOpening && s[|ViewOpening|] == ViewMark(v)
  {
    if v == Unlisted then ""
    else
      var s := ViewOpening + [ViewMark(v)] + ViewTail(v, name);
      assert s[|ViewOpening|] == ViewMark(v);
      s
  }

  /** `createPrompt(viewType, garmentType)` */
  function CreatePrompt(v: View, g: GarmentType): (p: string)
    ensures StartsWith(p, BasePrompt(GarmentName(g)))
    ensures v == Unlisted <==> p == BasePrompt(GarmentName(g))
  {
    BasePrompt(GarmentName(g)) + ViewSentence(v, GarmentName(g))
  }

  /** Two texts that differ at some position stay different behind a common prefix. */
  lemma DifferBehindPrefix(base: string, x: string, y: string, n: nat)
    requires n < |x| && n < |y| && x[n] != y[n]
    ensures base + x != base + y
  {
    assert (base + x)[|base| + n] == x[n];
    assert (base + y)[|base| + n] == y[n];
  }

  /** Different listed views add different sentences to the same base. */
  lemma ListedSentencesDiffer(base: string, name: string, v: View, w: View)
    requires v != w && v != Unlisted && w != Unlisted
    ensures base + ViewSentence(v, name) != base + ViewSentence(w, name)
  {
    DifferBehindPrefix(base, ViewSentence(v, name), ViewSentence(w, name), |ViewOpening|);
  }

  /** A listed view adds a sentence, an unlisted one adds none. */
  lemma ListedSentenceAdds(base: string, name: string, v: View)
    requires v != Unlisted
    ensures base + ViewSentence(v, name) != base + ViewSentence(Unlisted, name)
  {
    assert |base + ViewSentence(v, name)| > |base + ViewSentence(Unlisted, name)|;
  }

  /** The three views ask for three different pictures of the same garment, and each
      differs from the bare base prompt. */
  lemma ViewPromptsDistinct(g: GarmentType, v: View, w: View)
    requires v != w
    ensures CreatePrompt(v, g) != CreatePrompt(w, g)
  {
    var base := BasePrompt(GarmentName(g));
    if v == Unlisted {
      ListedSentenceAdds(base, GarmentName(g), w);
    } else if w == Unlisted {
      ListedSentenceAdds(base, GarmentName(g), v);
    } else {
      ListedSentencesDiffer(base, GarmentName(g), v, w);
    }
  }

  /** The client's `ImageData`. */
  datatype ImageData = ImageData(base64: string, mimeType: string, url: Option<string>)

  /** The `{ data, mimeType }` payload; `data` is `undefined` when the text has no comma. */
  datatype Payload = Payload(data: Option<string>, mimeType: string)

  const NoSource := "Invalid image data: No source found."

  /** `base64.split(',')[1]` */
  function AfterComma(base64: string): (data: Option<string>)
    ensures data.Some? <==> ',' in base64
  {
    var parts := Split(base64, ',');
    JoinSplit(base64, ',');
    if |parts| > 1 then
      JoinHasSeparator(parts, ',');
      Some(parts[1])
    else
      None
  }

  /** `getImageData`: an inline image is cut at its comma and keeps its MIME type; an
      image with only a URL goes through `download`; neither is an error. */
  function GetImageData(image: ImageData, download: string -> Result<Payload>): (r: Result<Payload>)
    ensures image.base64 != "" ==> r == Ok(Payload(AfterComma(image.base64), image.mimeType))
    ensures image.base64 == "" && (image.url.None? || image.url.value == "") ==> r == Err(NoSource)
  {
    if image.base64 != "" then Ok(Payload(AfterComma(image.base64), image.mimeType))
    else if image.url.None? || image.url.value == "" then Err(NoSource)
    else download(image.url.value)
  }

  /** `data:${mimeType};base64,${data}` as the request rebuilds it. */
  function DataUrl(p: Payload): string {
    "data:" + p.mimeType + ";base64," + (if p.data.Some? then p.data.value else "undefined")
  }

  /** A data URL whose MIME type and payload contain no comma is rebuilt unchanged
      when `mimeType` names its type. */
  lemma {:induction false} DataUrlRoundTrip(mime: string, data: string, download: string -> Result<Payload>)
    requires ',' !in mime && ',' !in data
    ensures var url := "data:" + mime + ";base64," + data;
            var r := GetImageData(ImageData(url, mime, None), download);
            r.Ok? && r.value.data == Some(data) && DataUrl(r.value) == url
  {
    var head := "data:" + mime + ";base64";
    var url := "data:" + mime + ";base64," + data;
    assert ',' !in head by {
      forall k | 0 <= k < |head| ensures head[k] != ',' {
        if k >= 5 && k < 5 + |mime| { assert head[k] == mime[k - 5]; }
      }
    }
    assert url == head + [','] + data;
    SplitAfterWord(head, data, ',');
    SplitOfFreePrefix(data, "", ',');
    assert data + "" == data;
    assert Split(url, ',')[1] == data;
  }

  /** A reply of the local API to one generation request. */
  datatype ApiReply = Unreachable(message: string) | ApiReply(ok: bool, body: Result<Value>)

  /** `generateView(viewType)`: the reply's `text`, or what is thrown. */
  function ViewResult(view: View, reply: ApiReply, host: Builtins): (r: Result<Value>)
    ensures reply.ApiReply? && reply.ok && reply.body.Ok? && reply.body.value.Obj? ==>
              r == Ok(Get(reply.body.value, "text"))
    ensures (reply.ApiReply? && !reply.ok && reply.body.Ok? && reply.body.value.Obj?
             && !Truthy(Get(reply.body.value, "error"))) ==> r == Err("Failed to generate " + ViewLabel(view) + " view")
  {
    match reply
    case Unreachable(m) => Err(m)
    case ApiReply(ok, body) =>
      match body
      case Err(m) => Err(m)
      case Ok(data) =>
        if data.Undefined? || data.Null? then Err(TypeErrorText)
        else if !ok then Err(ToText(FirstTruthy([Get(data, "error"), Str("Failed to generate " + ViewLabel(view) + " view")]), host))
        else Ok(Get(data, "text"))
  }

  /** The message text standing for a `TypeError`, which the model does not spell out. */
  const TypeErrorText := "TypeError"

  datatype TryOnResult = TryOnResult(front: Value, side: Value, full: Value)

  /** `performVirtualTryOn`: both payloads first, then the three views; the result is
      assembled in view order, and the first failing view (in that order) is reported. */
  function PerformTryOn(person: ImageData, cloth: ImageData, g: GarmentType,
                        download: string -> Result<Payload>,
                        generate: (string, seq<string>) -> ApiReply, host: Builtins): (r: Result<TryOnResult>)
    ensures r.Ok? ==>
              && GetImageData(person, download).Ok? && GetImageData(cloth, download).Ok?
              && var images := [DataUrl(GetImageData(person, download).value), DataUrl(GetImageData(cloth, download).value)];
                 && ViewResult(Front, generate(CreatePrompt(Front, g), images), host) == Ok(r.value.front)
                 && ViewResult(Side, generate(CreatePrompt(Side, g), images), host) == Ok(r.value.side)
                 && ViewResult(FullBody, generate(CreatePrompt(FullBody, g), images), host) == Ok(r.value.full)
    ensures GetImageData(person, download).Err? ==> r == Err(GetImageData(person, download).message)
    ensures (GetImageData(person, download).Ok? && GetImageData(cloth, download).Ok?
             && var images := [DataUrl(GetImageData(person, download).value), DataUrl(GetImageData(cloth, download).value)];
                ViewResult(Front, generate(CreatePrompt(Front, g), images), host).Err?) ==>
              r == Err(ViewResult(Front, generate(CreatePrompt(Front, g),
                                                  [DataUrl(GetImageData(person, download).value),
                                                   DataUrl(GetImageData(cloth, download).value)]), host).message)
    ensures GetImageData(person, download).Ok? && GetImageData(cloth, download).Err? ==>
              r == Err(GetImageData(cloth, download).message)
    // A result comes back exactly when both images load and all three views succeed.
    ensures r.Ok? <==>
              && GetImageData(person, download).Ok? && GetImageData(cloth, download).Ok?
              && var images := [DataUrl(GetImageData(person, download).value), DataUrl(GetImageData(cloth, download).value)];
                 && ViewResult(Front, generate(CreatePrompt(Front, g), images), host).Ok?
                 && ViewResult(Side, generate(CreatePrompt(Side, g), images), host).Ok?
                 && ViewResult(FullBody, generate(CreatePrompt(FullBody, g), images), host).Ok?
  {
    match GetImageData(person, download)
    case Err(m) => Err(m)
    case Ok(p) =>
      match GetImageData(cloth, download)
      case Err(m) => Err(m)
      case Ok(c) =>
        var images := [DataUrl(p), DataUrl(c)];
        var front := ViewResult(Front, generate(CreatePrompt(Front, g), images), host);
        var side := ViewResult(Side, generate(CreatePrompt(Side, g), images), host);
        var full := ViewResult(FullBody, generate(CreatePrompt(FullBody, g), images), host);
        if front.Err? then Err(front.message)
        else if side.Err? then Err(side.message)
        else if full.Err? then Err(full.message)
        else Ok(TryOnResult(front.value, side.value, full.value))
  }

  /** Three successful replies give the three texts, each in its own view. */
  lemma SuccessfulViewsInOrder(person: ImageData, cloth: ImageData, g: GarmentType,
                               download: string -> Result<Payload>,
                               generate: (string, seq<string>) -> ApiReply, host: Builtins,
                               front: string, side: string, full: string)
    requires GetImageData(person, download).Ok? && GetImageData(cloth, download).Ok?
    requires var images := [DataUrl(GetImageData(person, download).value), DataUrl(GetImageData(cloth, download).value)];
             && generate(CreatePrompt(Front, g), images) == ApiReply(true, Ok(Obj(map["text" := Str(front)])))
             && generate(CreatePrompt(Side, g), images) == ApiReply(true, Ok(Obj(map["text" := Str(side)])))
             && generate(CreatePrompt(FullBody, g), images) == ApiReply(true, Ok(Obj(map["text" := Str(full)])))
    ensures PerformTryOn(person, cloth, g, download, generate, host) == Ok(TryOnResult(Str(front), Str(side), Str(full)))
  {
    OkReplyText(Front, front, host);
    OkReplyText(Side, side, host);
    OkReplyText(FullBody, full, host);
  }

  /** A successful reply `{ text }` gives its text. */
  lemma OkReplyText(view: View, text: string, host: Builtins)
    ensures ViewResult(view, ApiReply(true, Ok(Obj(map["text" := Str(text)]))), host) == Ok(Str(text))
  {
    assert Get(Obj(map["text" := Str(text)]), "text") == Str(text);
  }

  const Fence := "```"
  const JsonFence := "```json"

  /** `text.replace(/```json/g, '').replace(/```/g, '').trim()` */
  function StripFences(text: string): string {
    Trim(RemoveAll(RemoveAll(text, JsonFence), Fence))
  }

  /** Removing a pattern from a text shorter than the pattern changes nothing. */
  lemma {:induction false} RemoveAllShorter(s: string, pat: string)
    requires 0 < |pat| && |s| < |pat|
    ensures RemoveAll(s, pat) == s
    decreases |s|
  {
    if |s| > 0 {
      RemoveAllShorter(s[1..], pat);
      assert s == [s[0]] + s[1..];
    }
  }

  /** A JSON text wrapped in a json code fence comes out as the trimmed JSON. */
  lemma FencedJson(j: string)
    requires '`' !in j
    ensures StripFences(JsonFence + j + Fence) == Trim(j)
  {
    assert JsonFence + j + Fence == JsonFence + (j + Fence);
    RemoveAllDropsLeading(j + Fence, JsonFence);
    RemoveAllKeepsFreeText(j, Fence, JsonFence);
    RemoveAllShorter(Fence, JsonFence);
    RemoveAllKeepsFreeText(j, Fence, Fence);
    RemoveAllDropsLeading("", Fence);
    assert Fence + "" == Fence;
    assert j + "" == j;
  }

  /** Three backticks start at position `i`. */
  predicate IsFenceAt(s: string, i: int) {
    0 <= i && i + 3 <= |s| && s[i] == '`' && s[i + 1] == '`' && s[i + 2] == '`'
  }

  predicate FenceFree(s: string) {
    forall i :: 0 <= i < |s| ==> !IsFenceAt(s, i)
  }

  /** After every fence is removed no fence is left, even where removals bring backticks
      together: a kept backtick is never followed by a removed fence. */
  lemma {:induction false} RemoveFencesLeavesNone(s: string)
    ensures FenceFree(RemoveAll(s, Fence))
    ensures |s| > 0 && s[0] != '`' ==> |RemoveAll(s, Fence)| > 0 && RemoveAll(s, Fence)[0] == s[0]
    decreases |s|
  {
    if |s| > 0 {
      if Fence <= s {
        RemoveFencesLeavesNone(s[3..]);
      } else {
        var t := s[1..];
        var r' := RemoveAll(t, Fence);
        var r := RemoveAll(s, Fence);
        assert r == [s[0]] + r';
        RemoveFencesLeavesNone(t);
        if s[0] == '`' && |t| > 0 {
          assert !(Fence <= t) by {
            assert !(s[1] == '`' && |t| >= 3 && s[2] == '`');
          }
          assert r' == [t[0]] + RemoveAll(t[1..], Fence);
          if t[0] == '`' && |t| > 1 {
            RemoveFencesLeavesNone(t[1..]);
            assert t[1] != '`';
          }
        }
        forall i | 0 <= i < |r| ensures !IsFenceAt(r, i) {
          if i > 0 {
            assert !IsFenceAt(r', i - 1);
          }
        }
      }
    }
  }

  /** A text in which the pattern never occurs is left as it is. */
  lemma {:induction false} RemoveAllAbsent(t: string, pat: string)
    requires |pat| > 0
    requires forall i :: 0 <= i <= |t| ==> !(pat <= t[i..])
    ensures RemoveAll(t, pat) == t
    decreases |t|
  {
    if |t| > 0 {
      assert t[0..] == t;
      forall i | 0 <= i <= |t[1..]| ensures !(pat <= t[1..][i..]) {
        assert t[1..][i..] == t[i + 1..];
      }
      RemoveAllAbsent(t[1..], pat);
      assert t == [t[0]] + t[1..];
    }
  }

  /** A fence-free text contains neither pattern. */
  lemma FenceFreeHasNoFence(t: string)
    requires FenceFree(t)
    ensures forall i :: 0 <= i <= |t| ==> !(Fence <= t[i..]) && !(JsonFence <= t[i..])
  {
    assert Fence[0] == '`' && Fence[1] == '`' && Fence[2] == '`';
    assert JsonFence[..3] == Fence;
    forall i | 0 <= i <= |t| ensures !(Fence <= t[i..]) && !(JsonFence <= t[i..]) {
      if i + 3 <= |t| {
        assert !IsFenceAt(t, i);
        assert t[i..][0] == t[i] && t[i..][1] == t[i + 1] && t[i..][2] == t[i + 2];
      }
    }
  }

  /** Trimming cuts a slice, so it cannot create a fence. */
  lemma TrimKeepsFenceFree(r: string)
    requires FenceFree(r)
    ensures FenceFree(Trim(r))
  {
    var t := Trim(r);
    var a, b :| 0 <= a <= b <= |r| && t == r[a..b] && AllSpace(r[..a]) && AllSpace(r[b..]);
    forall i | 0 <= i < |t| ensures !IsFenceAt(t, i) {
      assert !IsFenceAt(r, a + i);
    }
  }

  /** Stripping is idempotent: its result holds no fence and no blank at either end. */
  lemma StripFencesIdempotent(text: string)
    ensures StripFences(StripFences(text)) == StripFences(text)
  {
    var r := RemoveAll(RemoveAll(text, JsonFence), Fence);
    RemoveFencesLeavesNone(RemoveAll(text, JsonFence));
    TrimKeepsFenceFree(r);
    var t := Trim(r);
    FenceFreeHasNoFence(t);
    RemoveAllAbsent(t, JsonFence);
    RemoveAllAbsent(t, Fence);
    TrimOfTight(t);
  }

  datatype Lang = Arabic | English

  /** The three fixed tips of the fallback, in the page's language. */
  function FallbackTips(lang: Lang): seq<Value> {
    match lang
    case Arabic => [Str("تأكد من تناسق الألوان"), Str("جرب مقاساً أضيق قليلاً"), Str("أضف بعض الإكسسوارات")]
    case English => [Str("Ensure color coordination"), Str("Try a slightly tighter fit"), Str("Add some accessories")]
  }

  /** The analysis returned whenever anything fails. */
  function Fallback(lang: Lang): Value {
    Obj(map["fitScore" := Num(Finite(85.0)), "colorScore" := Num(Finite(88.0)),
            "styleGrade" := Str("B+"), "tips" := Arr(FallbackTips(lang))])
  }

  /** The reply carries a text that parses once its fences are stripped. */
  predicate Analysed(reply: ApiReply, parse: string -> Result<Value>) {
    && reply.ApiReply? && reply.ok && reply.body.Ok?
    && Get(reply.body.value, "text").Str?
    && parse(StripFences(Get(reply.body.value, "text").s)).Ok?
  }

  /** `analyzeStyle`: the parsed analysis, or the fallback on any failure. */
  function AnalyzeStyle(lang: Lang, reply: ApiReply, parse: string -> Result<Value>): (r: Value)
    ensures Analysed(reply, parse) ==> r == parse(StripFences(Get(reply.body.value, "text").s)).value
    ensures !Analysed(reply, parse) ==> r == Fallback(lang)
  {
    match reply
    case Unreachable(_) => Fallback(lang)
    case ApiReply(ok, body) =>
      if !ok || body.Err? then Fallback(lang)
      else
        var text := Get(body.value, "text");
        if !text.Str? then Fallback(lang)
        else match parse(StripFences(text.s))
          case Err(_) => Fallback(lang)
          case Ok(v) => v
  }

  /** A fenced JSON answer is parsed as the JSON between the fences. */
  lemma FencedAnswerIsParsed(lang: Lang, j: string, parse: string -> Result<Value>)
    requires '`' !in j && parse(Trim(j)).Ok?
    ensures AnalyzeStyle(lang, ApiReply(true, Ok(Obj(map["text" := Str(JsonFence + j + Fence)]))), parse)
              == parse(Trim(j)).value
  {
    FencedJson(j);
    assert Get(Obj(map["text" := Str(JsonFence + j + Fence)]), "text") == Str(JsonFence + j + Fence);
  }
}

=== FILE: generate.dfy ===
/**
 `POST /api/generate` of the Express server: authenticate, check the balance
 against the cost (3 credits in Plus mode, 1 otherwise), resolve the model
 version and the two images, submit one prediction (or three, one per view,
 in Plus mode) through the retry helper, and only then debit the balance.

 The image-model API is the `Upstream` oracle; the identity provider is the
 `Directory`, with `writeOk` telling whether its metadata update succeeds.
 */
module Generate {
  import opened Basics
  import opened Js
  import opened Http
  import opened Ledger
  import opened Retry
  import opened Jobs
  import opened Text
  import opened Prompts

  /** The `input` of one `predictions.create` call, as far as it varies. */
  datatype Request = Request(version: Value, prompt: string, images: seq<string>, format: string, resolution: string)

  /** The image-model API: the latest version lookup, the download of an image URL as
      base64, and the outcome of the n-th creation attempt for a given input. */
  datatype Upstream = Upstream(
    latestVersion: Result<Value>,
    download: string -> Result<string>,
    create: Request -> nat -> Attempt)

  /** A balance that was never set counts as 3 credits: `credits === undefined`. */
  function ServerBalance(u: User): (v: Value)
    ensures StoredCredits(u).Undefined? ==> v == Num(Finite(3.0))
    ensures !StoredCredits(u).Undefined? ==> v == StoredCredits(u)
  {
    var stored := StoredCredits(u);
    if stored.Undefined? then Num(Finite(3.0)) else stored
  }

  /** `isPlusModeBool`: a boolean as it is, a string only when it is "true". */
  function IsPlusMode(v: Value): bool {
    match v
    case Bool(b) => b
    case Str(s) => s == "true"
    case _ => false
  }

  /** Exactly `true` and `"true"` select Plus mode. */
  lemma PlusModeValues(v: Value)
    ensures IsPlusMode(v) <==> v == Bool(true) || v == Str("true")
  {
  }

  function Cost(plus: bool): nat {
    if plus then 3 else 1
  }

  const NoCredits := "Insufficient credits! \U{1F6AB}"
  const ImagesRequired := "Both person and cloth images are required."
  const ServiceBusy := "Service busy. Please try again later."
  const NoVersion := "Model version not available"

  /** `error.message || "Service busy. Please try again later."` */
  function BusyMessage(message: Option<string>): (m: string)
    ensures m != ""
  {
    if message.Some? && message.value != "" then message.value else ServiceBusy
  }

  /** The refusal of a caller who cannot pay for the chosen mode. */
  function CostMessage(plus: bool): string {
    "Insufficient credits! This action requires " + (if plus then "3" else "1") + " credits."
  }

  /** Where the checks before any upstream call leave the request. */
  datatype Gate = Stop(reply: Reply) | Go(index: nat, balance: Number, plus: bool)

  /** Whether a caller with this balance and mode passes the two credit checks. */
  predicate Affordable(balance: Number, plus: bool) {
    !AtMost(balance, Finite(0.0)) && !Less(balance, Finite(Cost(plus) as real))
  }

  /** Authentication, the balance check, the images check and the cost check, in the
      handler's order. */
  function CheckRequest(d: Directory, userId: string, body: Value, host: Builtins): (g: Gate)
    ensures g.Go? <==>
              && userId != "" && FindUser(d, userId).Some? && !body.Undefined? && !body.Null?
              && Truthy(Get(body, "personImage")) && Truthy(Get(body, "clothImage"))
              && Affordable(ToNumber(ServerBalance(d[FindUser(d, userId).value]), host), IsPlusMode(Get(body, "isPlusMode")))
    ensures g.Go? ==> && FindUser(d, userId) == Some(g.index)
                      && g.balance == ToNumber(ServerBalance(d[g.index]), host)
                      && g.plus == IsPlusMode(Get(body, "isPlusMode"))
    ensures g.Stop? ==> g.reply.status in {400, 401, 403, 503}
    ensures g.Stop? && g.reply.status == 403 ==> g.reply.body.PaymentRequired?
    // Each refusal, in the order the handler checks for it.
    ensures userId == "" ==> g == Stop(Reply(401, Error("Unauthorized")))
    ensures userId != "" && FindUser(d, userId).None? ==> g == Stop(Reply(503, Crash))
    ensures userId != "" && FindUser(d, userId).Some? ==>
              var balance := ToNumber(ServerBalance(d[FindUser(d, userId).value]), host);
              && (AtMost(balance, Finite(0.0)) ==> g == Stop(Reply(403, PaymentRequired(NoCredits))))
              && (!AtMost(balance, Finite(0.0)) && (body.Undefined? || body.Null?) ==> g == Stop(Reply(503, Crash)))
              && (!AtMost(balance, Finite(0.0)) && !body.Undefined? && !body.Null?
                  && (!Truthy(Get(body, "personImage")) || !Truthy(Get(body, "clothImage"))) ==>
                    g == Stop(Reply(400, Error(ImagesRequired))))
              && (!AtMost(balance, Finite(0.0)) && !body.Undefined? && !body.Null?
                  && Truthy(Get(body, "personImage")) && Truthy(Get(body, "clothImage"))
                  && Less(balance, Finite(Cost(IsPlusMode(Get(body, "isPlusMode"))) as real)) ==>
                    g == Stop(Reply(403, PaymentRequired(CostMessage(IsPlusMode(Get(body, "isPlusMode")))))))
  {
    if userId == "" then Stop(Reply(401, Error("Unauthorized")))
    else match FindUser(d, userId)
      case None => Stop(Reply(503, Crash))
      case Some(i) =>
        var balance := ToNumber(ServerBalance(d[i]), host);
        if AtMost(balance, Finite(0.0)) then Stop(Reply(403, PaymentRequired(NoCredits)))
        else if body.Undefined? || body.Null? then Stop(Reply(503, Crash))
        else
          var plus := IsPlusMode(Get(body, "isPlusMode"));
          if !Truthy(Get(body, "personImage")) || !Truthy(Get(body, "clothImage")) then
            Stop(Reply(400, Error(ImagesRequired)))
          else if Less(balance, Finite(Cost(plus) as real)) then
            Stop(Reply(403, PaymentRequired(CostMessage(plus))))
          else Go(i, balance, plus)
  }

  /** What `replicate.models.get` and the image downloads give the handler. */
  datatype Prepared = Halt(reply: Reply) | Ready(version: Value, images: seq<string>)

  /** One image as the handler hands it on: a data URI, or the reply that ends the request. */
  datatype Image = Inline(uri: string) | Refused(reply: Reply)

  /** One image as a data URI: a URL is downloaded as base64 first. A value that is not
      a string makes `startsWith` throw a TypeError, whose text the catch-all sends. */
  function ImageUri(image: Value, up: Upstream): (r: Image)
    ensures r.Inline? ==> StartsWith(r.uri, DataPrefix)
    ensures r.Refused? ==> r.reply.status == 503
    ensures image.Str? && StartsWith(image.s, DataPrefix) ==> r == Inline(image.s)
  {
    if !image.Str? then Refused(Reply(503, Crash))
    else if StartsWith(image.s, HttpPrefix) then
      // "http" and "data:" differ in their first letter.
      assert image.s[0] == HttpPrefix[0] != DataPrefix[0];
      match up.download(image.s)
      case Ok(b) => Inline(DataUri(b))
      case Err(m) => Refused(Reply(503, Error(BusyMessage(Some(m)))))
    else Inline(DataUri(image.s))
  }

  /** The model version and the two images; every failure here is a 503. */
  function Prepare(body: Value, up: Upstream): (p: Prepared)
    ensures p.Halt? ==> p.reply.status == 503
    ensures p.Ready? ==> Truthy(p.version) && |p.images| == 2
    ensures p.Ready? ==> forall k :: 0 <= k < 2 ==> StartsWith(p.images[k], DataPrefix)
    // The images are only looked at once a version is known; a person image that is
    // not text fails with a TypeError before the cloth image is touched.
    ensures up.latestVersion.Err? ==> p == Halt(Reply(503, Error(BusyMessage(Some(up.latestVersion.message)))))
    ensures up.latestVersion.Ok? && !Truthy(Get(Get(up.latestVersion.value, "latest_version"), "id")) ==>
              p == Halt(Reply(503, Error(NoVersion)))
    ensures (up.latestVersion.Ok? && Truthy(Get(Get(up.latestVersion.value, "latest_version"), "id"))
             && !Get(body, "personImage").Str?) ==> p == Halt(Reply(503, Crash))
    ensures p.Ready? ==> Get(body, "personImage").Str? && Get(body, "clothImage").Str?
    // A person image that is already a data URI is sent as it is.
    ensures p.Ready? && StartsWith(Get(body, "personImage").s, DataPrefix) ==> p.images[0] == Get(body, "personImage").s
  {
    match up.latestVersion
    case Err(m) => Halt(Reply(503, Error(BusyMessage(Some(m)))))
    case Ok(model) =>
      var version := Get(Get(model, "latest_version"), "id");
      if !Truthy(version) then Halt(Reply(503, Error(NoVersion)))
      else match ImageUri(Get(body, "personImage"), up)
        case Refused(reply) => Halt(reply)
        case Inline(person) =>
          match ImageUri(Get(body, "clothImage"), up)
          case Refused(reply) => Halt(reply)
          case Inline(cloth) => Ready(version, [person, cloth])
  }

  /** The inputs submitted: the three view prompts in Plus mode, the try-on prompt
      otherwise, all with the same version and images. */
  function Requests(version: Value, images: seq<string>, desc: string, makeover: bool, plus: bool): (rs: seq<Request>)
    ensures |rs| == (if plus then 3 else 1)
    ensures forall k :: 0 <= k < |rs| ==> rs[k].version == version && rs[k].images == images
    ensures plus ==> forall k :: 0 <= k < 3 ==> rs[k].prompt == ViewPrompts(desc)[k]
    ensures !plus ==> rs[0].prompt == TryOnPrompt(desc, makeover)
  {
    if plus then
      var ps := ViewPrompts(desc);
      seq(3, k requires 0 <= k < 3 => Request(version, ps[k], images, "png", "2K"))
    else [Request(version, TryOnPrompt(desc, makeover), images, "jpg", "1K")]
  }

  /** Each input goes through its own retry loop; `Promise.all` starts them all. */
  function Submissions(rs: seq<Request>, up: Upstream, host: Builtins): (runs: seq<Run>)
    ensures |runs| == |rs|
    ensures forall k :: 0 <= k < |rs| ==> runs[k] == CreateWithRetry(up.create(rs[k]), host)
  {
    seq(|rs|, k requires 0 <= k < |rs| => CreateWithRetry(up.create(rs[k]), host))
  }

  /** The first run that ended without a prediction, in view order. */
  function FirstFailure(runs: seq<Run>): (r: Option<nat>)
    ensures r.Some? ==> r.value < |runs| && !runs[r.value].outcome.Done?
    ensures r.Some? ==> forall k :: 0 <= k < r.value ==> runs[k].outcome.Done?
    ensures r.None? ==> forall k :: 0 <= k < |runs| ==> runs[k].outcome.Done?
  {
    if |runs| == 0 then None
    else if !runs[0].outcome.Done? then Some(0)
    else match FirstFailure(runs[1..])
      case None => None
      case Some(k) => Some(k + 1)
  }

  /** The ids and the first status of runs that all produced a prediction. */
  function PredictionIds(runs: seq<Run>): (ids: seq<string>)
    requires forall k :: 0 <= k < |runs| ==> runs[k].outcome.Done?
    ensures |ids| == |runs|
    ensures forall k :: 0 <= k < |runs| ==> ids[k] == runs[k].outcome.prediction.id
  {
    seq(|runs|, k requires 0 <= k < |runs| && runs[k].outcome.Done? => runs[k].outcome.prediction.id)
  }

  /** What the handler did: its reply, the directory after it, and the submissions. */
  datatype Generation = Generation(reply: Reply, dir: Directory, runs: seq<Run>)

  /** The debit after the submissions: a 503 and no change when one failed or the
      metadata update fails, else the balance less the cost and a 202 with the id. */
  function Settle(d: Directory, i: nat, balance: Number, plus: bool, runs: seq<Run>, writeOk: bool): (g: Generation)
    requires i < |d| && |runs| == Cost(plus)
    ensures g.runs == runs
    ensures g.reply.status != 202 ==> g.reply.status == 503 && g.dir == d
    ensures g.reply.status == 202 ==>
              && (forall k :: 0 <= k < |runs| ==> runs[k].outcome.Done?)
              && g.reply.body.Accepted? && g.reply.body.cost == Cost(plus)
              && g.reply.body.id == (if plus then ComposeId(PredictionIds(runs)) else runs[0].outcome.prediction.id)
              && g.dir == UpdateMetadata(d, i, map[CreditsKey := Written(Num(Sub(balance, Finite(Cost(plus) as real))))], map[])
    ensures (forall k :: 0 <= k < |runs| ==> runs[k].outcome.Done?) && writeOk ==> g.reply.status == 202
  {
    match FirstFailure(runs)
    case Some(k) =>
      var message := if runs[k].outcome.Failed? then runs[k].outcome.error.message else None;
      Generation(Reply(503, Error(BusyMessage(message))), d, runs)
    case None =>
      var cost := Cost(plus);
      if !writeOk then Generation(Reply(503, Crash), d, runs)
      else
        var d' := UpdateMetadata(d, i, map[CreditsKey := Written(Num(Sub(balance, Finite(cost as real))))], map[]);
        var ids := PredictionIds(runs);
        if plus then Generation(Reply(202, Accepted(ComposeId(ids), "starting", cost)), d', runs)
        else Generation(Reply(202, Accepted(ids[0], runs[0].outcome.prediction.status, cost)), d', runs)
  }

  /** `POST /api/generate`. */
  function Submit(d: Directory, userId: string, body: Value, up: Upstream, writeOk: bool, host: Builtins): (g: Generation)
    // Nothing is submitted and nothing is debited unless every check passed.
    ensures !CheckRequest(d, userId, body, host).Go? ==>
              g == Generation(CheckRequest(d, userId, body, host).reply, d, [])
    // The balance only changes on an accepted request, and then by exactly the cost.
    ensures g.reply.status != 202 ==> g.dir == d
    ensures g.reply.status == 202 ==>
              && CheckRequest(d, userId, body, host).Go?
              && var gate := CheckRequest(d, userId, body, host);
                 && Affordable(gate.balance, gate.plus)
                 && g.reply.body.Accepted? && g.reply.body.cost == Cost(gate.plus)
                 && g.dir == UpdateMetadata(d, gate.index,
                                            map[CreditsKey := Written(Num(Sub(gate.balance, Finite(Cost(gate.plus) as real))))], map[])
    // An accepted request had every submission succeed: one, or three in Plus mode.
    ensures g.reply.status == 202 ==>
              && |g.runs| == Cost(CheckRequest(d, userId, body, host).plus)
              && (forall k :: 0 <= k < |g.runs| ==> g.runs[k].outcome.Done?)
              && g.reply.body.id == (if |g.runs| == 3 then ComposeId(PredictionIds(g.runs))
                                     else g.runs[0].outcome.prediction.id)
    // A failed submission is reported as 503 and leaves the balance alone.
    ensures (exists k :: 0 <= k < |g.runs| && !g.runs[k].outcome.Done?) ==> g.reply.status == 503 && g.dir == d
  {
    match CheckRequest(d, userId, body, host)
    case Stop(reply) => Generation(reply, d, [])
    case Go(i, balance, plus) =>
      match Prepare(body, up)
      case Halt(reply) => Generation(reply, d, [])
      case Ready(version, images) =>
        var desc := GarmentDescription(Get(body, "garmentDescription"), Get(body, "type"), host);
        var rs := Requests(version, images, desc, Truthy(Get(body, "isMakeoverMode")), plus);
        Settle(d, i, balance, plus, Submissions(rs, up, host), writeOk)
  }

  /** A Plus-mode job is answered with an id that splits back into its three
      predictions, and polling that id asks for exactly those predictions. */
  lemma PlusJobIdRoundTrip(d: Directory, userId: string, body: Value, up: Upstream, writeOk: bool,
                           host: Builtins, get: string -> Result<Fetched>)
    requires var g := Submit(d, userId, body, up, writeOk, host);
             && g.reply.status == 202 && |g.runs| == 3
             && forall k :: 0 <= k < 3 ==> IdSeparator !in g.runs[k].outcome.prediction.id
    ensures var g := Submit(d, userId, body, up, writeOk, host);
            && SplitId(g.reply.body.id) == PredictionIds(g.runs)
            && Poll(Some(g.reply.body.id), get, host)
                 == match FetchAll(PredictionIds(g.runs), get)
                    case Ok(ps) => Aggregate(ps, host)
                    case Err(m) => Reply(500, Error(m))
  {
    var g := Submit(d, userId, body, up, writeOk, host);
    var ids := PredictionIds(g.runs);
    ComposedIdRoundTrip(ids);
  }

  /** A numeric balance that passes the credit checks stays non-negative after the debit. */
  lemma DebitKeepsBalanceNonNegative(balance: Number, plus: bool)
    requires Affordable(balance, plus) && balance.Finite?
    ensures var after := Sub(balance, Finite(Cost(plus) as real));
            after.Finite? && after.value >= 0.0 && after.value == balance.value - Cost(plus) as real
  {
  }

  /** A stored balance that does not read as a number (NaN) passes both credit checks,
      because every comparison with NaN is false; its debit is NaN, which the metadata
      update stores as null. */
  lemma NonNumericBalancePasses(plus: bool)
    ensures Affordable(NaN, plus)
    ensures Sub(NaN, Finite(Cost(plus) as real)) == NaN
    ensures Written(Num(Sub(NaN, Finite(Cost(plus) as real)))) == Null
  {
  }

  /** A non-numeric balance lets one request through, and only one: the debit stores
      null, which the next request reads as 0 and refuses with 403. */
  lemma NonNumericBalancePassesOnce(d: Directory, userId: string, body: Value, up: Upstream,
                                    writeOk: bool, host: Builtins)
    requires Submit(d, userId, body, up, writeOk, host).reply.status == 202
    requires CheckRequest(d, userId, body, host).balance.NaN?
    ensures var g := Submit(d, userId, body, up, writeOk, host);
            && StoredCredits(g.dir[CheckRequest(d, userId, body, host).index]) == Null
            && CheckRequest(g.dir, userId, body, host) == Stop(Reply(403, PaymentRequired(NoCredits)))
  {
    var g := Submit(d, userId, body, up, writeOk, host);
    var gate := CheckRequest(d, userId, body, host);
    var i := gate.index;
    var pub := map[CreditsKey := Written(Num(Sub(gate.balance, Finite(Cost(gate.plus) as real))))];
    UpdateKeepsAccounts(d, i, pub, map[]);
    SameAccountsSameLookups(d, g.dir, userId, "");
    assert g.dir[i].publicMeta[CreditsKey] == Null;
    assert ToNumber(ServerBalance(g.dir[i]), host) == Finite(0.0);
  }

  /** A new account starts with 3 credits: enough for one Plus-mode job, and a 2.5
      balance is refused for Plus mode before anything is submitted. */
  lemma FreshAccountExamples(host: Builtins, up: Upstream, writeOk: bool)
    ensures var d := [User("u", [], map[], map[])];
            var body := Obj(map["personImage" := Str("p"), "clothImage" := Str("c"), "isPlusMode" := Bool(true)]);
            CheckRequest(d, "u", body, host) == Go(0, Finite(3.0), true)
    ensures var d := [User("u", [], map[CreditsKey := Num(Finite(2.5))], map[])];
            var body := Obj(map["personImage" := Str("p"), "clothImage" := Str("c"), "isPlusMode" := Str("true")]);
            var g := Submit(d, "u", body, up, writeOk, host);
            g.reply.status == 403 && g.dir == d && g.runs == []
  {
    var body := Obj(map["personImage" := Str("p"), "clothImage" := Str("c"), "isPlusMode" := Bool(true)]);
    assert Get(body, "isPlusMode") == Bool(true);
    assert Get(body, "personImage") == Str("p") && Get(body, "clothImage") == Str("c");
    var body2 := Obj(map["personImage" := Str("p"), "clothImage" := Str("c"), "isPlusMode" := Str("true")]);
    assert Get(body2, "isPlusMode") == Str("true");
    assert Get(body2, "personImage") == Str("p") && Get(body2, "clothImage") == Str("c");
  }
}

=== FILE: http.dfy ===
/**
 HTTP replies as the handlers produce them: a status code and one of the
 body shapes the handlers write.
 */
module Http {
  import opened Basics
  import opened Js
  import opened Text

  datatype Body =
    | Empty                                  // 204 preflight reply
    | Text(text: string)                     // plain-text body ("OK", "Webhook Error", ...)
    | Error(message: string)                 // JSON `{ error }`
    | PaymentRequired(message: string)       // JSON `{ error, needPayment: true }`
    | Crash                                  // an error caught by a catch-all whose text is not modelled
    | Accepted(id: string, state: string, cost: int)
    | Credited(creditsAdded: Number, credits: Number, alreadyProcessed: bool)
    | VideoStarted(deducted: int)
    | Views(front: Value, side: Value, full: Value, analysis: string)
    | JobFailed(error: Value)
    | JobState(state: string)

  datatype Reply = Reply(status: int, body: Body)

  const Preflight := Reply(204, Empty)

  const BearerPrefix := "Bearer "

  /** The token of an `Authorization` header: `undefined` when the header is missing or
      is not a bearer credential, else `authHeader.split(" ")[1]`. */
  function BearerToken(header: Option<string>): (token: Option<string>)
    ensures header.None? || !StartsWith(header.value, BearerPrefix) ==> token.None?
    ensures token.Some? ==> ' ' !in token.value
  {
    if header.None? || !StartsWith(header.value, BearerPrefix) then None
    else
      var h := header.value;
      assert h == "Bearer" + [' '] + h[7..];
      SplitAfterWord("Bearer", h[7..], ' ');
      Some(Split(h, ' ')[1])
  }

  /** The header the client builds from a token, `Bearer ${token}`, gives the token back. */
  lemma BearerTokenRoundTrip(token: string)
    requires ' ' !in token
    ensures BearerToken(Some(BearerPrefix + token)) == Some(token)
  {
    var h := BearerPrefix + token;
    assert h == "Bearer" + [' '] + token;
    SplitAfterWord("Bearer", token, ' ');
    SplitOfFreePrefix(token, "", ' ');
    assert token + "" == token;
  }
}

=== FILE: jobs.dfy ===
/**
 Job tracking of the Express server's `GET /api/generate`: a Plus-mode job id
 is the `|`-joined list of its upstream prediction ids; the upstream statuses
 are reduced to one, and the upstream output (a string, an array of strings,
 or an object with a `url`) is reduced to one image URL per view.
 */
module Jobs {
  import opened Basics
  import opened Js
  import opened Text
  import opened Http

  const IdSeparator := '|'

  /** `predictions.map(p => p.id).join('|')` */
  function ComposeId(ids: seq<string>): string {
    Join(ids, IdSeparator)
  }

  /** `predictionId.split('|')` */
  function SplitId(id: string): seq<string> {
    Split(id, IdSeparator)
  }

  /** Splitting a composed id recovers the prediction ids in order, and a composed id
      of several predictions is recognised as composite. */
  lemma ComposedIdRoundTrip(ids: seq<string>)
    requires |ids| >= 1
    requires forall k :: 0 <= k < |ids| ==> IdSeparator !in ids[k]
    ensures SplitId(ComposeId(ids)) == ids
    ensures |ids| >= 2 ==> IdSeparator in ComposeId(ids)
  {
    SplitJoin(ids, IdSeparator);
    if |ids| >= 2 {
      JoinHasSeparator(ids, IdSeparator);
    }
  }

  /** Every id is the composition of its own parts. */
  lemma SplitIdRoundTrip(id: string)
    ensures ComposeId(SplitId(id)) == id
  {
    JoinSplit(id, IdSeparator);
  }

  /** What `replicate.predictions.get(id)` returns, as far as the handler reads it. */
  datatype Fetched = Fetched(status: string, output: Value, error: Value)

  predicate Succeeded(p: Fetched) {
    p.status == "succeeded"
  }

  /** `p.status === "failed" || p.status === "canceled"` */
  predicate Stopped(p: Fetched) {
    p.status == "failed" || p.status == "canceled"
  }

  /** Whether the output has one of the three URL-carrying shapes. */
  predicate HasUrlShape(output: Value) {
    output.Str? || (output.Arr? && |output.items| > 0) || Truthy(Get(output, "url"))
  }

  /** The URL-carrying part of a URL-shaped output: the string itself, the first array
      element, or the object's `url` as a string. */
  function UrlOf(output: Value, host: Builtins): Value
    requires HasUrlShape(output)
  {
    if output.Str? then output
    else if output.Arr? && |output.items| > 0 then output.items[0]
    else Str(ToText(Get(output, "url"), host))
  }

  /** `getUrl(p)` of the Plus-mode branch: anything without a URL becomes "". */
  function GetUrl(output: Value, host: Builtins): (url: Value)
    ensures HasUrlShape(output) ==> url == UrlOf(output, host)
    ensures !HasUrlShape(output) ==> url == Str("")
    // Only an array can hand on something that is not text.
    ensures !output.Arr? ==> url.Str?
  {
    if output.Str? then output
    else if output.Arr? && |output.items| > 0 then output.items[0]
    else if Truthy(Get(output, "url")) then Str(ToText(Get(output, "url"), host))
    else Str("")
  }

  /** The single-id branch's normalisation (also the Netlify function's): anything
      without a URL is passed through unchanged. */
  function NormalizeOutput(output: Value, host: Builtins): (url: Value)
    ensures HasUrlShape(output) ==> url == UrlOf(output, host)
    ensures !HasUrlShape(output) ==> url == output
    // Apart from an array's first element, the result is text or the output itself.
    ensures !output.Arr? ==> url.Str? || url == output
  {
    var finalUrl :=
      if output.Str? then output
      else if output.Arr? && |output.items| > 0 then output.items[0]
      else if Truthy(Get(output, "url")) then Str(ToText(Get(output, "url"), host))
      else output;
    finalUrl
  }

  /** Normalising the URL of an output that is not an array gives it back. */
  lemma NormalizeOutputIdempotent(output: Value, host: Builtins)
    requires !output.Arr?
    ensures NormalizeOutput(NormalizeOutput(output, host), host) == NormalizeOutput(output, host)
  {
  }

  /** The two normalisations agree on every output that carries a URL. */
  lemma NormalizationsAgree(output: Value, host: Builtins)
    ensures HasUrlShape(output) ==> GetUrl(output, host) == NormalizeOutput(output, host)
    ensures !HasUrlShape(output) ==> GetUrl(output, host) == Str("") && NormalizeOutput(output, host) == output
  {
  }

  /** The same URL as a bare string, a one-element array or an object's `url` is
      normalised to that URL by both normalisations. */
  lemma ShapesNormalizeAlike(u: string, host: Builtins)
    ensures GetUrl(Str(u), host) == Str(u)
    ensures GetUrl(Arr([Str(u)]), host) == Str(u)
    ensures GetUrl(Obj(map["url" := Str(u)]), host) == Str(u)
    ensures u != "" ==> NormalizeOutput(Obj(map["url" := Str(u)]), host) == Str(u)
    ensures NormalizeOutput(Arr([Str(u)]), host) == Str(u)
  {
    assert Get(Obj(map["url" := Str(u)]), "url") == Str(u);
  }

  /** `predictions.find(p => p.status === "failed" || p.status === "canceled")`, by index. */
  function FirstStopped(ps: seq<Fetched>): (r: Option<nat>)
    ensures r.Some? ==> r.value < |ps| && Stopped(ps[r.value])
    ensures r.Some? ==> forall j :: 0 <= j < r.value ==> !Stopped(ps[j])
    ensures r.None? ==> forall j :: 0 <= j < |ps| ==> !Stopped(ps[j])
  {
    if |ps| == 0 then None
    else if Stopped(ps[0]) then Some(0)
    else match FirstStopped(ps[1..])
      case None => None
      case Some(k) => Some(k + 1)
  }

  predicate AllSucceeded(ps: seq<Fetched>) {
    forall j :: 0 <= j < |ps| ==> Succeeded(ps[j])
  }

  const PlusAnalysis := "Generated successfully (Plus Mode)"
  const SingleAnalysis := "Generated successfully"
  const SubJobFailed := "One of the generations failed"

  /** The Plus-mode reply for the fetched sub-predictions: succeeded only when all did
      (views taken from positions 0, 1, 2), failed as soon as one failed or was
      canceled (with the first such error), processing otherwise. Fewer than three
      successful sub-predictions make `getUrl(undefined)` throw, which the handler
      turns into a 500. */
  function Aggregate(ps: seq<Fetched>, host: Builtins): (reply: Reply)
    ensures AllSucceeded(ps) && |ps| >= 3 ==>
              reply == Reply(200, Views(GetUrl(ps[0].output, host), GetUrl(ps[1].output, host),
                                        GetUrl(ps[2].output, host), PlusAnalysis))
    ensures AllSucceeded(ps) && |ps| < 3 ==> reply == Reply(500, Crash)
    ensures !AllSucceeded(ps) && (exists j :: 0 <= j < |ps| && Stopped(ps[j])) ==>
              exists j :: 0 <= j < |ps| && Stopped(ps[j]) && (forall i :: 0 <= i < j ==> !Stopped(ps[i]))
                          && reply == Reply(200, JobFailed(FirstTruthy([ps[j].error, Str(SubJobFailed)])))
    ensures !AllSucceeded(ps) && (forall j :: 0 <= j < |ps| ==> !Stopped(ps[j])) ==>
              reply == Reply(200, JobState("processing"))
  {
    if AllSucceeded(ps) then
      if |ps| >= 3 then
        Reply(200, Views(GetUrl(ps[0].output, host), GetUrl(ps[1].output, host),
                         GetUrl(ps[2].output, host), PlusAnalysis))
      else Reply(500, Crash)
    else match FirstStopped(ps)
      case Some(j) => Reply(200, JobFailed(FirstTruthy([ps[j].error, Str(SubJobFailed)])))
      case None => Reply(200, JobState("processing"))
  }

  /** The aggregate status does not depend on the order of the sub-predictions, only
      the reported error and the view assignment do. */
  lemma AggregateKindIgnoresOrder(ps: seq<Fetched>, qs: seq<Fetched>, host: Builtins)
    requires multiset(ps) == multiset(qs)
    ensures Aggregate(ps, host).body.Views? <==> Aggregate(qs, host).body.Views?
    ensures Aggregate(ps, host).body.JobFailed? <==> Aggregate(qs, host).body.JobFailed?
    ensures Aggregate(ps, host).body == JobState("processing") <==> Aggregate(qs, host).body == JobState("processing")
  {
    assert |qs| == |ps| by {
      assert |multiset(ps)| == |ps| && |multiset(qs)| == |qs|;
    }
    SuccessIgnoresOrder(ps, qs);
    SuccessIgnoresOrder(qs, ps);
    var sp := FirstStopped(ps);
    var sq := FirstStopped(qs);
    if sp.Some? {
      StopIgnoresOrder(ps, qs, sp.value);
    }
    if sq.Some? {
      StopIgnoresOrder(qs, ps, sq.value);
    }
  }

  lemma SuccessIgnoresOrder(ps: seq<Fetched>, qs: seq<Fetched>)
    requires multiset(ps) == multiset(qs)
    ensures AllSucceeded(ps) ==> AllSucceeded(qs)
  {
    if AllSucceeded(ps) {
      forall i | 0 <= i < |qs| ensures Succeeded(qs[i]) {
        assert qs[i] in multiset(ps);
        var j :| 0 <= j < |ps| && ps[j] == qs[i];
      }
    }
  }

  lemma StopIgnoresOrder(ps: seq<Fetched>, qs: seq<Fetched>, j: nat)
    requires multiset(ps) == multiset(qs)
    requires j < |ps| && Stopped(ps[j])
    ensures FirstStopped(qs).Some?
  {
    assert ps[j] in multiset(qs);
    var i :| 0 <= i < |qs| && qs[i] == ps[j];
  }

  /** The reply for a single prediction id. */
  function SingleStatus(p: Fetched, host: Builtins): (reply: Reply)
    ensures Succeeded(p) ==>
              var url := NormalizeOutput(p.output, host);
              reply == Reply(200, Views(url, url, url, SingleAnalysis))
    ensures Stopped(p) ==> reply == Reply(200, JobFailed(p.error))
    ensures !Succeeded(p) && !Stopped(p) ==> reply == Reply(200, JobState(p.status))
  {
    if p.status == "succeeded" then
      var url := NormalizeOutput(p.output, host);
      Reply(200, Views(url, url, url, SingleAnalysis))
    else if p.status == "failed" || p.status == "canceled" then Reply(200, JobFailed(p.error))
    else Reply(200, JobState(p.status))
  }

  /** The JSON the status endpoint answers with: `{ status: "succeeded", output: { front,
      side, full, analysis, remaining: 99 } }`, `{ status: "failed", error }`,
      `{ status }`, or `{ error }` on a failure. */
  function StatusJson(b: Body): Value {
    match b
    case Views(front, side, full, analysis) =>
      Obj(map["status" := Str("succeeded"),
              "output" := Obj(map["front" := front, "side" := side, "full" := full,
                                  "analysis" := Str(analysis), "remaining" := Num(Finite(99.0))])])
    case JobFailed(error) => Obj(map["status" := Str("failed"), "error" := error])
    case JobState(state) => Obj(map["status" := Str(state)])
    case Error(message) => Obj(map["error" := Str(message)])
    case _ => Obj(map[])
  }

  /** `Promise.all(ids.map(id => replicate.predictions.get(id)))`: all results, or the
      first failure (in id order; the real first is the first in time). */
  function FetchAll(ids: seq<string>, get: string -> Result<Fetched>): (r: Result<seq<Fetched>>)
    ensures r.Ok? ==> |r.value| == |ids| && forall k :: 0 <= k < |ids| ==> get(ids[k]) == Ok(r.value[k])
    ensures r.Err? ==> exists k :: 0 <= k < |ids| && get(ids[k]) == Err(r.message)
  {
    if |ids| == 0 then Ok([])
    else match get(ids[0])
      case Err(m) => Err(m)
      case Ok(p) =>
        match FetchAll(ids[1..], get)
        case Err(m) => Err(m)
        case Ok(ps) => Ok([p] + ps)
  }

  /** `GET /api/generate?id=...`; `get` is the upstream status oracle. It reads and
      writes no ledger: polling is free and repeatable. */
  function Poll(id: Option<string>, get: string -> Result<Fetched>, host: Builtins): (reply: Reply)
    ensures id.None? || id == Some("") ==> reply == Reply(400, Error("Missing id parameter"))
    ensures id.Some? && id.value != "" && IdSeparator !in id.value ==>
              reply == (match get(id.value)
                        case Ok(p) => SingleStatus(p, host)
                        case Err(m) => Reply(500, Error(m)))
    ensures id.Some? && IdSeparator in id.value ==>
              reply == (match FetchAll(SplitId(id.value), get)
                        case Ok(ps) => Aggregate(ps, host)
                        case Err(m) => Reply(500, Error(m)))
  {
    match id
    case None => Reply(400, Error("Missing id parameter"))
    case Some(s) =>
      if s == "" then Reply(400, Error("Missing id parameter"))
      else if IdSeparator in s then
        match FetchAll(SplitId(s), get)
        case Ok(ps) => Aggregate(ps, host)
        case Err(m) => Reply(500, Error(m))
      else
        match get(s)
        case Ok(p) => SingleStatus(p, host)
        case Err(m) => Reply(500, Error(m))
  }

  /** The three example jobs: all succeeded, one failed, still running. */
  lemma AggregateExamples(a: Fetched, b: Fetched, c: Fetched, host: Builtins)
    ensures Succeeded(a) && Succeeded(b) && Succeeded(c) ==> Aggregate([a, b, c], host).body.Views?
    ensures Succeeded(a) && b.status == "failed" && c.status == "processing" ==>
              Aggregate([a, b, c], host).body.JobFailed?
    ensures a.status == "processing" && b.status == "processing" && Succeeded(c) ==>
              Aggregate([a, b, c], host) == Reply(200, JobState("processing"))
  {
    var ps := [a, b, c];
    assert ps[0] == a && ps[1] == b && ps[2] == c;
  }
}

=== FILE: js.dfy ===
/**
 The slice of JavaScript's value semantics that the handlers branch on:
 IEEE numbers with their non-finite values, JSON-shaped values, truthiness,
 optional-chaining property access, the `||` chain, and the coercions done by
 `Number(..)`, `String(..)`, `+` and the relational operators.

 Parsing a numeric string and printing an object are engine built-ins that
 are not modelled; they arrive as the `Builtins` oracle.
 */
module Js {

  /** A double, with finite values read as exact reals (no rounding error). */
  datatype Number = Finite(value: real) | NaN | PosInf | NegInf {

    /** `!!n`: zero and NaN are falsy. */
    predicate Truthy() {
      (Finite? && value != 0.0) || PosInf? || NegInf?
    }

    /** `Number.isFinite(n)` */
    predicate IsFinite() {
      Finite?
    }
  }

  function Neg(a: Number): Number {
    match a
    case Finite(x) => Finite(-x)
    case NaN => NaN
    case PosInf => NegInf
    case NegInf => PosInf
  }

  /** `a + b` on two numbers. */
  function Add(a: Number, b: Number): Number {
    match (a, b)
    case (Finite(x), Finite(y)) => Finite(x + y)
    case (NaN, _) => NaN
    case (_, NaN) => NaN
    case (PosInf, NegInf) => NaN
    case (NegInf, PosInf) => NaN
    case (PosInf, _) => PosInf
    case (NegInf, _) => NegInf
    case (_, PosInf) => PosInf
    case (_, NegInf) => NegInf
  }

  /** `a - b` on two numbers. */
  function Sub(a: Number, b: Number): Number {
    Add(a, Neg(b))
  }

  function Sign(a: Number): int {
    match a
    case Finite(x) => if x > 0.0 then 1 else if x < 0.0 then -1 else 0
    case NaN => 0
    case PosInf => 1
    case NegInf => -1
  }

  /** `a * b` on two numbers (an infinity times zero is NaN). */
  function Mul(a: Number, b: Number): Number {
    match (a, b)
    case (Finite(x), Finite(y)) => Finite(x * y)
    case (NaN, _) => NaN
    case (_, NaN) => NaN
    case _ =>
      var s := Sign(a) * Sign(b);
      if s > 0 then PosInf else if s < 0 then NegInf else NaN
  }

  /** `a < b`; every comparison with NaN is false. */
  predicate Less(a: Number, b: Number) {
    match (a, b)
    case (Finite(x), Finite(y)) => x < y
    case (NaN, _) => false
    case (_, NaN) => false
    case (NegInf, _) => !b.NegInf?
    case (_, PosInf) => !a.PosInf?
    case _ => false
  }

  /** `a <= b`; every comparison with NaN is false. */
  predicate AtMost(a: Number, b: Number) {
    !a.NaN? && !b.NaN? && (Less(a, b) || a == b)
  }

  /** `a === b` on numbers: NaN differs from everything, itself included. */
  predicate StrictEqual(a: Number, b: Number) {
    !a.NaN? && a == b
  }

  /** The mathematical floor of `x + 1/2`: the integer `Math.round` picks. */
  function RoundHalfUp(x: real): (k: int)
    ensures x - 0.5 < k as real <= x + 0.5
  {
    (x + 0.5).Floor
  }

  /** `Math.round(a)`: the nearest integer, halves rounded towards +infinity. */
  function Round(a: Number): (r: Number)
    ensures a.Finite? ==> r.Finite? && r.value == r.value.Floor as real
    ensures a.Finite? ==> a.value - 0.5 < r.value <= a.value + 0.5
    ensures !a.Finite? ==> r == a
  {
    match a
    case Finite(x) => Finite(RoundHalfUp(x) as real)
    case _ => a
  }

  /** A JSON-shaped JavaScript value. Arrays and objects are compared by identity
      in JavaScript; the model only relies on that where `includes` is used. */
  datatype Value =
    | Undefined
    | Null
    | Bool(b: bool)
    | Num(n: Number)
    | Str(s: string)
    | Arr(items: seq<Value>)
    | Obj(fields: map<string, Value>)

  /** `!!v` */
  predicate Truthy(v: Value) {
    match v
    case Undefined => false
    case Null => false
    case Bool(b) => b
    case Num(n) => n.Truthy()
    case Str(s) => s != ""
    case Arr(_) => true
    case Obj(_) => true
  }

  /** `v?.[key]`: a missing property, or any property of a non-object, is undefined. */
  function Get(v: Value, key: string): Value {
    if v.Obj? && key in v.fields then v.fields[key] else Undefined
  }

  /** `v?.[i]` on an array; out of range, or not an array, is undefined. */
  function At(v: Value, i: nat): Value {
    if v.Arr? && i < |v.items| then v.items[i] else Undefined
  }

  /** Whether some element of `vs` is truthy. */
  predicate SomeTruthy(vs: seq<Value>) {
    exists i :: 0 <= i < |vs| && Truthy(vs[i])
  }

  /** `vs[0] || vs[1] || ... || vs[n-1]`: the first truthy operand, else the last one. */
  function FirstTruthy(vs: seq<Value>): (r: Value)
    requires |vs| > 0
    ensures SomeTruthy(vs) ==>
              exists i :: 0 <= i < |vs| && r == vs[i] && Truthy(r)
                          && forall j :: 0 <= j < i ==> !Truthy(vs[j])
    ensures !SomeTruthy(vs) ==> r == vs[|vs| - 1]
  {
    if |vs| == 1 || Truthy(vs[0]) then vs[0]
    else
      var r := FirstTruthy(vs[1..]);
      assert forall i :: 1 <= i < |vs| ==> vs[i] == vs[1..][i - 1];
      r
  }

  /** The chain stops at the first truthy operand. */
  lemma FirstTruthyAt(vs: seq<Value>, i: nat)
    requires i < |vs| && Truthy(vs[i])
    requires forall j :: 0 <= j < i ==> !Truthy(vs[j])
    ensures FirstTruthy(vs) == vs[i]
  {
  }

  /** The engine built-ins the model leaves abstract: `Number(s)` for a string and
      `String(v)` for a value that is not already a string. */
  datatype Builtins = Builtins(parse: string -> Number, show: Value -> string)

  /** `String(v)`, also what a template literal `${v}` produces. */
  function ToText(v: Value, host: Builtins): string {
    if v.Str? then v.s else host.show(v)
  }

  /** `Number(v)`, also the coercion applied by `-`, `*` and by `<`, `<=` against a number. */
  function ToNumber(v: Value, host: Builtins): Number {
    match v
    case Undefined => NaN
    case Null => Finite(0.0)
    case Bool(b) => Finite(if b then 1.0 else 0.0)
    case Num(n) => n
    case Str(s) => host.parse(s)
    case Arr(_) => host.parse(host.show(v))
    case Obj(_) => host.parse(host.show(v))
  }

  /** `a + b` on arbitrary values: string concatenation when either side becomes a
      string (strings, arrays and plain objects do), numeric addition otherwise. */
  function Plus(a: Value, b: Value, host: Builtins): Value {
    if a.Str? || a.Arr? || a.Obj? || b.Str? || b.Arr? || b.Obj? then
      Str(ToText(a, host) + ToText(b, host))
    else
      Num(Add(ToNumber(a, host), ToNumber(b, host)))
  }

  /** SameValueZero, the equality of `Array.prototype.includes`: primitives by value
      (NaN equals NaN), arrays and objects by identity, so a freshly parsed one
      never equals a stored one. */
  predicate SameValueZero(a: Value, b: Value) {
    !a.Arr? && !a.Obj? && a == b
  }

  /** `xs.includes(v)` */
  predicate Includes(xs: seq<Value>, v: Value) {
    exists i :: 0 <= i < |xs| && SameValueZero(xs[i], v)
  }

  /** For a primitive, `includes` is plain membership. */
  lemma IncludesPrimitive(xs: seq<Value>, v: Value)
    requires !v.Arr? && !v.Obj?
    ensures Includes(xs, v) <==> v in xs
  {
    if v in xs {
      var k :| 0 <= k < |xs| && xs[k] == v;
      assert SameValueZero(xs[k], v);
    }
  }

  /** `typeof v === "number"` */
  predicate IsNumber(v: Value) {
    v.Num?
  }
}

=== FILE: ledger.dfy ===
/**
 The credit ledger as it lives in the identity provider: user records whose
 public metadata holds the `credits` balance and whose private metadata holds
 the lists of already-reconciled payment ids. Handlers read a user, decide,
 and write back with one metadata update; each request is one atomic
 transition on this directory.
 */
module Ledger {
  import opened Basics
  import opened Js
  import opened Http

  datatype User = User(
    id: string,
    emails: seq<string>,
    publicMeta: map<string, Value>,
    privateMeta: map<string, Value>)

  /** The identity provider's user list, in the order its search returns users. */
  type Directory = seq<User>

  const CreditsKey := "credits"
  const PaypalOrdersKey := "paypalOrders"
  const PayhipTransactionsKey := "payhipTransactions"

  /** The first user with the given id, as `users.getUser` resolves it. */
  function FindUser(d: Directory, id: string): (r: Option<nat>)
    ensures r.Some? ==> r.value < |d| && d[r.value].id == id
    ensures r.Some? ==> forall j :: 0 <= j < r.value ==> d[j].id != id
    ensures r.None? ==> forall j :: 0 <= j < |d| ==> d[j].id != id
  {
    if |d| == 0 then None
    else if d[0].id == id then Some(0)
    else match FindUser(d[1..], id)
      case None => None
      case Some(k) => Some(k + 1)
  }

  /** The first user carrying the e-mail address, as `users.getUserList({ emailAddress })[0]`. */
  function FindByEmail(d: Directory, email: string): (r: Option<nat>)
    ensures r.Some? ==> r.value < |d| && email in d[r.value].emails
    ensures r.Some? ==> forall j :: 0 <= j < r.value ==> email !in d[j].emails
    ensures r.None? ==> forall j :: 0 <= j < |d| ==> email !in d[j].emails
  {
    if |d| == 0 then None
    else if email in d[0].emails then Some(0)
    else match FindByEmail(d[1..], email)
      case None => None
      case Some(k) => Some(k + 1)
  }

  /** `user.publicMetadata.credits` */
  function StoredCredits(u: User): Value {
    if CreditsKey in u.publicMeta then u.publicMeta[CreditsKey] else Undefined
  }

  /** `typeof credits === "number" ? credits : fallback` */
  function NumericCredits(u: User, fallback: Number): (n: Number)
    ensures StoredCredits(u).Num? ==> n == StoredCredits(u).n
    ensures !StoredCredits(u).Num? ==> n == fallback
  {
    match StoredCredits(u)
    case Num(n) => n
    case _ => fallback
  }

  /** The balance of the payment handlers, where a missing balance is 0. */
  function PaidBalance(u: User): Number {
    NumericCredits(u, Finite(0.0))
  }

  /** `users.updateUserMetadata(id, { publicMetadata, privateMetadata })`: the given
      top-level keys replace the stored ones, every other key is kept. */
  function UpdateMetadata(d: Directory, i: nat, pub: map<string, Value>, priv: map<string, Value>): (d': Directory)
    requires i < |d|
    ensures |d'| == |d|
    ensures forall k :: 0 <= k < |d| && k != i ==> d'[k] == d[k]
    ensures d'[i] == d[i].(publicMeta := d[i].publicMeta + pub, privateMeta := d[i].privateMeta + priv)
  {
    d[i := d[i].(publicMeta := d[i].publicMeta + pub, privateMeta := d[i].privateMeta + priv)]
  }

  /** What the metadata update stores for a value it is sent: the update travels as a
      JSON body, and `JSON.stringify` writes NaN and the infinities as `null`. */
  function Written(v: Value): (w: Value)
    ensures w == v || w == Null
    ensures w.Num? ==> w.n.Finite?
    ensures !v.Num? || v.n.Finite? ==> w == v
  {
    if v.Num? && !v.n.Finite? then Null else v
  }

  /** A balance written as a finite number is what every later read sees, whatever
      fallback the reader uses; NaN or an infinity is stored as `null`, which every
      reader replaces by its fallback. No other account's balance moves. */
  lemma CreditsReadBack(d: Directory, i: nat, n: Number, priv: map<string, Value>, fallback: Number)
    requires i < |d|
    ensures var d' := UpdateMetadata(d, i, map[CreditsKey := Written(Num(n))], priv);
            && StoredCredits(d'[i]) == (if n.Finite? then Num(n) else Null)
            && NumericCredits(d'[i], fallback) == (if n.Finite? then n else fallback)
            && forall k :: 0 <= k < |d| && k != i ==> NumericCredits(d'[k], fallback) == NumericCredits(d[k], fallback)
  {
    var d' := UpdateMetadata(d, i, map[CreditsKey := Written(Num(n))], priv);
    assert d'[i].publicMeta[CreditsKey] == Written(Num(n));
  }

  /** Two directories hold the same accounts in the same order; only metadata may differ. */
  predicate SameAccounts(d: Directory, d': Directory) {
    && |d| == |d'|
    && forall k :: 0 <= k < |d| ==> d[k].id == d'[k].id && d[k].emails == d'[k].emails
  }

  /** Metadata writes never change which user an id or an e-mail address resolves to. */
  lemma {:induction false} SameAccountsSameLookups(d: Directory, d': Directory, id: string, email: string)
    requires SameAccounts(d, d')
    ensures FindUser(d, id) == FindUser(d', id)
    ensures FindByEmail(d, email) == FindByEmail(d', email)
    decreases |d|
  {
    if |d| > 0 {
      assert SameAccounts(d[1..], d'[1..]) by {
        forall k | 0 <= k < |d[1..]|
          ensures d[1..][k].id == d'[1..][k].id && d[1..][k].emails == d'[1..][k].emails
        {
          assert d[1..][k] == d[k + 1] && d'[1..][k] == d'[k + 1];
        }
      }
      SameAccountsSameLookups(d[1..], d'[1..], id, email);
    }
  }

  lemma UpdateKeepsAccounts(d: Directory, i: nat, pub: map<string, Value>, priv: map<string, Value>)
    requires i < |d|
    ensures SameAccounts(d, UpdateMetadata(d, i, pub, priv))
  {
  }

  /** What one request did: the reply it sent and the directory after it. */
  datatype Step = Step(reply: Reply, dir: Directory)
}

=== FILE: paddle.dfy ===
/**
 The Paddle webhook of the Netlify deployment: a POST carrying a
 `paddle-signature` header is verified and decoded by the payment SDK; a
 completed transaction whose `customData.userId` is set adds a fixed pack of
 50 credits to that user. There is no record of processed transactions, so a
 redelivered event is credited again.

 The SDK's `webhooks.unmarshal` is the `unmarshal` oracle; it fails on a bad
 signature or body.
 */
module Paddle {
  import opened Basics
  import opened Js
  import opened Http
  import opened Ledger

  const CompletedEvent := "transaction.completed"
  const PackCredits: Number := Finite(50.0)

  const Acknowledged := Reply(200, Text("OK"))
  const ServerError := Reply(500, Text("Server Error"))

  /** `(user.publicMetadata.credits || 0) + 50`, with `+` as JavaScript applies it. */
  function ToppedUp(u: User, host: Builtins): Value {
    Plus(FirstTruthy([StoredCredits(u), Num(Finite(0.0))]), Num(PackCredits), host)
  }

  /** For a stored number the pack adds 50; a missing, zero or NaN balance becomes 50. */
  lemma ToppedUpNumbers(u: User, host: Builtins)
    ensures StoredCredits(u).Num? && StoredCredits(u).n.Truthy() ==>
              ToppedUp(u, host) == Num(Add(StoredCredits(u).n, PackCredits))
    ensures !Truthy(StoredCredits(u)) ==> ToppedUp(u, host) == Num(PackCredits)
  {
    var first := FirstTruthy([StoredCredits(u), Num(Finite(0.0))]);
    if !Truthy(StoredCredits(u)) {
      assert first == Num(Finite(0.0));
      assert Add(Finite(0.0), PackCredits) == PackCredits;
    }
  }

  /** The user a completed transaction names, when it names one: `customData.userId`
      when both are truthy; the id is used as `getUser` turns it into a path. */
  function Recipient(data: Value, host: Builtins): (id: Option<string>)
    ensures id.Some? <==> Truthy(Get(data, "customData")) && Truthy(Get(Get(data, "customData"), "userId"))
  {
    var customData := Get(data, "customData");
    if Truthy(customData) && Truthy(Get(customData, "userId")) then
      Some(ToText(Get(customData, "userId"), host))
    else None
  }

  /** A POST whose signature header and secret are both non-empty, so it reaches the SDK. */
  predicate HeadersPresent(verb: string, signature: Option<string>, secret: Option<string>) {
    verb == "POST" && signature.Some? && signature.value != "" && secret.Some? && secret.value != ""
  }

  /** The handler. `secret` is `PADDLE_WEBHOOK_SECRET_KEY` (None when unset), `signature`
      the header, `writeOk` whether the metadata update succeeds. */
  function Deliver(verb: string, signature: Option<string>, secret: Option<string>, body: string,
                   unmarshal: (string, string, string) -> Result<Value>, d: Directory, writeOk: bool,
                   host: Builtins): (s: Step)
    ensures verb != "POST" ==> s == Step(Reply(405, Text("Method Not Allowed")), d)
    ensures verb == "POST" && (signature.None? || signature == Some("") || secret.None? || secret == Some("")) ==>
              s == Step(Reply(400, Text("Webhook Error")), d)
    // Past the header check, each outcome of the SDK and of Clerk has its own reply.
    ensures HeadersPresent(verb, signature, secret) && unmarshal(body, secret.value, signature.value).Err? ==>
              s == Step(ServerError, d)
    ensures HeadersPresent(verb, signature, secret) && unmarshal(body, secret.value, signature.value).Ok? ==>
              var event := unmarshal(body, secret.value, signature.value).value;
              var data := Get(event, "data");
              && (Get(event, "eventType") != Str(CompletedEvent) ==> s == Step(Acknowledged, d))
              && (Get(event, "eventType") == Str(CompletedEvent) && (data.Undefined? || data.Null?) ==>
                    s == Step(ServerError, d))
              && (Get(event, "eventType") == Str(CompletedEvent) && !data.Undefined? && !data.Null?
                  && Recipient(data, host).None? ==>
                    s == Step(Acknowledged, d))
              && (Get(event, "eventType") == Str(CompletedEvent) && !data.Undefined? && !data.Null?
                  && Recipient(data, host).Some? && FindUser(d, Recipient(data, host).value).None? ==>
                    s == Step(ServerError, d))
              && (Get(event, "eventType") == Str(CompletedEvent) && !data.Undefined? && !data.Null?
                  && Recipient(data, host).Some? && FindUser(d, Recipient(data, host).value).Some? && !writeOk ==>
                    s == Step(ServerError, d))
    ensures s.reply == Acknowledged || s.dir == d
    ensures s.reply in {Acknowledged, ServerError} || s.reply.status in {400, 405}
    ensures s.dir != d ==>
              && verb == "POST" && signature.Some? && secret.Some? && writeOk
              && var event := unmarshal(body, secret.value, signature.value);
                 && event.Ok? && Get(event.value, "eventType") == Str(CompletedEvent)
                 && var id := Recipient(Get(event.value, "data"), host);
                    && id.Some? && FindUser(d, id.value).Some?
                    && var i := FindUser(d, id.value).value;
                       s.dir == TopUp(d, i, host)
  {
    if verb != "POST" then Step(Reply(405, Text("Method Not Allowed")), d)
    else if signature.None? || signature.value == "" || secret.None? || secret.value == "" then
      Step(Reply(400, Text("Webhook Error")), d)
    else match unmarshal(body, secret.value, signature.value)
      case Err(_) => Step(ServerError, d)
      case Ok(event) =>
        if Get(event, "eventType") != Str(CompletedEvent) then Step(Acknowledged, d)
        else
          var data := Get(event, "data");
          if data.Undefined? || data.Null? then Step(ServerError, d)
          else match Recipient(data, host)
            case None => Step(Acknowledged, d)
            case Some(id) =>
              match FindUser(d, id)
              case None => Step(ServerError, d)
              case Some(i) =>
                if !writeOk then Step(ServerError, d)
                else Step(Acknowledged, TopUp(d, i, host))
  }

  /** The metadata update of a credited transaction. */
  function TopUp(d: Directory, i: nat, host: Builtins): (d': Directory)
    requires i < |d|
    ensures SameAccounts(d, d')
    ensures forall k :: 0 <= k < |d| && k != i ==> d'[k] == d[k]
    ensures StoredCredits(d'[i]) == Written(ToppedUp(d[i], host))
  {
    var pub := map[CreditsKey := Written(ToppedUp(d[i], host))];
    UpdateKeepsAccounts(d, i, pub, map[]);
    UpdateMetadata(d, i, pub, map[])
  }

  /** A verified delivery of a completed transaction naming user `i`. */
  predicate PaysUser(verb: string, signature: Option<string>, secret: Option<string>, body: string,
                     unmarshal: (string, string, string) -> Result<Value>, d: Directory, host: Builtins, i: nat) {
    && verb == "POST" && signature.Some? && signature.value != "" && secret.Some? && secret.value != ""
    && var event := unmarshal(body, secret.value, signature.value);
       && event.Ok? && Get(event.value, "eventType") == Str(CompletedEvent)
       && Recipient(Get(event.value, "data"), host).Some?
       && FindUser(d, Recipient(Get(event.value, "data"), host).value) == Some(i)
  }

  /** Such a delivery is acknowledged and tops the user up. */
  lemma CompletedTransactionCredits(verb: string, signature: Option<string>, secret: Option<string>,
                                    body: string, unmarshal: (string, string, string) -> Result<Value>,
                                    d: Directory, host: Builtins, i: nat)
    requires PaysUser(verb, signature, secret, body, unmarshal, d, host, i)
    ensures i < |d|
    ensures Deliver(verb, signature, secret, body, unmarshal, d, true, host) == Step(Acknowledged, TopUp(d, i, host))
  {
  }

  /** A non-zero finite balance grows by exactly the pack. */
  lemma ToppedUpFinite(u: User, host: Builtins, x: real)
    requires StoredCredits(u) == Num(Finite(x)) && x != 0.0
    ensures ToppedUp(u, host) == Num(Finite(x + 50.0))
  {
    ToppedUpNumbers(u, host);
  }

  /** One paid delivery, stated on the balance alone. */
  lemma PaidDelivery(verb: string, signature: Option<string>, secret: Option<string>,
                     body: string, unmarshal: (string, string, string) -> Result<Value>,
                     d: Directory, host: Builtins, i: nat, x: real)
    requires PaysUser(verb, signature, secret, body, unmarshal, d, host, i)
    requires i < |d| && StoredCredits(d[i]) == Num(Finite(x)) && x != 0.0
    ensures var d1 := Deliver(verb, signature, secret, body, unmarshal, d, true, host).dir;
            && SameAccounts(d, d1)
            && StoredCredits(d1[i]) == Num(Finite(x + 50.0))
  {
    CompletedTransactionCredits(verb, signature, secret, body, unmarshal, d, host, i);
    ToppedUpFinite(d[i], host, x);
  }

  /** Nothing marks a transaction as processed: the same event delivered twice adds
      the pack twice to a positive balance. */
  lemma {:induction false} RedeliveryCreditsTwice(verb: string, signature: Option<string>, secret: Option<string>,
                                                  body: string, unmarshal: (string, string, string) -> Result<Value>,
                                                  d: Directory, host: Builtins, i: nat, x: real)
    requires PaysUser(verb, signature, secret, body, unmarshal, d, host, i)
    requires i < |d| && StoredCredits(d[i]) == Num(Finite(x)) && x > 0.0
    ensures var d1 := Deliver(verb, signature, secret, body, unmarshal, d, true, host).dir;
            var d2 := Deliver(verb, signature, secret, body, unmarshal, d1, true, host).dir;
            StoredCredits(d2[i]) == Num(Finite(x + 100.0))
  {
    var event := unmarshal(body, secret.value, signature.value).value;
    var id := Recipient(Get(event, "data"), host).value;
    PaidDelivery(verb, signature, secret, body, unmarshal, d, host, i, x);
    var d1 := Deliver(verb, signature, secret, body, unmarshal, d, true, host).dir;
    SameAccountsSameLookups(d, d1, id, "");
    assert PaysUser(verb, signature, secret, body, unmarshal, d1, host, i);
    PaidDelivery(verb, signature, secret, body, unmarshal, d1, host, i, x + 50.0);
  }
}

=== FILE: payhip.dfy ===
/**
 The Payhip webhook: a signed delivery whose event is a successful payment
 credits 10 to the user with the buyer's e-mail address, once per
 transaction id (recorded in the private metadata list `payhipTransactions`).
 The body parser is the `parse` oracle. The handler takes the signature
 normalisation as a parameter: the deployed handler uses `NormalizeSignature`,
 which refuses a padded base64 signature, and `NormalizeSignatureFixed` is the
 correction (see `Signature`).
 */
module Payhip {
  import opened Basics
  import opened Js
  import opened Text
  import opened Http
  import opened Ledger
  import opened Signature

  /** The position of the first non-empty header among `names`. */
  function FirstHeader(headers: string -> Option<string>, names: seq<string>): (r: Option<nat>)
    ensures r.Some? ==> r.value < |names| && headers(names[r.value]).Some? && headers(names[r.value]).value != ""
    ensures r.Some? ==> forall j :: 0 <= j < r.value ==> headers(names[j]) in {None, Some("")}
    ensures r.None? ==> forall j :: 0 <= j < |names| ==> headers(names[j]) in {None, Some("")}
  {
    if |names| == 0 then None
    else if headers(names[0]).Some? && headers(names[0]).value != "" then Some(0)
    else match FirstHeader(headers, names[1..])
      case None => None
      case Some(k) => Some(k + 1)
  }

  /** `getHeaderValue`: the first non-empty header among `names`. */
  function HeaderValue(headers: string -> Option<string>, names: seq<string>): (v: Option<string>)
    ensures v.Some? ==> v.value != "" && exists k :: 0 <= k < |names| && headers(names[k]) == v
                                                   && forall j :: 0 <= j < k ==> headers(names[j]) in {None, Some("")}
    ensures v.None? ==> forall k :: 0 <= k < |names| ==> headers(names[k]) in {None, Some("")}
  {
    match FirstHeader(headers, names)
    case None => None
    case Some(k) => headers(names[k])
  }

  const SignatureHeaders := ["payhip-signature", "x-payhip-signature", "x-webhook-signature", "x-signature"]

  /** The characters of the class `[\s.-]`. */
  predicate IsEventSeparator(c: char) {
    IsSpace(c) || c == '.' || c == '-'
  }

  /** Drops the separators at the start of `s`. */
  function DropSeparators(s: string): (t: string)
    ensures |t| <= |s| && t == s[|s| - |t|..]
    ensures t == [] || !IsEventSeparator(t[0])
  {
    if |s| > 0 && IsEventSeparator(s[0]) then DropSeparators(s[1..]) else s
  }

  /** `s.replace(/[\s.-]+/g, '_')`: each run of separators becomes one `_`. */
  function CollapseSeparators(s: string): (t: string)
    ensures forall k :: 0 <= k < |t| ==> !IsEventSeparator(t[k])
    ensures (forall k :: 0 <= k < |s| ==> !IsUpper(s[k])) ==> forall k :: 0 <= k < |t| ==> !IsUpper(t[k])
    decreases |s|
  {
    if |s| == 0 then ""
    else if IsEventSeparator(s[0]) then "_" + CollapseSeparators(DropSeparators(s))
    else [s[0]] + CollapseSeparators(s[1..])
  }

  /** A text without separators is left as it is. */
  lemma {:induction false} CollapseKeepsPlainText(s: string)
    requires forall k :: 0 <= k < |s| ==> !IsEventSeparator(s[k])
    ensures CollapseSeparators(s) == s
    decreases |s|
  {
    if |s| > 0 {
      CollapseKeepsPlainText(s[1..]);
      assert s == [s[0]] + s[1..];
    }
  }

  /** Lower-casing a text with no upper-case letters changes nothing. */
  lemma LowerKeepsLowerText(s: string)
    requires forall k :: 0 <= k < |s| ==> !IsUpper(s[k])
    ensures Lower(s) == s
  {
  }

  /** `normalizeEventType`: lower-case, separators collapsed to `_`. */
  function NormalizeEventType(eventType: Value, host: Builtins): (r: Option<string>)
    ensures !Truthy(eventType) ==> r.None?
    ensures Truthy(eventType) ==> r == Some(CollapseSeparators(Lower(ToText(eventType, host))))
    // What comes out is in the canonical form the allowed events are written in.
    ensures r.Some? ==> forall k :: 0 <= k < |r.value| ==> !IsUpper(r.value[k]) && !IsEventSeparator(r.value[k])
  {
    if !Truthy(eventType) then None else Some(CollapseSeparators(Lower(ToText(eventType, host))))
  }

  /** Normalising a normalised event type gives it back. */
  lemma NormalizeEventTypeIdempotent(eventType: Value, host: Builtins)
    requires NormalizeEventType(eventType, host).Some? && NormalizeEventType(eventType, host).value != ""
    ensures var once := NormalizeEventType(eventType, host).value;
            NormalizeEventType(Str(once), host) == Some(once)
  {
    var once := NormalizeEventType(eventType, host).value;
    LowerKeepsLowerText(once);
    CollapseKeepsPlainText(once);
  }

  /** Leading separators of a run are dropped up to the next word. */
  lemma {:induction false} DropRun(r: string, w: string)
    requires forall k :: 0 <= k < |r| ==> IsEventSeparator(r[k])
    requires w == [] || !IsEventSeparator(w[0])
    ensures DropSeparators(r + w) == w
    decreases |r|
  {
    if |r| > 0 {
      assert (r + w)[0] == r[0];
      assert (r + w)[1..] == r[1..] + w;
      DropRun(r[1..], w);
    } else {
      assert r + w == w;
    }
  }

  /** Two words joined by a run of separators become the words joined by one `_`:
      "payment.success" and "payment - success" both become "payment_success". */
  lemma {:induction false} CollapseJoinsWords(w1: string, r: string, w2: string)
    requires forall k :: 0 <= k < |w1| ==> !IsEventSeparator(w1[k])
    requires forall k :: 0 <= k < |w2| ==> !IsEventSeparator(w2[k])
    requires |r| > 0 && forall k :: 0 <= k < |r| ==> IsEventSeparator(r[k])
    ensures CollapseSeparators(w1 + r + w2) == w1 + "_" + w2
    decreases |w1|
  {
    if |w1| == 0 {
      assert w1 + r + w2 == r + w2;
      assert (r + w2)[0] == r[0];
      DropRun(r, w2);
      CollapseKeepsPlainText(w2);
    } else {
      assert (w1 + r + w2)[0] == w1[0];
      assert (w1 + r + w2)[1..] == w1[1..] + r + w2;
      CollapseJoinsWords(w1[1..], r, w2);
      assert w1 + "_" + w2 == [w1[0]] + (w1[1..] + "_" + w2);
    }
  }

  const AllowedEvents := {"payment_success", "payment_succeeded", "payment_successful"}

  /** `extractEventType` */
  function EventTypeOf(p: Value): Value {
    FirstTruthy([Get(p, "event"), Get(p, "event_type"), Get(p, "eventName"), Get(p, "event_name"), Get(p, "type"), Null])
  }

  /** The candidate fields of `extractEmail`, in order. */
  function EmailCandidates(p: Value): seq<Value> {
    var data := Get(p, "data");
    [Get(p, "email"), Get(p, "buyer_email"), Get(Get(p, "buyer"), "email"), Get(Get(p, "customer"), "email"),
     Get(Get(p, "order"), "email"), Get(data, "email"), Get(data, "buyer_email"), Get(Get(data, "buyer"), "email"),
     Get(Get(data, "customer"), "email"), Get(Get(data, "order"), "email"), Null]
  }

  /** `extractEmail`: the first truthy candidate, trimmed and lower-cased when it is a string. */
  function EmailOf(p: Value): (email: Option<string>)
    ensures var first := FirstTruthy(EmailCandidates(p));
            && (first.Str? ==> email == Some(Lower(Trim(first.s))))
            && (!first.Str? ==> email.None?)
    // An address found is in lower case and has no blanks at either end.
    ensures email.Some? ==> forall k :: 0 <= k < |email.value| ==> !IsUpper(email.value[k])
    ensures email.Some? && email.value != [] ==>
              !IsSpace(email.value[0]) && !IsSpace(email.value[|email.value| - 1])
  {
    var first := FirstTruthy(EmailCandidates(p));
    if first.Str? then
      var t := Trim(first.s);
      if t == [] then Some(Lower(t))
      else
        LowerCharKeepsBlank(t[0]);
        LowerCharKeepsBlank(t[|t| - 1]);
        Some(Lower(t))
    else None
  }

  /** A buyer's address with blanks around it is found as the plain address. */
  lemma EmailIsTrimmed(address: string)
    requires address != [] && !IsSpace(address[0]) && !IsSpace(address[|address| - 1])
    requires forall k :: 0 <= k < |address| ==> !IsUpper(address[k])
    ensures EmailOf(Obj(map["buyer_email" := Str(" " + address + "\n")])) == Some(address)
  {
    var p := Obj(map["buyer_email" := Str(" " + address + "\n")]);
    var cs := EmailCandidates(p);
    assert cs[0] == Undefined && cs[1] == Str(" " + address + "\n");
    FirstTruthyAt(cs, 1);
    assert AllSpace(" ") && AllSpace("\n");
    TrimIgnoresPadding(" ", address, "\n");
    TrimOfTight(address);
    LowerKeepsLowerText(address);
  }

  /** `extractTransactionId` */
  function TransactionIdOf(p: Value): Value {
    var data := Get(p, "data");
    FirstTruthy([Get(p, "transaction_id"), Get(p, "transactionId"), Get(p, "order_id"), Get(p, "orderId"),
                 Get(p, "purchase_id"), Get(p, "purchaseId"), Get(data, "transaction_id"), Get(data, "id"),
                 Get(data, "order_id"), Get(data, "purchase_id"), Null])
  }

  /** `payhipTransactions` when it is an array, else nothing. */
  function RecordedTransactions(u: User): seq<Value> {
    var stored := if PayhipTransactionsKey in u.privateMeta then u.privateMeta[PayhipTransactionsKey] else Undefined;
    if stored.Arr? then stored.items else []
  }

  const PaymentCredits: Number := Finite(10.0)

  /** The metadata update for a credited delivery: 10 more credits, and the
      transaction id appended when the delivery has one. */
  function CreditBuyer(d: Directory, i: nat, tid: Value): (d': Directory)
    requires i < |d|
    ensures SameAccounts(d, d')
    ensures forall k :: 0 <= k < |d| && k != i ==> d'[k] == d[k]
    // A sum that is not finite is stored as null, which reads back as 0.
    ensures var sum := Add(PaidBalance(d[i]), PaymentCredits);
            PaidBalance(d'[i]) == (if sum.Finite? then sum else Finite(0.0))
    ensures Truthy(tid) ==> RecordedTransactions(d'[i]) == RecordedTransactions(d[i]) + [tid]
    ensures !Truthy(tid) ==> d'[i].privateMeta == d[i].privateMeta
  {
    var pub := map[CreditsKey := Written(Num(Add(PaidBalance(d[i]), PaymentCredits)))];
    var priv := if Truthy(tid) then map[PayhipTransactionsKey := Arr(RecordedTransactions(d[i]) + [tid])] else map[];
    UpdateKeepsAccounts(d, i, pub, priv);
    assert d[i].privateMeta + map[] == d[i].privateMeta;
    UpdateMetadata(d, i, pub, priv)
  }

  const Ok := Reply(200, Text("OK"))

  /** Where a verified delivery leads: the user to credit, or an acknowledgement. */
  datatype Target = Ignore | Credit(index: nat, tid: Value)

  /** The event, e-mail and transaction checks of a verified, parsed delivery. */
  function TargetOf(d: Directory, payload: Value, host: Builtins): (t: Target)
    ensures t.Credit? <==>
              && NormalizeEventType(EventTypeOf(payload), host).Some?
              && NormalizeEventType(EventTypeOf(payload), host).value in AllowedEvents
              && EmailOf(payload).Some? && EmailOf(payload).value != ""
              && FindByEmail(d, EmailOf(payload).value).Some?
              && var i := FindByEmail(d, EmailOf(payload).value).value;
                 !(Truthy(TransactionIdOf(payload)) && Includes(RecordedTransactions(d[i]), TransactionIdOf(payload)))
    ensures t.Credit? ==> t == Credit(FindByEmail(d, EmailOf(payload).value).value, TransactionIdOf(payload))
  {
    var eventType := NormalizeEventType(EventTypeOf(payload), host);
    if eventType.None? || eventType.value !in AllowedEvents then Ignore
    else match EmailOf(payload)
      case None => Ignore
      case Some(email) =>
        if email == "" then Ignore
        else match FindByEmail(d, email)
          case None => Ignore
          case Some(i) =>
            var tid := TransactionIdOf(payload);
            if Truthy(tid) && Includes(RecordedTransactions(d[i]), tid) then Ignore
            else Credit(i, tid)
  }

  /** The delivery is a POST whose signature verifies under `normalize` and whose body parses. */
  predicate Authentic(verb: string, headers: string -> Option<string>, body: string, secret: string,
                      normalize: string -> Option<string>, crypto: Crypto, parse: string -> Result<Value>) {
    && verb == "POST" && HeaderValue(headers, SignatureHeaders).Some?
    && IsValidSignature(body, HeaderValue(headers, SignatureHeaders).value, secret, normalize, crypto)
    && parse(body).Ok?
  }

  /** The payload gets past the event and e-mail checks, so the handler asks the
      identity provider for the user with that address. */
  predicate NeedsLookup(payload: Value, host: Builtins) {
    && NormalizeEventType(EventTypeOf(payload), host).Some?
    && NormalizeEventType(EventTypeOf(payload), host).value in AllowedEvents
    && EmailOf(payload).Some? && EmailOf(payload).value != ""
  }

  /** The webhook handler. `secret` is the configured secret (empty when unset),
      `normalize` the signature normalisation, `lookupOk` whether the user search
      succeeds and `writeOk` whether the metadata update succeeds; a failing search or
      update rejects the handler's promise, which the platform answers with a 500. */
  function Deliver(verb: string, headers: string -> Option<string>, body: string, secret: string,
                   normalize: string -> Option<string>, crypto: Crypto, parse: string -> Result<Value>,
                   d: Directory, lookupOk: bool, writeOk: bool, host: Builtins): (s: Step)
    ensures verb != "POST" ==> s == Step(Reply(405, Text("Method Not Allowed")), d)
    ensures verb == "POST" && (HeaderValue(headers, SignatureHeaders).None?
                               || !IsValidSignature(body, HeaderValue(headers, SignatureHeaders).value, secret,
                                                    normalize, crypto)) ==>
              s == Step(Reply(400, Text("Webhook Error")), d)
    ensures (verb == "POST" && HeaderValue(headers, SignatureHeaders).Some?
             && IsValidSignature(body, HeaderValue(headers, SignatureHeaders).value, secret, normalize, crypto)
             && parse(body).Err?) ==> s == Step(Reply(400, Text("Invalid JSON")), d)
    ensures (Authentic(verb, headers, body, secret, normalize, crypto, parse) && NeedsLookup(parse(body).value, host)
             && !lookupOk) ==> s == Step(Reply(500, Crash), d)
    ensures (Authentic(verb, headers, body, secret, normalize, crypto, parse)
             && (lookupOk || !NeedsLookup(parse(body).value, host))
             && TargetOf(d, parse(body).value, host).Ignore?) ==> s == Step(Ok, d)
    ensures !(Authentic(verb, headers, body, secret, normalize, crypto, parse) && lookupOk
              && TargetOf(d, parse(body).value, host).Credit?) ==>
              s.dir == d
    ensures Authentic(verb, headers, body, secret, normalize, crypto, parse) && lookupOk
            && TargetOf(d, parse(body).value, host).Credit? ==>
              var t := TargetOf(d, parse(body).value, host);
              s == (if writeOk then Step(Ok, CreditBuyer(d, t.index, t.tid)) else Step(Reply(500, Crash), d))
  {
    if verb != "POST" then Step(Reply(405, Text("Method Not Allowed")), d)
    else match HeaderValue(headers, SignatureHeaders)
      case None => Step(Reply(400, Text("Webhook Error")), d)
      case Some(signature) =>
        if secret == "" || !IsValidSignature(body, signature, secret, normalize, crypto) then
          Step(Reply(400, Text("Webhook Error")), d)
        else match parse(body)
          case Err(_) => Step(Reply(400, Text("Invalid JSON")), d)
          case Ok(payload) =>
            if NeedsLookup(payload, host) && !lookupOk then Step(Reply(500, Crash), d)
            else match TargetOf(d, payload, host)
              case Ignore => Step(Ok, d)
              case Credit(i, tid) =>
                if !writeOk then Step(Reply(500, Crash), d)
                else Step(Ok, CreditBuyer(d, i, tid))
  }

  /** A correct base64 HMAC-SHA256 ends in `=`: the handler as written refuses it as
      a forged delivery, while with the corrected normalisation it gets past the
      signature check. */
  lemma PaddedBase64Delivery(b: string, headers: string -> Option<string>, body: string, secret: string,
                             crypto: Crypto, parse: string -> Result<Value>, d: Directory,
                             lookupOk: bool, writeOk: bool, host: Builtins)
    requires secret != "" && b != [] && !IsSpace(b[0]) && Padding !in b
    requires crypto.fromBase64(b + [Padding]) == crypto.hmac(secret, body)
    requires HeaderValue(headers, SignatureHeaders) == Some(b + [Padding])
    ensures Deliver("POST", headers, body, secret, NormalizeSignature, crypto, parse, d, lookupOk, writeOk, host)
              == Step(Reply(400, Text("Webhook Error")), d)
    ensures Deliver("POST", headers, body, secret, NormalizeSignatureFixed, crypto, parse, d, lookupOk, writeOk, host).reply
              != Reply(400, Text("Webhook Error"))
  {
    Base64SignatureOutcome(b, body, secret, crypto);
  }

  /** A redelivery of a credited payment with a primitive transaction id changes
      nothing: the id was recorded by the first delivery. */
  lemma {:induction false} RedeliveryWithIdIsIgnored(verb: string, headers: string -> Option<string>, body: string,
                                                     secret: string, normalize: string -> Option<string>, crypto: Crypto,
                                                     parse: string -> Result<Value>, d: Directory, writeOk2: bool,
                                                     host: Builtins)
    requires Authentic(verb, headers, body, secret, normalize, crypto, parse) && TargetOf(d, parse(body).value, host).Credit?
    requires var tid := TransactionIdOf(parse(body).value);
             Truthy(tid) && !tid.Arr? && !tid.Obj?
    ensures var s := Deliver(verb, headers, body, secret, normalize, crypto, parse, d, true, true, host);
            Deliver(verb, headers, body, secret, normalize, crypto, parse, s.dir, true, writeOk2, host) == Step(Ok, s.dir)
  {
    var s := Deliver(verb, headers, body, secret, normalize, crypto, parse, d, true, true, host);
    var payload := parse(body).value;
    var t := TargetOf(d, payload, host);
    var tid := TransactionIdOf(payload);
    var email := EmailOf(payload).value;
    SameAccountsSameLookups(d, s.dir, "", email);
    var recorded := RecordedTransactions(d[t.index]) + [tid];
    assert RecordedTransactions(s.dir[t.index]) == recorded;
    IncludesPrimitive(recorded, tid);
    assert recorded[|recorded| - 1] == tid;
    assert TargetOf(s.dir, payload, host) == Ignore;
  }

  /** A delivery without a transaction id is credited every time it arrives. */
  lemma {:induction false} RedeliveryWithoutIdCreditsAgain(verb: string, headers: string -> Option<string>, body: string,
                                                           secret: string, normalize: string -> Option<string>,
                                                           crypto: Crypto, parse: string -> Result<Value>,
                                                           d: Directory, host: Builtins)
    requires Authentic(verb, headers, body, secret, normalize, crypto, parse) && TargetOf(d, parse(body).value, host).Credit?
    requires !Truthy(TransactionIdOf(parse(body).value))
    requires PaidBalance(d[TargetOf(d, parse(body).value, host).index]).Finite?
    ensures var s := Deliver(verb, headers, body, secret, normalize, crypto, parse, d, true, true, host);
            var s2 := Deliver(verb, headers, body, secret, normalize, crypto, parse, s.dir, true, true, host);
            var i := TargetOf(d, parse(body).value, host).index;
            PaidBalance(s2.dir[i]) == Add(Add(PaidBalance(d[i]), PaymentCredits), PaymentCredits)
  {
    var s := Deliver(verb, headers, body, secret, normalize, crypto, parse, d, true, true, host);
    var payload := parse(body).value;
    var t := TargetOf(d, payload, host);
    var email := EmailOf(payload).value;
    SameAccountsSameLookups(d, s.dir, "", email);
    assert RecordedTransactions(s.dir[t.index]) == RecordedTransactions(d[t.index]);
    assert TargetOf(s.dir, payload, host) == Credit(t.index, t.tid);
  }
}

=== FILE: prompts.dfy ===
/**
 The text the handlers send to the image model: the garment description with
 its type hint, the try-on prompt (with the optional makeover sentence), the
 three Plus-mode view prompts, and the data-URI wrapping of inline images.
 */
module Prompts {
  import opened Js
  import opened Text
  import opened Types

  /** The Express server's `typeHints` table. */
  const TypeHints: map<string, string> := map[
    "long_dress" := "long dress (full length)",
    "short_dress" := "short dress (above the knees)",
    "long_skirt" := "long skirt (ankle length)",
    "short_skirt" := "short skirt (above the knees)",
    "shirt" := "top",
    "pants" := "pants",
    "jacket" := "jacket or coat",
    "other" := ""]

  const DefaultGarmentType := "upper_body"
  const DefaultDescription := "A cool outfit"
  const HintLead := ". The garment is a "

  /** `typeHints[garmentType] || ''` for a key outside the object's prototype. */
  function TypeHint(key: string): (hint: string)
    ensures key in TypeHints ==> hint == TypeHints[key]
    ensures key !in TypeHints ==> hint == ""
  {
    if key in TypeHints then TypeHints[key] else ""
  }

  /** `desc`: the client's description (or the default), followed by the type hint
      when the type has a non-empty one. */
  function GarmentDescription(description: Value, garmentType: Value, host: Builtins): (desc: string)
    ensures var base := ToText(FirstTruthy([description, Str(DefaultDescription)]), host);
            var hint := TypeHint(ToText(FirstTruthy([garmentType, Str(DefaultGarmentType)]), host));
            && (hint == "" ==> desc == base)
            && (hint != "" ==> desc == base + HintLead + hint)
  {
    var base := ToText(FirstTruthy([description, Str(DefaultDescription)]), host);
    var hint := TypeHint(ToText(FirstTruthy([garmentType, Str(DefaultGarmentType)]), host));
    if hint != "" then base + HintLead + hint else base
  }

  /** Every category the client offers except `other` adds its hint; `other` and a
      missing type leave the description as it is. */
  lemma DescriptionNamesCategory(description: string, g: GarmentType, host: Builtins)
    requires description != ""
    ensures g != Other ==>
              GarmentDescription(Str(description), Str(WireName(g)), host)
                == description + HintLead + TypeHints[WireName(g)]
    ensures g == Other ==> GarmentDescription(Str(description), Str(WireName(g)), host) == description
    ensures GarmentDescription(Str(description), Undefined, host) == description
    ensures GarmentDescription(Undefined, Undefined, host) == DefaultDescription
  {
    DefaultTypeHasNoHint();
    CategoryHint(g);
    assert FirstTruthy([Str(WireName(g)), Str(DefaultGarmentType)]) == Str(WireName(g));
    assert FirstTruthy([Str(description), Str(DefaultDescription)]) == Str(description);
  }

  /** The default type `upper_body` is not in the hint table. */
  lemma DefaultTypeHasNoHint()
    ensures TypeHint(DefaultGarmentType) == ""
  {
    assert DefaultGarmentType !in TypeHints;
  }

  /** Every category's wire name is in the hint table, with an empty hint only for `other`. */
  lemma CategoryHint(g: GarmentType)
    ensures WireName(g) in TypeHints
    ensures TypeHints[WireName(g)] == "" <==> g == Other
  {
  }

  /** The hint table covers exactly the categories the client offers, `other` aside:
      a key has a non-empty hint precisely when it is the wire name of one of them. */
  lemma HintsCoverCategories(key: string)
    ensures TypeHint(key) != "" <==> exists g :: g != Other && key == WireName(g)
  {
    if TypeHint(key) != "" {
      var g := if key == "long_dress" then LongDress
               else if key == "short_dress" then ShortDress
               else if key == "long_skirt" then LongSkirt
               else if key == "short_skirt" then ShortSkirt
               else if key == "shirt" then Shirt
               else if key == "pants" then Pants
               else Jacket;
      assert g != Other && key == WireName(g);
    }
  }

  /** A client description comes back unchanged exactly when the type sent with it is
      not one of the hinted categories. */
  lemma DescriptionKeptIffNoCategory(description: string, key: string, host: Builtins)
    requires description != ""
    ensures (GarmentDescription(Str(description), Str(key), host) == description)
            <==> !exists g :: g != Other && key == WireName(g)
  {
    HintsCoverCategories(key);
    HintsCoverCategories(DefaultGarmentType);
    var d := GarmentDescription(Str(description), Str(key), host);
    var hint := TypeHint(ToText(FirstTruthy([Str(key), Str(DefaultGarmentType)]), host));
    if hint != "" {
      assert |d| > |description|;
    }
  }

  const PromptLead := "A photo of a person wearing "
  const GarmentSentence := ". The person is wearing the garment shown in the second image. High quality, realistic."
  const IdentitySentence := " MANDATORY: Preserve the person's identity, facial features, and hairstyle from the first image EXACTLY. Do not alter the face, skin tone, or hair. Only modify the clothing area."
  const MakeoverSentence := " IMPORTANT: The user wants a complete makeover. REMOVE any existing pants, trousers, or bottom garments the person is wearing and show bare legs if the new garment is a dress or skirt. CHANGE the shoes to be fashionable and matching the new outfit."

  /** `promptText` of the Express server, with the makeover sentence appended when asked for. */
  function TryOnPrompt(desc: string, makeover: bool): (prompt: string)
    ensures PromptLead + desc + GarmentSentence <= prompt
    ensures makeover ==> prompt == TryOnPrompt(desc, false) + MakeoverSentence
  {
    var p := PromptLead + desc + GarmentSentence + IdentitySentence;
    if makeover then p + MakeoverSentence else p
  }

  const FrontPrompt := "Upper " + "body shot, framing the subject from the top of the head down to the hips. Ensure the full torso and the garment are visible. The frame should cut off at the hip line or upper thighs. High quality, realistic. Preserve the original person's face and identity with 100% accuracy, perform the swap only on the garment regions. The face, eyes, nose, lips, and hair are reference-locked. They must be a 1:1 match with the input photo."
  const SideLead := "Side profile view of a person wearing "
  const FullLead := "Full " + "body, head-to-toe shot of a person wearing "
  const LockedIdentity := " High quality, realistic. Preserve the original person's face and identity with 100% accuracy, perform the swap only on the garment regions. The face, eyes, nose, lips, and hair are reference-locked. They must be a 1:1 match with the input photo."
  const SideTail := ". The person is wearing the garment shown in the second image." + LockedIdentity
  const FullTail := ". The full body must be visible from head to feet, including legs and shoes, not cropped. The person is wearing the garment shown in the second image." + LockedIdentity

  /** The Plus-mode prompts in the order front, side, full. */
  function ViewPrompts(desc: string): (prompts: seq<string>)
    ensures |prompts| == 3
    ensures prompts[0] == FrontPrompt
    ensures SideLead + desc <= prompts[1]
    ensures FullLead + desc <= prompts[2]
  {
    [FrontPrompt, SideLead + desc + SideTail, FullLead + desc + FullTail]
  }

  /** The first character of a text is the first character of its leading part. */
  lemma FirstOfAppend(a: string, b: string)
    requires |a| > 0
    ensures (a + b)[0] == a[0]
  {
  }

  /** The three views are three different requests, whatever the description. */
  lemma ViewPromptsDistinct(desc: string)
    ensures forall i, j :: 0 <= i < j < 3 ==> ViewPrompts(desc)[i] != ViewPrompts(desc)[j]
  {
    var ps := ViewPrompts(desc);
    FirstOfAppend("Upper ", FrontPrompt[6..]);
    FirstOfAppend("Full ", FullLead[5..]);
    assert SideLead[0] == 'S';
    FirstOfAppend(SideLead, desc + SideTail);
    FirstOfAppend(FullLead, desc + FullTail);
    assert SideLead + desc + SideTail == SideLead + (desc + SideTail);
    assert FullLead + desc + FullTail == FullLead + (desc + FullTail);
  }

  const DataPrefix := "data:"
  const PngBase64Prefix := "data:image/png;base64,"

  /** The Express server's `personDataURI`/`clothDataURI`: raw base64 gets the PNG data-URI
      prefix, a data URI is kept. */
  function DataUri(s: string): (uri: string)
    ensures StartsWith(uri, DataPrefix)
    ensures StartsWith(s, DataPrefix) ==> uri == s
    ensures !StartsWith(s, DataPrefix) ==> uri == PngBase64Prefix + s
  {
    if StartsWith(s, DataPrefix) then s else PngBase64Prefix + s
  }

  /** Wrapping twice is wrapping once. */
  lemma DataUriIdempotent(s: string)
    ensures DataUri(DataUri(s)) == DataUri(s)
  {
  }

  /** The payload of a wrapped base64 text follows the prefix unchanged. */
  lemma DataUriRoundTrip(s: string)
    requires !StartsWith(s, DataPrefix)
    ensures DataUri(s)[|PngBase64Prefix|..] == s
  {
  }

  const HttpPrefix := "http"

  /** `ensureDataURI` of the Netlify function: non-strings, URLs and data URIs pass
      through, any other string is wrapped. */
  function EnsureDataUri(v: Value): (r: Value)
    ensures !v.Str? ==> r == v
    ensures v.Str? ==> r.Str? && (StartsWith(r.s, HttpPrefix) || StartsWith(r.s, DataPrefix))
    ensures v.Str? && (StartsWith(v.s, HttpPrefix) || StartsWith(v.s, DataPrefix)) ==> r == v
    ensures v.Str? && !StartsWith(v.s, HttpPrefix) && !StartsWith(v.s, DataPrefix) ==>
              r == Str(PngBase64Prefix + v.s)
  {
    if !v.Str? then v
    else if StartsWith(v.s, HttpPrefix) then v
    else if StartsWith(v.s, DataPrefix) then v
    else Str(PngBase64Prefix + v.s)
  }

  /** Because its output is a URL or a data URI, `ensureDataURI` is idempotent. */
  lemma {:induction false} EnsureDataUriIdempotent(v: Value)
    ensures EnsureDataUri(EnsureDataUri(v)) == EnsureDataUri(v)
  {
    var r := EnsureDataUri(v);
    assert !r.Str? || StartsWith(r.s, HttpPrefix) || StartsWith(r.s, DataPrefix);
  }
}

=== FILE: retry.dfy ===
/**
 `createPredictionWithRetry` of the Express server: up to three calls of the
 image-model API's `predictions.create`, retrying only after a rate-limit
 error, and waiting for the `retry_after` the error announces (2 s when it
 announces none). The API is an oracle `create` giving the outcome of the
 n-th call; the waits are returned instead of slept.
 */
module Retry {
  import opened Basics
  import opened Js
  import opened Text

  /** The `maxRetries` default; no caller passes another value. */
  const MaxAttempts: nat := 3

  /** The fields of a thrown API error that the retry decision reads. */
  datatype ApiError = ApiError(message: Option<string>, status: Value, retryAfter: Value)

  datatype Prediction = Prediction(id: string, status: string)

  /** What one call of `predictions.create` does. */
  datatype Attempt = Created(prediction: Prediction) | Threw(error: ApiError)

  /** `error.message?.includes("429") || error.status === 429` */
  predicate IsRateLimit(e: ApiError) {
    || (e.message.Some? && Contains(e.message.value, "429"))
    || (e.status.Num? && StrictEqual(e.status.n, Finite(429.0)))
  }

  /** The literal that opens the pattern `/"retry_after":\s*(\d+)/`. */
  const RetryAfterKey := "\"retry_after\":"

  predicate IsDigit(c: char) {
    '0' <= c <= '9'
  }

  predicate AllDigits(s: string) {
    forall k :: 0 <= k < |s| ==> IsDigit(s[k])
  }

  /** End of the longest run of blanks starting at `j` (what a greedy `\s*` takes). */
  function SkipSpaces(s: string, j: nat): (k: nat)
    requires j <= |s|
    ensures j <= k <= |s| && AllSpace(s[j..k])
    ensures k == |s| || !IsSpace(s[k])
    decreases |s| - j
  {
    if j < |s| && IsSpace(s[j]) then
      var k := SkipSpaces(s, j + 1);
      assert s[j..k] == [s[j]] + s[j + 1..k];
      k
    else j
  }

  /** End of the longest run of digits starting at `j` (what a greedy `\d+` takes). */
  function SkipDigits(s: string, j: nat): (k: nat)
    requires j <= |s|
    ensures j <= k <= |s| && AllDigits(s[j..k])
    ensures k == |s| || !IsDigit(s[k])
    decreases |s| - j
  {
    if j < |s| && IsDigit(s[j]) then
      var k := SkipDigits(s, j + 1);
      assert s[j..k] == [s[j]] + s[j + 1..k];
      k
    else j
  }

  /** `parseInt(ds, 10)` of a run of decimal digits. */
  function DecimalValue(ds: string): nat
    requires AllDigits(ds)
  {
    if |ds| == 0 then 0
    else DecimalValue(ds[..|ds| - 1]) * 10 + (ds[|ds| - 1] as int - '0' as int)
  }

  /** The captured number when the pattern matches at position `i`. */
  function MatchAt(s: string, i: nat): Option<nat> {
    if i + |RetryAfterKey| <= |s| && s[i..i + |RetryAfterKey|] == RetryAfterKey then
      var j := SkipSpaces(s, i + |RetryAfterKey|);
      var k := SkipDigits(s, j);
      if k > j then Some(DecimalValue(s[j..k])) else None
    else None
  }

  /** `s.match(/"retry_after":\s*(\d+)/)[1]`, parsed: the first match from `i` on. */
  function FirstMatch(s: string, i: nat): Option<nat>
    requires i <= |s|
    decreases |s| - i
  {
    if MatchAt(s, i).Some? then MatchAt(s, i)
    else if i == |s| then None
    else FirstMatch(s, i + 1)
  }

  /** The match found is the leftmost one, and none is found only when the pattern
      matches nowhere. */
  lemma {:induction false} FirstMatchIsLeftmost(s: string, i: nat)
    requires i <= |s|
    ensures FirstMatch(s, i).Some? ==>
              exists p :: i <= p <= |s| && MatchAt(s, p) == FirstMatch(s, i)
                          && forall q :: i <= q < p ==> MatchAt(s, q).None?
    ensures FirstMatch(s, i).None? ==> forall p :: i <= p <= |s| ==> MatchAt(s, p).None?
    decreases |s| - i
  {
    if MatchAt(s, i).None? && i < |s| {
      FirstMatchIsLeftmost(s, i + 1);
      if FirstMatch(s, i).Some? {
        var p :| i + 1 <= p <= |s| && MatchAt(s, p) == FirstMatch(s, i + 1)
                 && forall q :: i + 1 <= q < p ==> MatchAt(s, q).None?;
        assert forall q :: i <= q < p ==> MatchAt(s, q).None?;
      }
    }
  }

  /** The wait before the next attempt, in milliseconds: the `retry_after` seconds in
      the message, else the error's own `retry_after` field, else 2000. */
  function WaitTime(e: ApiError, host: Builtins): (ms: Number)
    ensures e.message.Some? && FirstMatch(e.message.value, 0).Some? ==>
              ms == Finite(FirstMatch(e.message.value, 0).value as real * 1000.0)
    ensures (e.message.None? || FirstMatch(e.message.value, 0).None?) && Truthy(e.retryAfter) ==>
              ms == Mul(ToNumber(e.retryAfter, host), Finite(1000.0))
    ensures (e.message.None? || FirstMatch(e.message.value, 0).None?) && !Truthy(e.retryAfter) ==>
              ms == Finite(2000.0)
  {
    if e.message.Some? && FirstMatch(e.message.value, 0).Some? then
      Finite(FirstMatch(e.message.value, 0).value as real * 1000.0)
    else if Truthy(e.retryAfter) then Mul(ToNumber(e.retryAfter, host), Finite(1000.0))
    else Finite(2000.0)
  }

  /** The wait follows the pattern's leftmost occurrence in the message; the error's
      own `retry_after` field, or the 2-second default, is used only when the pattern
      occurs nowhere in it. */
  lemma WaitTimeFollowsPattern(e: ApiError, host: Builtins)
    ensures e.message.Some? ==>
              forall p :: 0 <= p <= |e.message.value| && MatchAt(e.message.value, p).Some?
                          && (forall q :: 0 <= q < p ==> MatchAt(e.message.value, q).None?) ==>
                            WaitTime(e, host) == Finite(MatchAt(e.message.value, p).value as real * 1000.0)
    ensures (e.message.None? || forall p :: 0 <= p <= |e.message.value| ==> MatchAt(e.message.value, p).None?) ==>
              WaitTime(e, host) == if Truthy(e.retryAfter) then Mul(ToNumber(e.retryAfter, host), Finite(1000.0))
                                   else Finite(2000.0)
  {
    if e.message.Some? {
      var m := e.message.value;
      FirstMatchIsLeftmost(m, 0);
      forall p | 0 <= p <= |m| && MatchAt(m, p).Some? && (forall q :: 0 <= q < p ==> MatchAt(m, q).None?)
        ensures FirstMatch(m, 0) == MatchAt(m, p)
      {
        var r :| 0 <= r <= |m| && MatchAt(m, r) == FirstMatch(m, 0)
                 && forall q :: 0 <= q < r ==> MatchAt(m, q).None?;
        assert !(r < p) && !(p < r);
      }
    }
  }

  /** How the helper ends: with a prediction, by rethrowing, or (only when no attempt
      is allowed at all) by falling off the loop and returning `undefined`. */
  datatype Outcome = Done(prediction: Prediction) | Failed(error: ApiError) | NoValue

  /** The loop's trace: its outcome, how many times `predictions.create` was called,
      and the rate-limit errors after which it slept before calling again. */
  datatype Trace = Trace(outcome: Outcome, calls: nat, retried: seq<ApiError>)

  /** Loop iterations `i`, `i + 1`, ... of `createPredictionWithRetry`. */
  function RunFrom(create: nat -> Attempt, maxRetries: nat, i: nat): (t: Trace)
    requires i <= maxRetries
    ensures i == maxRetries ==> t == Trace(NoValue, i, [])
    ensures i < maxRetries ==> i < t.calls <= maxRetries && |t.retried| == t.calls - 1 - i
    ensures i < maxRetries ==> !t.outcome.NoValue?
    ensures forall k :: i <= k < t.calls - 1 ==>
              create(k).Threw? && IsRateLimit(create(k).error) && t.retried[k - i] == create(k).error
    ensures t.outcome.Done? ==> create(t.calls - 1) == Created(t.outcome.prediction)
    ensures t.outcome.Failed? ==>
              && create(t.calls - 1) == Threw(t.outcome.error)
              && (!IsRateLimit(t.outcome.error) || t.calls == maxRetries)
    decreases maxRetries - i
  {
    if i == maxRetries then Trace(NoValue, i, [])
    else match create(i)
      case Created(p) => Trace(Done(p), i + 1, [])
      case Threw(e) =>
        if IsRateLimit(e) && i < maxRetries - 1 then
          var rest := RunFrom(create, maxRetries, i + 1);
          var retried := [e] + rest.retried;
          Trace(rest.outcome, rest.calls, retried)
        else Trace(Failed(e), i + 1, [])
  }

  /** What the helper returns and how often it called the API and slept for how long. */
  datatype Run = Run(outcome: Outcome, calls: nat, waits: seq<Number>)

  /** `createPredictionWithRetry(replicate, options)` with the default of 3 attempts. */
  function CreateWithRetry(create: nat -> Attempt, host: Builtins): (r: Run)
    ensures 1 <= r.calls <= MaxAttempts && |r.waits| == r.calls - 1
    ensures !r.outcome.NoValue?
    ensures forall k :: 0 <= k < r.calls - 1 ==>
              && create(k).Threw? && IsRateLimit(create(k).error)
              && r.waits[k] == WaitTime(create(k).error, host)
    ensures r.outcome.Done? ==> create(r.calls - 1) == Created(r.outcome.prediction)
    ensures r.outcome.Failed? ==>
              create(r.calls - 1) == Threw(r.outcome.error) && (!IsRateLimit(r.outcome.error) || r.calls == MaxAttempts)
  {
    var t := RunFrom(create, MaxAttempts, 0);
    var waits := seq(|t.retried|, k requires 0 <= k < |t.retried| => WaitTime(t.retried[k], host));
    Run(t.outcome, t.calls, waits)
  }

  /** A first call that succeeds is the only call. */
  lemma FirstSuccessIsFinal(create: nat -> Attempt, host: Builtins)
    requires create(0).Created?
    ensures CreateWithRetry(create, host) == Run(Done(create(0).prediction), 1, [])
  {
  }

  /** An error that is not a rate limit is rethrown after one call, without waiting. */
  lemma OtherErrorsAreNotRetried(create: nat -> Attempt, host: Builtins)
    requires create(0).Threw? && !IsRateLimit(create(0).error)
    ensures CreateWithRetry(create, host) == Run(Failed(create(0).error), 1, [])
  {
  }

  /** Two rate limits and then a success give exactly one prediction, after two waits. */
  lemma SuccessAfterTwoRateLimits(create: nat -> Attempt, host: Builtins)
    requires create(0).Threw? && IsRateLimit(create(0).error)
    requires create(1).Threw? && IsRateLimit(create(1).error)
    requires create(2).Created?
    ensures CreateWithRetry(create, host).outcome == Done(create(2).prediction)
    ensures CreateWithRetry(create, host).calls == 3
    ensures |CreateWithRetry(create, host).waits| == 2
  {
  }

  /** A third rate limit is not retried: it is rethrown. */
  lemma ThirdRateLimitIsRethrown(create: nat -> Attempt, host: Builtins)
    requires forall k :: 0 <= k < 3 ==> create(k).Threw? && IsRateLimit(create(k).error)
    ensures CreateWithRetry(create, host).outcome == Failed(create(2).error)
    ensures CreateWithRetry(create, host).calls == 3
  {
  }

  /** The pattern matches the example message at its second character, capturing 7. */
  lemma ExampleMatch(m: string)
    requires m == "{\"retry_after\": 7}"
    ensures MatchAt(m, 0).None? && MatchAt(m, 1) == Some(7)
  {
    assert m[0] == '{';
    assert m[1..1 + |RetryAfterKey|] == RetryAfterKey;
    assert SkipSpaces(m, 15) == 16;
    assert SkipDigits(m, 16) == 17;
    assert m[16..17] == "7";
    assert DecimalValue("7") == 7 by {
      assert "7"[..0] == "";
    }
  }

  /** The wait announced in a Replicate 429 message is honoured. */
  lemma RetryAfterFromMessage(host: Builtins)
    ensures WaitTime(ApiError(Some("{\"retry_after\": 7}"), Undefined, Undefined), host) == Finite(7000.0)
  {
    var m := "{\"retry_after\": 7}";
    ExampleMatch(m);
    assert FirstMatch(m, 1) == Some(7);
  }
}

=== FILE: signature.dfy ===
/**
 Verification of the Payhip webhook signature: the header value is
 normalised, decoded from hex (exactly 64 hex digits) or else from base64,
 and compared with the HMAC-SHA256 of the raw body under the shared secret.
 The digest and the base64 decoder are the `Crypto` oracle.
 */
module Signature {
  import opened Basics
  import opened Text

  type Byte = b: int | 0 <= b < 256

  /** `createHmac('sha256', secret).update(body).digest()` and `Buffer.from(s, 'base64')`. */
  datatype Crypto = Crypto(hmac: (string, string) -> seq<Byte>, fromBase64: string -> seq<Byte>)

  const Padding := '='

  /** The text after the last `=`, or the whole text when it has none. */
  function AfterLastPadding(t: string): (r: string)
    ensures Padding !in r
    ensures Padding !in t ==> r == t
  {
    if Padding in t then
      var parts := Split(t, Padding);
      parts[|parts| - 1]
    else t
  }

  /** `normalizeSignature` as written: the trimmed header, or the text after its last
      `=` when it has one. A falsy result is `None`. */
  function NormalizeSignature(signature: string): (r: Option<string>)
    ensures signature == "" ==> r.None?
    ensures r.Some? ==> Padding !in r.value
    ensures signature != "" && Padding !in Trim(signature) ==> r == Some(Trim(signature))
  {
    if signature == "" then None else Some(AfterLastPadding(Trim(signature)))
  }

  /** The part after a separator-free word and a `=`. */
  lemma AfterWordAndPadding(a: string, rest: string)
    requires Padding !in a && Padding !in rest
    ensures AfterLastPadding(a + [Padding] + rest) == rest
  {
    var t := a + [Padding] + rest;
    assert t[|a|] == Padding;
    SplitAfterWord(a, rest, Padding);
    SplitOfFreePrefix(rest, "", Padding);
    assert rest + "" == rest;
    assert Split(rest, Padding) == [rest];
  }

  /** As written, a signature that ends in base64 padding normalises to the empty text,
      which `signatureToBuffer` turns into `null`: such a signature is never accepted. */
  lemma PaddedSignatureIsLost(b: string, crypto: Crypto)
    requires b != [] && !IsSpace(b[0]) && Padding !in b
    ensures NormalizeSignature(b + [Padding]) == Some("")
    ensures SignatureBytes(b + [Padding], NormalizeSignature, crypto).None?
  {
    PaddedNormalizesToNothing(b);
  }

  /** The normalisation step of the above: nothing follows the final `=`. */
  lemma PaddedNormalizesToNothing(b: string)
    requires b != [] && !IsSpace(b[0]) && Padding !in b
    ensures NormalizeSignature(b + [Padding]) == Some("")
  {
    var s := b + [Padding];
    assert s[0] == b[0] && s[|s| - 1] == Padding;
    TrimOfTight(s);
    EndsInPadding(b);
  }

  /** Nothing follows a `=` that ends the text. */
  lemma EndsInPadding(b: string)
    requires Padding !in b
    ensures AfterLastPadding(b + [Padding]) == ""
  {
    assert b + [Padding] == b + [Padding] + "";
    AfterWordAndPadding(b, "");
  }

  /** The number of `=` characters that end `s`. */
  function PaddingLength(s: string): (n: nat)
    ensures n <= |s|
    ensures forall k :: |s| - n <= k < |s| ==> s[k] == Padding
    ensures n < |s| ==> s[|s| - n - 1] != Padding
  {
    if |s| > 0 && s[|s| - 1] == Padding then PaddingLength(s[..|s| - 1]) + 1 else 0
  }

  /** The text after the last `=` that is not part of the final padding, with the
      padding kept. */
  function AfterLastPaddingFixed(t: string): string {
    var n := PaddingLength(t);
    AfterLastPadding(t[..|t| - n]) + t[|t| - n..]
  }

  /** The normalisation the handler needs: the padding at the end of a base64 signature
      is kept, and only a `name=` prefix before the signature itself is dropped. */
  function NormalizeSignatureFixed(signature: string): (r: Option<string>)
    ensures signature == "" ==> r.None?
    ensures signature != "" ==> r == Some(AfterLastPaddingFixed(Trim(signature)))
  {
    if signature == "" then None else Some(AfterLastPaddingFixed(Trim(signature)))
  }

  /** On a text that does not end in padding, the fixed rule is the written one. */
  lemma FixedAgreesOnUnpadded(t: string)
    requires t == [] || t[|t| - 1] != Padding
    ensures AfterLastPaddingFixed(t) == AfterLastPadding(t)
  {
    assert PaddingLength(t) == 0;
    assert t[..|t|] == t && t[|t|..] == "";
    assert AfterLastPadding(t) + "" == AfterLastPadding(t);
  }

  /** On a signature that does not end in padding, the fixed normalisation is the
      written one. */
  lemma FixedAgreesWithoutPadding(signature: string)
    requires Trim(signature) == [] || Trim(signature)[|Trim(signature)| - 1] != Padding
    ensures NormalizeSignatureFixed(signature) == NormalizeSignature(signature)
  {
    if signature != "" {
      FixedAgreesOnUnpadded(Trim(signature));
    }
  }

  /** The fixed normalisation keeps a padded base64 signature whole, with or without a
      `name=` prefix. */
  lemma FixedKeepsPaddedBase64(prefix: string, b: string, pad: string)
    requires b != [] && !IsSpace(b[0]) && Padding !in b
    requires prefix == [] || (!IsSpace(prefix[0]) && Padding !in prefix)
    requires |pad| > 0 && forall k :: 0 <= k < |pad| ==> pad[k] == Padding
    ensures prefix == [] ==> NormalizeSignatureFixed(b + pad) == Some(b + pad)
    ensures prefix != [] ==> NormalizeSignatureFixed(prefix + [Padding] + b + pad) == Some(b + pad)
  {
    if prefix == [] {
      var s := b + pad;
      TrimOfTight(s);
      PaddingOf(b, pad);
      assert s[..|s| - |pad|] == b && s[|s| - |pad|..] == pad;
    } else {
      var s := prefix + [Padding] + b + pad;
      assert s[0] == prefix[0];
      TrimOfTight(s);
      var core := prefix + [Padding] + b;
      PaddingOf(core, pad);
      assert s[..|s| - |pad|] == core && s[|s| - |pad|..] == pad;
      AfterWordAndPadding(prefix, b);
    }
  }

  /** The padding counted at the end of `a + pad` is `pad` when `a` ends otherwise. */
  lemma {:induction false} PaddingOf(a: string, pad: string)
    requires a != [] && a[|a| - 1] != Padding
    requires forall k :: 0 <= k < |pad| ==> pad[k] == Padding
    ensures PaddingLength(a + pad) == |pad|
    decreases |pad|
  {
    if |pad| > 0 {
      assert (a + pad)[..|a + pad| - 1] == a + pad[..|pad| - 1];
      PaddingOf(a, pad[..|pad| - 1]);
    } else {
      assert a + pad == a;
    }
  }

  predicate IsHexDigit(c: char) {
    ('0' <= c <= '9') || ('a' <= c <= 'f') || ('A' <= c <= 'F')
  }

  /** `/^[0-9a-f]{64}$/i` */
  predicate IsHex64(s: string) {
    |s| == 64 && forall k :: 0 <= k < |s| ==> IsHexDigit(s[k])
  }

  function HexValue(c: char): (v: nat)
    requires IsHexDigit(c)
    ensures v < 16
  {
    if '0' <= c <= '9' then c as int - '0' as int
    else if 'a' <= c <= 'f' then c as int - 'a' as int + 10
    else c as int - 'A' as int + 10
  }

  /** `Buffer.from(s, 'hex')` for an even number of hex digits. */
  function HexDecode(s: string): (bytes: seq<Byte>)
    requires |s| % 2 == 0 && forall k :: 0 <= k < |s| ==> IsHexDigit(s[k])
    ensures |bytes| == |s| / 2
    ensures forall k :: 0 <= k < |bytes| ==> bytes[k] == 16 * HexValue(s[2 * k]) + HexValue(s[2 * k + 1])
  {
    seq(|s| / 2, k requires 0 <= k < |s| / 2 => 16 * HexValue(s[2 * k]) + HexValue(s[2 * k + 1]))
  }

  function HexDigit(v: nat): (c: char)
    requires v < 16
    ensures IsHexDigit(c) && HexValue(c) == v
  {
    if v < 10 then ('0' as int + v) as char else ('a' as int + v - 10) as char
  }

  /** `digest.toString('hex')`: two lower-case digits per byte. */
  function HexEncode(bytes: seq<Byte>): (s: string)
    ensures |s| == 2 * |bytes|
    ensures forall k :: 0 <= k < |s| ==> IsHexDigit(s[k])
    ensures forall k :: 0 <= k < |bytes| ==> s[2 * k] == HexDigit(bytes[k] / 16) && s[2 * k + 1] == HexDigit(bytes[k] % 16)
  {
    seq(2 * |bytes|, i requires 0 <= i < 2 * |bytes| =>
      if i % 2 == 0 then HexDigit(bytes[i / 2] / 16) else HexDigit(bytes[i / 2] % 16))
  }

  /** The two digits of a byte decode to the byte. */
  lemma DigitPair(b: Byte)
    ensures 16 * HexValue(HexDigit(b / 16)) + HexValue(HexDigit(b % 16)) == b
  {
  }

  /** Decoding the hex form of a digest gives the digest back. */
  lemma HexRoundTrip(bytes: seq<Byte>)
    ensures HexDecode(HexEncode(bytes)) == bytes
  {
    var s := HexEncode(bytes);
    var d := HexDecode(s);
    assert |d| == |bytes|;
    forall k | 0 <= k < |bytes| ensures d[k] == bytes[k] {
      DigitPair(bytes[k]);
    }
  }

  /** The digits `toString('hex')` writes. */
  predicate IsLowerHexDigit(c: char) {
    IsHexDigit(c) && !('A' <= c <= 'F')
  }

  /** The two lower-case digits of a decoded byte are written back as they were. */
  lemma LowerPair(c: char, d: char)
    requires IsLowerHexDigit(c) && IsLowerHexDigit(d)
    ensures var b := 16 * HexValue(c) + HexValue(d);
            HexDigit(b / 16) == c && HexDigit(b % 16) == d
  {
    var b := 16 * HexValue(c) + HexValue(d);
    assert b / 16 == HexValue(c) && b % 16 == HexValue(d);
  }

  /** Every index of an even-length text is the first or the second digit of a pair
      that lies inside the text. */
  lemma PairOf(i: nat, n: nat) returns (k: nat)
    requires n % 2 == 0 && i < n
    ensures 2 * k + 1 < n
    ensures i == 2 * k || i == 2 * k + 1
  {
    k := i / 2;
  }

  /** The two digits of one re-encoded byte are the two it was decoded from. */
  lemma HexEncodeOfDecodeAt(s: string, k: nat)
    requires |s| % 2 == 0 && forall j :: 0 <= j < |s| ==> IsHexDigit(s[j]) && !('A' <= s[j] <= 'F')
    requires 2 * k + 1 < |s|
    ensures var t := HexEncode(HexDecode(s));
            |t| == |s| && t[2 * k] == s[2 * k] && t[2 * k + 1] == s[2 * k + 1]
  {
    var bytes := HexDecode(s);
    var c, d := s[2 * k], s[2 * k + 1];
    assert bytes[k] == 16 * HexValue(c) + HexValue(d);
    LowerPair(c, d);
  }

  /** Hex text in the lower-case form `toString('hex')` writes survives decoding and
      encoding again unchanged, so the two are inverse on that form. */
  lemma HexEncodeOfDecode(s: string)
    requires |s| % 2 == 0 && forall k :: 0 <= k < |s| ==> IsHexDigit(s[k]) && !('A' <= s[k] <= 'F')
    ensures HexEncode(HexDecode(s)) == s
  {
    var t := HexEncode(HexDecode(s));
    assert |t| == |s|;
    forall i | 0 <= i < |s| ensures t[i] == s[i] {
      var k := PairOf(i, |s|);
      HexEncodeOfDecodeAt(s, k);
    }
  }

  /** `signatureToBuffer`, for a given normalisation: 64 hex digits are decoded as hex,
      anything else as base64; an empty normalised signature gives `null`. */
  function SignatureBytes(signature: string, normalize: string -> Option<string>, crypto: Crypto): (r: Option<seq<Byte>>)
    ensures r.Some? ==> signature != "" && normalize(signature).Some? && normalize(signature).value != ""
    ensures r.Some? && IsHex64(normalize(signature).value) ==> r.value == HexDecode(normalize(signature).value)
    ensures r.Some? && !IsHex64(normalize(signature).value) ==> r.value == crypto.fromBase64(normalize(signature).value)
    // Only an empty signature, or one that normalises to nothing, gives `null`.
    ensures signature != "" && normalize(signature).Some? && normalize(signature).value != "" ==> r.Some?
  {
    if signature == "" then None
    else match normalize(signature)
      case None => None
      case Some(n) =>
        if n == "" then None
        else if IsHex64(n) then Some(HexDecode(n))
        else Some(crypto.fromBase64(n))
  }

  /** `isValidSignature`: the decoded signature is exactly the digest of the body. */
  function IsValidSignature(body: string, signature: string, secret: string,
                            normalize: string -> Option<string>, crypto: Crypto): (valid: bool)
    ensures valid <==> signature != "" && secret != ""
                       && SignatureBytes(signature, normalize, crypto) == Some(crypto.hmac(secret, body))
  {
    if signature == "" || secret == "" then false
    else
      var computed := crypto.hmac(secret, body);
      match SignatureBytes(signature, normalize, crypto)
      case None => false
      case Some(provided) =>
        if |computed| != |provided| then false else computed == provided
  }

  /** Hex digits are neither padding nor blanks. */
  lemma HexIsPlain(hex: string)
    requires IsHex64(hex)
    ensures Padding !in hex && !IsSpace(hex[63])
  {
    forall k | 0 <= k < |hex| ensures hex[k] != Padding {
      assert IsHexDigit(hex[k]);
    }
    assert IsHexDigit(hex[63]);
  }

  /** A `name=`-prefixed run of 64 hex digits normalises to the digits, both ways. */
  lemma HexSignatureNormalizes(prefix: string, hex: string)
    requires prefix != [] && !IsSpace(prefix[0]) && Padding !in prefix
    requires IsHex64(hex)
    ensures NormalizeSignature(prefix + [Padding] + hex) == Some(hex)
    ensures NormalizeSignatureFixed(prefix + [Padding] + hex) == Some(hex)
  {
    HexIsPlain(hex);
    var s := prefix + [Padding] + hex;
    assert s[0] == prefix[0] && s[|s| - 1] == hex[63];
    TrimOfTight(s);
    AfterWordAndPadding(prefix, hex);
    FixedAgreesOnUnpadded(s);
  }

  /** A `name=`-prefixed hex digest of the body is accepted by both normalisations. */
  lemma HexSignatureAccepted(prefix: string, body: string, secret: string, crypto: Crypto)
    requires secret != "" && |crypto.hmac(secret, body)| == 32
    requires prefix != [] && !IsSpace(prefix[0]) && Padding !in prefix
    ensures var signature := prefix + [Padding] + HexEncode(crypto.hmac(secret, body));
            && IsValidSignature(body, signature, secret, NormalizeSignature, crypto)
            && IsValidSignature(body, signature, secret, NormalizeSignatureFixed, crypto)
  {
    var digest := crypto.hmac(secret, body);
    var hex := HexEncode(digest);
    var s := prefix + [Padding] + hex;
    HexSignatureNormalizes(prefix, hex);
    HexRoundTrip(digest);
    assert SignatureBytes(s, NormalizeSignature, crypto) == Some(digest);
    assert SignatureBytes(s, NormalizeSignatureFixed, crypto) == Some(digest);
  }

  /** A padded base64 digest of the body is rejected as written and accepted with the
      fixed normalisation. */
  lemma Base64SignatureOutcome(b: string, body: string, secret: string, crypto: Crypto)
    requires secret != "" && b != [] && !IsSpace(b[0]) && Padding !in b
    requires crypto.fromBase64(b + [Padding]) == crypto.hmac(secret, body)
    ensures !IsValidSignature(body, b + [Padding], secret, NormalizeSignature, crypto)
    ensures IsValidSignature(body, b + [Padding], secret, NormalizeSignatureFixed, crypto)
  {
    PaddedSignatureIsLost(b, crypto);
    FixedKeepsPaddedBase64([], b, [Padding]);
    var s := b + [Padding];
    assert !IsHex64(s) by {
      assert !IsHexDigit(s[|s| - 1]);
    }
  }
}

=== FILE: text.dfy ===
/**
 The string operations of the JavaScript standard library that the handlers
 use, over `seq<char>`: `startsWith`, `includes`, `trim`, `split`/`join` on a
 single character, a global literal `replace(.., '')`, and `toLowerCase`
 restricted to ASCII letters.
 */
module Text {

  /** `s.startsWith(prefix)` */
  predicate StartsWith(s: string, prefix: string) {
    prefix <= s
  }

  /** `s.includes(sub)` */
  predicate Contains(s: string, sub: string) {
    exists i | 0 <= i <= |s| - |sub| :: sub <= s[i..]
  }

  /** The characters JavaScript's `trim` removes and the regular-expression class `\s`
      matches: the ASCII blanks, the line terminators and the Unicode space separators. */
  predicate IsSpace(c: char) {
    || c == ' ' || c == '\t' || c == '\n' || c == '\U{000B}' || c == '\U{000C}' || c == '\r'
    || c == '\U{00A0}' || c == '\U{1680}' || ('\U{2000}' <= c <= '\U{200A}')
    || c == '\U{2028}' || c == '\U{2029}' || c == '\U{202F}' || c == '\U{205F}'
    || c == '\U{3000}' || c == '\U{FEFF}'
  }

  predicate AllSpace(s: string) {
    forall i :: 0 <= i < |s| ==> IsSpace(s[i])
  }

  function TrimStart(s: string): (t: string)
    ensures |t| <= |s| && t == s[|s| - |t|..]
    ensures AllSpace(s[..|s| - |t|])
    ensures t == [] || !IsSpace(t[0])
  {
    if |s| > 0 && IsSpace(s[0]) then
      var t := TrimStart(s[1..]);
      var n := |s| - |t|;
      assert s[1..][n - 1..] == s[n..];
      assert AllSpace(s[..n]) by {
        forall i | 0 <= i < n ensures IsSpace(s[..n][i]) {
          if i > 0 {
            assert s[..n][i] == s[1..][..n - 1][i - 1];
          }
        }
      }
      t
    else s
  }

  function TrimEnd(s: string): (t: string)
    ensures |t| <= |s| && t == s[..|t|]
    ensures AllSpace(s[|t|..])
    ensures t == [] || !IsSpace(t[|t| - 1])
  {
    if |s| > 0 && IsSpace(s[|s| - 1]) then
      var t := TrimEnd(s[..|s| - 1]);
      assert s[..|s| - 1][..|t|] == s[..|t|];
      assert AllSpace(s[|t|..]) by {
        forall i | 0 <= i < |s| - |t| ensures IsSpace(s[|t|..][i]) {
          if i < |s| - 1 - |t| {
            assert s[|t|..][i] == s[..|s| - 1][|t|..][i];
          }
        }
      }
      t
    else s
  }

  /** `s.trim()`: the slice of `s` left after removing blanks at both ends. */
  function Trim(s: string): (t: string)
    ensures exists i, j :: 0 <= i <= j <= |s| && t == s[i..j] && AllSpace(s[..i]) && AllSpace(s[j..])
    ensures t == [] || (!IsSpace(t[0]) && !IsSpace(t[|t| - 1]))
  {
    var a := TrimStart(s);
    var t := TrimEnd(a);
    var i := |s| - |a|;
    assert t == s[i..i + |t|];
    assert s[i + |t|..] == a[|t|..];
    t
  }

  lemma {:induction false} TrimStartSkipsSpaces(w: string, s: string)
    requires AllSpace(w)
    ensures TrimStart(w + s) == TrimStart(s)
    decreases |w|
  {
    if |w| > 0 {
      assert (w + s)[1..] == w[1..] + s;
      TrimStartSkipsSpaces(w[1..], s);
    } else {
      assert w + s == s;
    }
  }

  lemma {:induction false} TrimEndSkipsSpaces(s: string, w: string)
    requires AllSpace(w)
    ensures TrimEnd(s + w) == TrimEnd(s)
    decreases |w|
  {
    if |w| > 0 {
      assert (s + w)[..|s + w| - 1] == s + w[..|w| - 1];
      TrimEndSkipsSpaces(s, w[..|w| - 1]);
    } else {
      assert s + w == s;
    }
  }

  lemma {:induction false} TrimStartOfAppend(s: string, w: string)
    requires !AllSpace(s)
    ensures TrimStart(s + w) == TrimStart(s) + w
    decreases |s|
  {
    if IsSpace(s[0]) {
      assert (s + w)[1..] == s[1..] + w;
      assert !AllSpace(s[1..]) by {
        var k :| 0 <= k < |s| && !IsSpace(s[k]);
        assert s[1..][k - 1] == s[k];
      }
      TrimStartOfAppend(s[1..], w);
    }
  }

  lemma AllSpaceTrimsToEmpty(s: string)
    requires AllSpace(s)
    ensures TrimStart(s) == []
  {
  }

  /** Blanks around a text do not change what `trim` returns. */
  lemma TrimIgnoresPadding(w1: string, s: string, w2: string)
    requires AllSpace(w1) && AllSpace(w2)
    ensures Trim(w1 + s + w2) == Trim(s)
  {
    assert w1 + s + w2 == w1 + (s + w2);
    TrimStartSkipsSpaces(w1, s + w2);
    if AllSpace(s) {
      assert AllSpace(s + w2);
      AllSpaceTrimsToEmpty(s + w2);
      AllSpaceTrimsToEmpty(s);
    } else {
      TrimStartOfAppend(s, w2);
      TrimEndSkipsSpaces(TrimStart(s), w2);
    }
  }

  /** A text with no blank at either end is its own trim. */
  lemma TrimOfTight(s: string)
    requires s == [] || (!IsSpace(s[0]) && !IsSpace(s[|s| - 1]))
    ensures Trim(s) == s
  {
    assert TrimStart(s) == s;
  }

  /** `s.split(sep)` for a one-character separator. */
  function Split(s: string, sep: char): (parts: seq<string>)
    ensures |parts| >= 1
    ensures forall k :: 0 <= k < |parts| ==> sep !in parts[k]
    decreases |s|
  {
    if |s| == 0 then [""]
    else
      var rest := Split(s[1..], sep);
      if s[0] == sep then [""] + rest
      else [[s[0]] + rest[0]] + rest[1..]
  }

  /** `parts.join(sep)` for a one-character separator. */
  function Join(parts: seq<string>, sep: char): string
    decreases |parts|
  {
    if |parts| == 0 then ""
    else if |parts| == 1 then parts[0]
    else parts[0] + [sep] + Join(parts[1..], sep)
  }

  /** Splitting a text and joining the parts again gives the text back. */
  lemma {:induction false} JoinSplit(s: string, sep: char)
    ensures Join(Split(s, sep), sep) == s
    decreases |s|
  {
    if |s| > 0 {
      JoinSplit(s[1..], sep);
      var rest := Split(s[1..], sep);
      if s[0] == sep {
        assert Split(s, sep) == [""] + rest;
        assert ([""] + rest)[1..] == rest;
        assert s == [sep] + s[1..];
      } else {
        var parts := [[s[0]] + rest[0]] + rest[1..];
        if |rest| == 1 {
          assert s == [s[0]] + s[1..];
        } else {
          assert parts[1..] == rest[1..];
          assert Join(rest, sep) == rest[0] + [sep] + Join(rest[1..], sep);
          assert s == [s[0]] + s[1..];
        }
      }
    }
  }

  /** A part free of the separator runs up to the next separator or the end. */
  lemma {:induction false} SplitOfFreePrefix(a: string, t: string, sep: char)
    requires sep !in a
    ensures Split(a + t, sep) == [a + Split(t, sep)[0]] + Split(t, sep)[1..]
    decreases |a|
  {
    if |a| > 0 {
      assert (a + t)[1..] == a[1..] + t;
      assert sep !in a[1..] by {
        forall k | 0 <= k < |a[1..]| ensures a[1..][k] != sep {
          assert a[1..][k] == a[k + 1];
        }
      }
      SplitOfFreePrefix(a[1..], t, sep);
      var p := Split(t, sep);
      var r := Split(a[1..] + t, sep);
      assert r[0] == a[1..] + p[0] && r[1..] == p[1..];
      assert (a + t)[0] == a[0] && a[0] != sep;
      assert Split(a + t, sep) == [[a[0]] + r[0]] + r[1..];
      assert [a[0]] + (a[1..] + p[0]) == a + p[0];
    } else {
      assert a + t == t;
      var p := Split(t, sep);
      assert p == [p[0]] + p[1..];
      assert a + p[0] == p[0];
    }
  }

  /** Joining parts that do not contain the separator and splitting the result gives
      the parts back (an empty list of parts joins to "", which splits to [""]). */
  lemma {:induction false} SplitJoin(parts: seq<string>, sep: char)
    requires |parts| >= 1
    requires forall k :: 0 <= k < |parts| ==> sep !in parts[k]
    ensures Split(Join(parts, sep), sep) == parts
    decreases |parts|
  {
    if |parts| == 1 {
      SplitOfFreePrefix(parts[0], "", sep);
      assert parts[0] + "" == parts[0];
    } else {
      var tail := parts[1..];
      SplitJoin(tail, sep);
      var j := Join(tail, sep);
      assert parts[0] + [sep] + j == parts[0] + ([sep] + j);
      SplitOfFreePrefix(parts[0], [sep] + j, sep);
      assert ([sep] + j)[1..] == j;
      assert Split([sep] + j, sep) == [""] + Split(j, sep);
      assert ([""] + Split(j, sep))[0] == "";
      assert ([""] + Split(j, sep))[1..] == Split(j, sep);
      assert parts[0] + "" == parts[0];
      assert parts == [parts[0]] + tail;
    }
  }

  /** Every part but the last is followed by a separator in the joined text. */
  lemma JoinHasSeparator(parts: seq<string>, sep: char)
    requires |parts| >= 2
    ensures sep in Join(parts, sep)
  {
    var j := Join(parts, sep);
    assert j == parts[0] + [sep] + Join(parts[1..], sep);
    assert j[|parts[0]|] == sep;
  }

  /** `s.replace(/pat/g, '')` for a literal pattern: occurrences are removed left to
      right, the scan resuming after each removed occurrence. */
  function RemoveAll(s: string, pat: string): (r: string)
    requires |pat| > 0
    ensures |r| <= |s|
    decreases |s|
  {
    if |s| == 0 then ""
    else if pat <= s then RemoveAll(s[|pat|..], pat)
    else [s[0]] + RemoveAll(s[1..], pat)
  }

  /** Text that cannot start an occurrence is kept as it is. */
  lemma {:induction false} RemoveAllKeepsFreeText(t: string, u: string, pat: string)
    requires |pat| > 0
    requires pat[0] !in t
    ensures RemoveAll(t + u, pat) == t + RemoveAll(u, pat)
    decreases |t|
  {
    if |t| > 0 {
      assert (t + u)[0] == t[0];
      assert !(pat <= t + u);
      assert (t + u)[1..] == t[1..] + u;
      assert pat[0] !in t[1..] by {
        forall k | 0 <= k < |t[1..]| ensures t[1..][k] != pat[0] {
          assert t[1..][k] == t[k + 1];
        }
      }
      RemoveAllKeepsFreeText(t[1..], u, pat);
      assert t == [t[0]] + t[1..];
    } else {
      assert t + u == u;
    }
  }

  /** A leading occurrence is dropped. */
  lemma RemoveAllDropsLeading(u: string, pat: string)
    requires |pat| > 0
    ensures RemoveAll(pat + u, pat) == RemoveAll(u, pat)
  {
    assert pat <= pat + u;
    assert (pat + u)[|pat|..] == u;
  }

  /** ASCII part of `toLowerCase`. */
  function LowerChar(c: char): char {
    if 'A' <= c <= 'Z' then (c as int + 32) as char else c
  }

  predicate IsUpper(c: char) {
    'A' <= c <= 'Z'
  }

  /** Lower-casing a character keeps it a blank, or not a blank. */
  lemma LowerCharKeepsBlank(c: char)
    ensures IsSpace(LowerChar(c)) <==> IsSpace(c)
  {
  }

  /** `s.toLowerCase()` on ASCII letters; other characters are kept. */
  function Lower(s: string): (t: string)
    ensures |t| == |s|
    ensures forall k :: 0 <= k < |s| ==> t[k] == LowerChar(s[k])
    ensures forall k :: 0 <= k < |t| ==> !IsUpper(t[k])
  {
    seq(|s|, k requires 0 <= k < |s| => LowerChar(s[k]))
  }

  /** A text that starts with a separator-free word and the separator splits into that
      word and the split of the rest. */
  lemma SplitAfterWord(a: string, rest: string, sep: char)
    requires sep !in a
    ensures Split(a + [sep] + rest, sep) == [a] + Split(rest, sep)
  {
    assert a + [sep] + rest == a + ([sep] + rest);
    SplitOfFreePrefix(a, [sep] + rest, sep);
    assert ([sep] + rest)[1..] == rest;
    var tail := Split([sep] + rest, sep);
    assert tail == [""] + Split(rest, sep);
    assert tail[0] == "" && tail[1..] == Split(rest, sep);
    assert a + "" == a;
  }
}

=== FILE: tryon.dfy ===
/**
 The Netlify `generate` function: a single, unauthenticated try-on run. The two
 images are passed on as URLs or data URIs, the prompt names the garment
 description, and the one output image is reported as all three views. No
 credits are read or written.

 The image-model call (`replicate.run`) is the `run` oracle.
 */
module TryOn {
  import opened Basics
  import opened Js
  import opened Text
  import opened Http
  import opened Jobs
  import opened Prompts

  /** The varying part of the model input: the prompt and `image_input`. */
  datatype ModelInput = ModelInput(prompt: string, images: seq<Value>)

  const ImagesMissing := "Both person and cloth images are required."
  const InternalError := "Internal Server Error"
  const NetlifyAnalysis := "Generated successfully via Netlify"

  /** `error.message || "Internal Server Error"` */
  function ErrorText(m: string): (r: string)
    ensures r != ""
    ensures m != "" ==> r == m
  {
    if m != "" then m else InternalError
  }

  /** The prompt of this function: the Express prompt without its identity sentence. */
  function NetlifyPrompt(desc: string): (prompt: string)
    ensures |prompt| == |PromptLead| + |desc| + |GarmentSentence|
    ensures StartsWith(prompt, PromptLead) && prompt[|PromptLead|..|PromptLead| + |desc|] == desc
  {
    PromptLead + desc + GarmentSentence
  }

  /** The model input built from a validated body. */
  function InputOf(body: Value, host: Builtins): (input: ModelInput)
    ensures |input.images| == 2
    ensures input.images[0] == EnsureDataUri(Get(body, "personImage"))
    ensures input.images[1] == EnsureDataUri(Get(body, "clothImage"))
    ensures forall k :: 0 <= k < 2 && input.images[k].Str? ==>
              StartsWith(input.images[k].s, HttpPrefix) || StartsWith(input.images[k].s, DataPrefix)
    // The prompt names the client's description, or "A cool outfit" when there is none.
    ensures !Truthy(Get(body, "garmentDescription")) ==> input.prompt == NetlifyPrompt(DefaultDescription)
    ensures Get(body, "garmentDescription").Str? && Get(body, "garmentDescription").s != "" ==>
              input.prompt == NetlifyPrompt(Get(body, "garmentDescription").s)
  {
    var desc := ToText(FirstTruthy([Get(body, "garmentDescription"), Str(DefaultDescription)]), host);
    ModelInput(NetlifyPrompt(desc), [EnsureDataUri(Get(body, "personImage")), EnsureDataUri(Get(body, "clothImage"))])
  }

  /** The handler; `body` is the parsed JSON body or the parser's error message. */
  function Generate(verb: string, body: Result<Value>, run: ModelInput -> Result<Value>, host: Builtins): (r: Reply)
    ensures verb != "POST" ==> r == Reply(405, Text("Must be a POST request"))
    ensures r.status == 400 <==>
              && verb == "POST" && body.Ok? && !body.value.Null?
              && !(Truthy(Get(body.value, "personImage")) && Truthy(Get(body.value, "clothImage")))
    ensures r.status == 400 ==> r.body == Error(ImagesMissing)
    ensures r.status == 200 <==>
              && verb == "POST" && body.Ok? && !body.value.Null?
              && Truthy(Get(body.value, "personImage")) && Truthy(Get(body.value, "clothImage"))
              && run(InputOf(body.value, host)).Ok?
    ensures r.status == 200 ==>
              var url := NormalizeOutput(run(InputOf(body.value, host)).value, host);
              r.body == Views(url, url, url, NetlifyAnalysis)
    ensures r.status == 500 ==> r.body == Crash || (r.body.Error? && r.body.message != "")
  {
    if verb != "POST" then Reply(405, Text("Must be a POST request"))
    else match body
      case Err(m) => Reply(500, Error(ErrorText(m)))
      case Ok(b) =>
        if b.Null? then Reply(500, Crash)
        else if !Truthy(Get(b, "personImage")) || !Truthy(Get(b, "clothImage")) then
          Reply(400, Error(ImagesMissing))
        else match run(InputOf(b, host))
          case Err(m) => Reply(500, Error(ErrorText(m)))
          case Ok(output) =>
            var url := NormalizeOutput(output, host);
            Reply(200, Views(url, url, url, NetlifyAnalysis))
  }

  /** The Netlify prompt is the start of the Express server's prompt for the same
      description, which only adds its identity sentence. */
  lemma PromptsAgree(desc: string)
    ensures NetlifyPrompt(desc) + IdentitySentence == TryOnPrompt(desc, false)
  {
  }

  /** The description can be read back from the prompt: different descriptions give
      different prompts. */
  lemma {:induction false} NetlifyPromptInjective(a: string, b: string)
    requires NetlifyPrompt(a) == NetlifyPrompt(b)
    ensures a == b
  {
    var p := NetlifyPrompt(a);
    assert |a| == |b|;
    assert a == p[|PromptLead|..|PromptLead| + |a|];
  }

  /** Wrapping the images again changes nothing, so a client that already sends
      data URIs gets the same model input. */
  lemma InputIsStable(body: Value, host: Builtins)
    ensures var input := InputOf(body, host);
            forall k :: 0 <= k < 2 ==> EnsureDataUri(input.images[k]) == input.images[k]
  {
    EnsureDataUriIdempotent(Get(body, "personImage"));
    EnsureDataUriIdempotent(Get(body, "clothImage"));
  }

  /** A raw base64 image is sent as a PNG data URI whose payload is the image. */
  lemma RawBase64IsWrapped(body: Value, host: Builtins, person: string)
    requires Get(body, "personImage") == Str(person)
    requires !StartsWith(person, HttpPrefix) && !StartsWith(person, DataPrefix)
    ensures var image := InputOf(body, host).images[0];
            image.Str? && StartsWith(image.s, PngBase64Prefix) && image.s[|PngBase64Prefix|..] == person
  {
  }
}

=== FILE: types.dfy ===
/**
 The garment categories the client offers, with the string each one is sent as.
 */
module Types {

  datatype GarmentType = Shirt | LongDress | ShortDress | LongSkirt | ShortSkirt | Pants | Jacket | Other

  /** The string literal of the union type, as the client sends it in `type`. */
  function WireName(g: GarmentType): (name: string)
    ensures name != ""
  {
    match g
    case Shirt => "shirt"
    case LongDress => "long_dress"
    case ShortDress => "short_dress"
    case LongSkirt => "long_skirt"
    case ShortSkirt => "short_skirt"
    case Pants => "pants"
    case Jacket => "jacket"
    case Other => "other"
  }

  /** Distinct categories are sent as distinct strings, so a receiver can tell them apart. */
  lemma WireNamesDistinct(g: GarmentType, h: GarmentType)
    ensures WireName(g) == WireName(h) ==> g == h
  {
  }
}

=== FILE: video.dfy ===
/**
 The Netlify `video-generate` function: a bearer-authenticated POST that
 charges 5 credits for a video request. The generation itself is not
 performed; once the debit is written the function answers that the video
 has started.
 */
module Video {
  import opened Basics
  import opened Js
  import opened Http
  import opened Ledger

  const VideoCost: Number := Finite(5.0)

  /** The balance this function assumes for a user who never had one. */
  const StartingCredits: Number := Finite(3.0)

  const LoginFirst := Reply(401, Error("Unauthorized: Please login first."))
  const TooFewCredits := Reply(403, Error("Insufficient credits! You need 5 credits for video generation."))

  /** The function's balance: the stored credits when they are a number, else 3. */
  function VideoBalance(u: User): Number {
    NumericCredits(u, StartingCredits)
  }

  /** The handler. `verify` resolves a session token to its subject, `body` is the
      parsed JSON body (an error carries the parser's message), `writeOk` whether
      the metadata update succeeds. */
  function Request(verb: string, authorization: Option<string>, verify: string -> Result<string>,
                   body: Result<Value>, d: Directory, writeOk: bool): (s: Step)
    ensures verb == "OPTIONS" ==> s == Step(Preflight, d)
    ensures verb != "OPTIONS" && verb != "POST" ==> s == Step(Reply(405, Text("Method Not Allowed")), d)
    ensures verb == "POST" && body.Ok? && !body.value.Null? && BearerToken(authorization).None? ==>
              s == Step(LoginFirst, d)
    ensures verb == "POST" && body.Err? ==> s == Step(Reply(500, Error(body.message)), d)
    // Inside the authentication block every failure is answered as a missing login,
    // except a balance below the cost.
    ensures verb == "POST" && body.Ok? && !body.value.Null? && BearerToken(authorization).Some? ==>
              var subject := verify(BearerToken(authorization).value);
              && (subject.Err? ==> s == Step(LoginFirst, d))
              && (subject.Ok? && FindUser(d, subject.value).None? ==> s == Step(LoginFirst, d))
              && (subject.Ok? && FindUser(d, subject.value).Some? ==>
                    var balance := VideoBalance(d[FindUser(d, subject.value).value]);
                    && (Less(balance, VideoCost) ==> s == Step(TooFewCredits, d))
                    && (!Less(balance, VideoCost) && !writeOk ==> s == Step(LoginFirst, d)))
    ensures s.reply.status == 200 <==>
              && verb == "POST" && body.Ok? && !body.value.Null?
              && BearerToken(authorization).Some? && verify(BearerToken(authorization).value).Ok?
              && FindUser(d, verify(BearerToken(authorization).value).value).Some?
              && !Less(VideoBalance(d[FindUser(d, verify(BearerToken(authorization).value).value).value]), VideoCost)
              && writeOk
    ensures s.reply.status == 200 ==>
              && s.reply == Reply(200, VideoStarted(5))
              && var i := FindUser(d, verify(BearerToken(authorization).value).value).value;
                 s.dir == UpdateMetadata(d, i, map[CreditsKey := Written(Num(Sub(VideoBalance(d[i]), VideoCost)))], map[])
    ensures s.reply.status != 200 ==> s.dir == d
  {
    if verb == "OPTIONS" then Step(Preflight, d)
    else if verb != "POST" then Step(Reply(405, Text("Method Not Allowed")), d)
    else match body
      case Err(m) => Step(Reply(500, Error(m)), d)
      case Ok(b) =>
        if b.Null? then Step(Reply(500, Crash), d)
        else match BearerToken(authorization)
          case None => Step(LoginFirst, d)
          case Some(token) =>
            match verify(token)
            case Err(_) => Step(LoginFirst, d)
            case Ok(userId) =>
              match FindUser(d, userId)
              case None => Step(LoginFirst, d)
              case Some(i) =>
                var balance := VideoBalance(d[i]);
                if Less(balance, VideoCost) then Step(TooFewCredits, d)
                else if !writeOk then Step(LoginFirst, d)
                else Step(Reply(200, VideoStarted(5)),
                          UpdateMetadata(d, i, map[CreditsKey := Written(Num(Sub(balance, VideoCost)))], map[]))
  }

  /** A charged request leaves a finite balance non-negative and exactly 5 lower. */
  lemma ChargeKeepsBalanceNonNegative(verb: string, authorization: Option<string>, verify: string -> Result<string>,
                                      body: Result<Value>, d: Directory, i: nat)
    requires i < |d| && VideoBalance(d[i]).Finite?
    requires var s := Request(verb, authorization, verify, body, d, true);
             s.reply.status == 200 && FindUser(d, verify(BearerToken(authorization).value).value) == Some(i)
    ensures var s := Request(verb, authorization, verify, body, d, true);
            && StoredCredits(s.dir[i]).Num? && StoredCredits(s.dir[i]).n.Finite?
            && StoredCredits(s.dir[i]).n.value == VideoBalance(d[i]).value - 5.0
            && StoredCredits(s.dir[i]).n.value >= 0.0
  {
  }

  /** A user who never had a balance starts from 3 credits and is refused a video. */
  lemma NewUserIsRefused(verb: string, authorization: Option<string>, verify: string -> Result<string>,
                         body: Result<Value>, d: Directory, i: nat)
    requires verb == "POST" && body.Ok? && !body.value.Null?
    requires BearerToken(authorization).Some? && verify(BearerToken(authorization).value).Ok?
    requires FindUser(d, verify(BearerToken(authorization).value).value) == Some(i)
    requires CreditsKey !in d[i].publicMeta
    ensures Request(verb, authorization, verify, body, d, true) == Step(TooFewCredits, d)
  {
  }
}
